=== FILE: README.md ===
# Monthly marketing report: a verified model

The application connects a user's marketing accounts and then builds a monthly
report from them. The accounts are Google (Search Console, Analytics 4 and Ads
share one grant), Semrush, LinkedIn, Meta and HubSpot.

- **Connecting accounts.** Four providers connect through an OAuth 2.0
  authorization-code flow. A single-use `state` value is kept in a short-lived
  cookie between the consent redirect and the callback. Semrush connects with
  an API key, which is checked against the Semrush API.
- **Where tokens live.** Access tokens are kept only in httpOnly cookies in the
  browser, for eight hours.
- **The wizard.** A three-step page tracks which sources are connected, lets
  the user pick report modules and name North Star goals, and removes modules
  when a source is disconnected.
- **The report.** The report endpoint asks each connected provider for last
  month's figures and returns one section per provider, in a fixed order. The
  report view streams an AI-written narrative and a list of actions to go with
  it.

The project models the following, and proves what each of them promises:

- the cookie session (`Cookies`, `Session`)
- the base-URL resolution (`Environment`, `BaseUrl`)
- the OAuth state store (`OAuthState`)
- the source catalog (`Catalog`)
- the four OAuth routes (`OAuthRoutes`, with their properties in `OAuthFlows`)
- the Semrush key route (`SemrushRoute`)
- the status and disconnect routes (`StatusRoute`, `DisconnectRoute`)
- the report route (`ReportSections`, `ReportBlocks`, `ReportRoute`, `SemrushCsv`)
- the wizard's state (`Wizard`, with the stateful page as the class `Wizard.App`)
- the streamed narrative (`Narrative`, with the class `Narrative.Summary`)
- JavaScript's string and number operations that these rely on (`Text`, `Numbers`)

How the outside world enters the model:

- **The cookie jar.** It is a map from cookie name to value and attributes.
  `Cookies.CookieStore` holds it as a mutable field, for the handlers that
  change it.
- **Environment variables** are an `Environment.Env` record of optional
  strings.
- **Random bytes** are a parameter of `OAuthState.GenerateOAuthState`.
- **Network calls.** Each outgoing request is described by a value, and its
  reply is an input: either a status and a parsed body, or `Threw` for a
  network failure. Nothing is sent.

In these places the code's behaviour is easy to miss; the model follows the
code:

- **Disconnecting Semrush** deletes `mbr_semrush_token` (app/api/auth/disconnect/route.ts:9).
  The key is stored under `mbr_semrush_apikey`, so it survives, and the status
  route keeps reporting Semrush as connected. `DisconnectRoute.SemrushKeyNotCleared`
  and `Session.SemrushLabelIgnoresApiKey` state this.
- **LinkedIn's callback address** is built from `NEXT_PUBLIC_APP_URL` with no
  fallback. When that variable is unset, the address begins with the text
  `undefined`.
- **Search Console impressions** are shown as whole thousands: `toFixed(0)` followed by "K" (app/api/report/route.ts:43).
- **Report blocks** are awaited one after another, each in its own `try` (app/api/report/route.ts:13-272). Only LinkedIn and HubSpot send two requests together, with `Promise.all`.

## Model

| member | source | states |
|---|---|---|
| Cookies.Lookup | lib/session.ts:19-21 | a value is read iff the name is in the jar, and it is that cookie's value |
| Cookies.CookieStore.Set | lib/session.ts:15-17 | the jar afterwards maps the name to the new value and attributes, and every other cookie is as before |
| Cookies.CookieStore.Delete | lib/session.ts:23-25 | the jar afterwards lacks the name, and every other cookie is as before |
| Session.SetTokenCookie | lib/session.ts:15-17 | the token is stored under its name with the credential attributes; nothing else in the jar changes |
| Session.GetTokenCookie | lib/session.ts:19-21 | a value is read exactly when the jar has the name, and it is the stored value |
| Session.ClearTokenCookie | lib/session.ts:23-25 | the named cookie is removed and nothing else changes |
| Session.StoreThenGet | lib/session.ts:7-21 | reading a stored token gives it back; it is httpOnly, SameSite lax, path "/", lives 8 hours (28800 s), and is secure exactly in production |
| Session.ClearThenGet | lib/session.ts:19-25 | after clearing, the token reads as absent |
| Session.OthersUntouched | lib/session.ts:15-25 | storing or clearing one cookie never changes what another name reads |
| Session.GetConnectedSources | lib/session.ts:27-44 | the loop collects exactly the labels whose cookie holds a non-empty value, in table order |
| Session.PresentLabelsOfPrefix | lib/session.ts:39-41 | after the first k checks, each label collected is present, in table order, and exactly the present ones among the k |
| Session.ConnectedLabelsOrdered | lib/session.ts:31-43 | at most five labels, without repeats, in google/semrush/linkedin/meta/hubspot order; a label appears iff its cookie is non-empty |
| Session.SemrushLabelIgnoresApiKey | lib/session.ts:33 | the semrush label follows `mbr_semrush_token` only; the stored API key does not count |
| BaseUrl.DropTrailingSlash | lib/base-url.ts:13 | at most one trailing "/" is dropped, and everything before it is kept |
| BaseUrl.GetBaseUrl | lib/base-url.ts:11-22 | the first non-empty of the override (trimmed, one trailing "/" dropped), the production host and the deployment host wins, the hosts prefixed by "https://"; otherwise the local address |
| BaseUrl.EmptyCountsAsUnset | lib/base-url.ts:12-20 | a variable set to "" is treated exactly as an unset one |
| BaseUrl.EarlierWins | lib/base-url.ts:12-20 | once a higher-priority variable is non-empty, the lower ones make no difference |
| BaseUrl.OverrideIsTrimmed | lib/base-url.ts:12-13 | the address is the trimmed override, with at most its final character dropped |
| OAuthState.StateCookieInjective | lib/oauth-state.ts:10 | different providers keep their states under different cookie names |
| OAuthState.Hex | lib/oauth-state.ts:9 | n bytes give 2n characters, each a lower-case hex digit |
| OAuthState.GenerateOAuthState | lib/oauth-state.ts:8-18 | the returned state is the hex of the random bytes, and it is the value of the provider's state cookie, which lives 10 minutes |
| OAuthState.ValidateOAuthState | lib/oauth-state.ts:20-25 | the state is accepted iff a non-empty stored value equals it; acceptance deletes the state cookie, and refusal changes nothing |
| OAuthState.GeneratedShape | lib/oauth-state.ts:9 | a generated state is 32 hex characters |
| OAuthState.IssuedStateValidates | lib/oauth-state.ts:8-25 | a state just issued validates for its provider |
| OAuthState.SingleUse | lib/oauth-state.ts:23 | a state that has been accepted is refused the second time |
| OAuthState.RefusalChangesNothing | lib/oauth-state.ts:21-22 | a refused state leaves the jar as it was |
| OAuthState.EmptyStateRefused | lib/oauth-state.ts:22 | the empty state is never accepted, whatever is stored |
| OAuthState.LatestStateWins | lib/oauth-state.ts:9-10 | after two states are issued, a state is accepted iff it is the second and non-empty |
| OAuthState.ProvidersIsolated | lib/oauth-state.ts:20-25 | validating or issuing for one provider leaves another provider's state and its acceptance as they were |
| StatusRoute.Get | app/api/auth/status/route.ts:16-22 | the loop builds the same record as the specification of the response |
| StatusRoute.Connected | app/api/auth/status/route.ts:6-20 | the keys are exactly the seven source identifiers, and each is true iff its cookie holds a value |
| StatusRoute.RecordEntries | app/api/auth/status/route.ts:18-20 | the record's keys are the entry names; with distinct names, each holds whether its cookie is present |
| StatusRoute.IdentifiersDistinct | app/api/auth/status/route.ts:6-14 | the seven source identifiers are distinct |
| StatusRoute.ConnectedShape | app/api/auth/status/route.ts:6-20 | the response has exactly the seven source keys, each true iff its cookie is present |
| StatusRoute.ConnectedKeys | app/api/auth/status/route.ts:6-14 | the response's keys are the catalog's source identifiers |
| StatusRoute.GoogleSourcesAgree | app/api/auth/status/route.ts:7-9 | the three Google sources are all reported from `mbr_google_token` |
| StatusRoute.SemrushFromApiKey | app/api/auth/status/route.ts:10-13 | Semrush follows the API-key cookie; LinkedIn, Meta and HubSpot follow their token cookies |
| StatusRoute.DependsOnlyOnItsCookies | app/api/auth/status/route.ts:16-22 | two jars that agree on the listed cookies give the same record |
| DisconnectRoute.CookieFor | app/api/auth/disconnect/route.ts:17 | a known source maps to its cookie and an unknown one to nothing |
| DisconnectRoute.Disconnected | app/api/auth/disconnect/route.ts:17-18 | the jar keeps every cookie except the source's own, each with its value, and nothing more |
| DisconnectRoute.Post | app/api/auth/disconnect/route.ts:15-20 | replies ok and deletes exactly the source's cookie; an unknown source changes nothing |
| DisconnectRoute.DeletesExactlyItsCookie | app/api/auth/disconnect/route.ts:17-18 | after disconnecting, the source's cookie is gone and every other cookie reads as before |
| DisconnectRoute.UnknownChangesNothing | app/api/auth/disconnect/route.ts:17-18 | an unknown source leaves the jar as it was |
| DisconnectRoute.Idempotent | app/api/auth/disconnect/route.ts:18 | disconnecting twice equals disconnecting once |
| DisconnectRoute.GoogleDisconnectsAllThree | app/api/auth/disconnect/route.ts:6-8 | disconnecting any Google source reports all three disconnected |
| DisconnectRoute.StatusFollowsDisconnect | app/api/auth/disconnect/route.ts:5-13 | after disconnecting a source (other than Semrush) the status route reports it disconnected |
| DisconnectRoute.SemrushKeyNotCleared | app/api/auth/disconnect/route.ts:9 | disconnecting Semrush leaves the API key, so the status route still reports it connected |
| Catalog.Find | lib/sources.ts:126 | finds the entry with the id if there is one, and nothing iff no entry has it |
| Catalog.GetSource | lib/sources.ts:126 | the source found has the id asked for |
| Catalog.IndexOf | lib/sources.ts:35-123 | each source id sits at its own position in the catalog |
| Catalog.SourceIdsExactlyOnce | lib/sources.ts:35-123 | each of the seven source ids occurs in the catalog exactly once |
| Catalog.ModulesBelongToTheirSource | lib/sources.ts:44-120 | every module names the source it is listed under |
| Catalog.AuthMethods | lib/sources.ts:40-116 | Semrush uses an API key and has no authorize path; every other source uses OAuth |
| Catalog.GoogleSourcesShareCookie | lib/sources.ts:42-105 | the three Google sources share the token cookie `mbr_google_token` |
| Catalog.OtherSourcesOwnCookie | lib/sources.ts:68-117 | only Google sources share a token cookie |
| Catalog.AllModulesInCatalogOrder | lib/sources.ts:125 | the module list is each source's modules, concatenated in catalog order |
| Catalog.Flatten | lib/sources.ts:125 | the flattened list holds exactly the modules that some source lists |
| Catalog.AllModules | lib/sources.ts:125 | every module of every catalog source is in the list, and nothing else |
| Catalog.ModuleIdsDistinct | lib/sources.ts:44-120 | the 17 module ids are distinct |
| Catalog.AllModuleIds | lib/sources.ts:125 | the flattened list's ids are the modules' ids source by source |
| Catalog.AllModulesDistinct | lib/sources.ts:125 | there are 17 modules and their ids are distinct |
| OAuthRoutes.ScopeMap | app/api/auth/google/route.ts:8-27 | a scope set exists exactly for "gsc", "ga4", "ads" and "all"; each starts with "openid email profile" and adds at least one scope |
| OAuthRoutes.Initiate | app/api/auth/google/route.ts:77-93 | sends no token request, redirects to the provider's consent endpoint, stores the hex of the random bytes as the state cookie and changes no other cookie |
| OAuthRoutes.Complete | app/api/auth/google/route.ts:47-74 | sends the token request for the code; only the token cookie can change, and only on a 2xx JSON reply, which redirects to the success page and stores the returned token |
| OAuthRoutes.Callback | app/api/auth/google/route.ts:40-75 | a token request is sent iff Google reported no error and the state is accepted; with none sent the jar is unchanged; only the state and token cookies can change |
| OAuthRoutes.Handle | app/api/auth/google/route.ts:31-94 | an unconfigured provider gets 503 with nothing sent or changed; a token request is sent only for a configured provider with a code and an accepted state; only the provider's own cookies change |
| OAuthRoutes.Param | app/api/auth/google/route.ts:81-89 | a parameter that is found is in the list under that name; one that is not found is absent from it |
| OAuthRoutes.Finish | app/api/auth/google/route.ts:47-74 | the token step's response, exchange and jar are those of its specification |
| OAuthRoutes.HandleCallback | app/api/auth/google/route.ts:40-75 | the callback's response, exchange and jar are those of its specification |
| OAuthRoutes.HandleInitiate | app/api/auth/google/route.ts:77-93 | the initiating request's redirect and jar are those of its specification |
| OAuthRoutes.Get | app/api/auth/google/route.ts:31-94 | the route's response, exchange and jar are those of its specification, for each of the four providers |
| OAuthFlows.CookiesDistinct | app/api/auth/google/route.ts:67 | a state cookie is never a token cookie, and different providers' cookies differ |
| OAuthFlows.ConfigurationGuardFirst | app/api/auth/hubspot/route.ts:8-10 | HubSpot and Meta without credentials reply 503 "not configured", with nothing sent and nothing changed; no other provider has this guard |
| OAuthFlows.GoogleAuthorizeCarriesState | app/api/auth/google/route.ts:81-89 | Google's consent redirect carries the issued state and the callback address |
| OAuthFlows.LinkedInAuthorizeCarriesState | app/api/auth/linkedin/route.ts:40-46 | LinkedIn's consent redirect carries the issued state and the callback address |
| OAuthFlows.HubSpotAuthorizeCarriesState | app/api/auth/hubspot/route.ts:44-49 | HubSpot's consent redirect carries the issued state and the callback address |
| OAuthFlows.MetaAuthorizeCarriesState | app/api/auth/meta/route.ts:42-48 | Meta's consent redirect carries the issued state and the callback address |
| OAuthFlows.AuthorizeCarriesState | app/api/auth/google/route.ts:78-89 | every provider's consent redirect carries the state and the callback address, as section 10.12 of RFC 6749 asks |
| OAuthFlows.InitiatesWithoutCode | app/api/auth/google/route.ts:77-93 | a request without a code issues a fresh state, stores it, and redirects to the consent screen |
| OAuthFlows.GoogleDenialBeforeState | app/api/auth/google/route.ts:41 | a Google callback with an error goes back with "google_denied", with nothing exchanged and nothing changed |
| OAuthFlows.OthersIgnoreError | app/api/auth/hubspot/route.ts:12-16 | for the other providers the error parameter makes no difference |
| OAuthFlows.StateMismatchStopsEarly | app/api/auth/google/route.ts:43-45 | a callback whose state is refused redirects with the state error, exchanges nothing and changes nothing |
| OAuthFlows.TokenFailureStoresNothing | app/api/auth/google/route.ts:59-61 | a failed token exchange redirects with the token error, consumes the state, and leaves the token as it was |
| OAuthFlows.SuccessStoresToken | app/api/auth/google/route.ts:63-74 | a good exchange stores the token, consumes the state, and redirects to the wizard |
| OAuthFlows.MissingTokenStillSucceeds | app/api/auth/google/route.ts:63-74 | a 2xx JSON reply without `access_token` still consumes the state, writes the token cookie empty and redirects to the success page |
| OAuthFlows.NonJsonReplyFails | app/api/auth/google/route.ts:63 | a 2xx reply that is not JSON ends in a 500, with the state consumed and no token written |
| OAuthFlows.TokenOnlyAfterValidState | app/api/auth/google/route.ts:40-74 | the token changes only if the provider is configured, a code came, it was not denied, the state was accepted, and the exchange replied 2xx |
| OAuthFlows.NoExchangeWithoutValidState | app/api/auth/google/route.ts:43-57 | a token request is sent only after the state is accepted |
| OAuthFlows.ExchangeMatchesAuthorize | app/api/auth/google/route.ts:47-57 | the token request carries the callback's code and the same callback address as the consent redirect, as section 4.1.3 of RFC 6749 requires |
| OAuthFlows.ExchangeVerb | app/api/auth/meta/route.ts:20-28 | Meta's token request is a GET; the others are POSTs |
| OAuthFlows.CompleteTouchesOnlyToken | app/api/auth/google/route.ts:47-74 | the token step changes no cookie but the token |
| OAuthFlows.CallbackTouchesOnlyOwnCookies | app/api/auth/google/route.ts:40-75 | a callback changes only its provider's cookies |
| OAuthFlows.TouchesOnlyOwnCookies | app/api/auth/google/route.ts:31-94 | any request to a provider's route changes only that provider's cookies |
| OAuthFlows.ProvidersIsolated | app/api/auth/google/route.ts:31-94 | a route never changes another provider's state or token cookie |
| OAuthFlows.InitiateThenCallback | app/api/auth/google/route.ts:31-94 | the callback to a fresh redirect, with its state and a good exchange, stores the token; a replay of that callback is refused |
| OAuthFlows.CallbackThenReplay | app/api/auth/google/route.ts:40-74 | a callback with an accepted state and a good exchange stores the token and redirects to success; replaying it is refused with the state error and changes nothing |
| OAuthFlows.ScopeFallback | app/api/auth/google/route.ts:34 | a missing or unknown scope key asks for the same scopes as "all" |
| OAuthFlows.ScopeTable | app/api/auth/google/route.ts:8-27 | every scope set starts with "openid email profile" and adds at least one scope; "all" is the union of the gsc, ga4 and ads sets |
| OAuthFlows.GoogleScopeParameter | app/api/auth/google/route.ts:79-85 | the consent redirect's scope is the chosen scopes joined by spaces |
| SemrushRoute.Plan | app/api/auth/semrush/route.ts:41-52 | the AI overview is available iff the probe was not refused with 403; the plan text follows it; requests left is 0 |
| SemrushRoute.Check | app/api/auth/semrush/route.ts:27-60 | 200 exactly when the key probe replied neither 401 nor 403 and its body was read; then the key is stored, the plan returned and both probes sent; otherwise an error, only the key probe sent and the jar unchanged |
| SemrushRoute.Validate | app/api/auth/semrush/route.ts:14-60 | a malformed key gets 400 with nothing sent or changed; 200 exactly when the key is well formed and the probe accepts it, and then the stored key is the trimmed one, at least 10 characters; otherwise the jar is unchanged |
| SemrushRoute.Probes | app/api/auth/semrush/route.ts:27-56 | the probe's outcome is that of its specification |
| SemrushRoute.Post | app/api/auth/semrush/route.ts:14-69 | the response and the jar are those of the specification of the route |
| SemrushRoute.Delete | app/api/auth/semrush/route.ts:71-75 | deletes the API-key cookie, changes nothing else, and replies ok |
| SemrushRoute.MalformedKeyRefused | app/api/auth/semrush/route.ts:17-19 | a key that is not a string, or is shorter than 10 characters once trimmed, gets 400; nothing is sent or stored |
| SemrushRoute.RejectedKeyRefused | app/api/auth/semrush/route.ts:33-35 | a probe answered 401 or 403 gets 401; only the key probe is sent, and nothing is stored |
| SemrushRoute.UnreachableProbe | app/api/auth/semrush/route.ts:54-56 | a probe that throws gets 502 after the key probe is sent, and stores nothing |
| SemrushRoute.ProbesAccept | app/api/auth/semrush/route.ts:37-66 | any other answer, a 5xx included, gives 200 with the plan; both probes are sent; the key is stored for 8 hours, and the status route reports Semrush connected |
| SemrushRoute.AcceptedKeyStored | app/api/auth/semrush/route.ts:21 | the key probed and stored is the trimmed one |
| SemrushRoute.StoredKeyConnects | app/api/auth/semrush/route.ts:60 | after an accepted key the status route reports Semrush connected |
| SemrushRoute.CookieOnlyOnSuccess | app/api/auth/semrush/route.ts:14-69 | the jar changes only with a 200 response; the key then stored is the trimmed one, at least 10 characters long |
| SemrushRoute.DeleteDisconnects | app/api/auth/semrush/route.ts:71-75 | after DELETE the status route reports Semrush disconnected |
| ReportSections.Failure | app/api/report/route.ts:59 | a well-formed section with this title and source, carrying only the error message |
| ReportSections.Pushed | app/api/report/route.ts:14-15 | a block contributes its section iff its guard holds |
| ReportBlocks.Top | app/api/report/route.ts:49 | at most n rows are kept, and they are the first ones |
| ReportBlocks.GscSite | app/api/report/route.ts:17 | the configured site when set; otherwise `sc-domain:` plus the domain; none when neither is set |
| ReportBlocks.Gsc | app/api/report/route.ts:13-61 | the Search Console section is well-formed and from Search Console |
| ReportBlocks.Rate | app/api/report/route.ts:95 | "0%" when sessions are 0 or NaN; otherwise a one-decimal percentage that is NaN exactly when the quotient is |
| ReportBlocks.Ga4 | app/api/report/route.ts:63-115 | the Analytics section is well-formed and from Analytics |
| ReportBlocks.Field | app/api/report/route.ts:153 | a column is read exactly when the record has it |
| ReportBlocks.Semrush | app/api/report/route.ts:117-159 | the Semrush section is well-formed and from Semrush |
| ReportBlocks.LinkedIn | app/api/report/route.ts:161-198 | the LinkedIn section is well-formed and from LinkedIn |
| ReportBlocks.PurchaseValue | app/api/report/route.ts:213 | the value of the first purchase action, "0" when that value is missing or there is no purchase |
| ReportBlocks.Roas | app/api/report/route.ts:214 | "—x" when spend is missing or the purchase value parses to 0 or NaN |
| ReportBlocks.Meta | app/api/report/route.ts:200-229 | the Meta section is well-formed and from Meta |
| ReportBlocks.HubSpot | app/api/report/route.ts:231-270 | the HubSpot section is well-formed and from HubSpot |
| ReportBlocks.GscNeedsSite | app/api/report/route.ts:17-18 | with no site configured, Search Console fails with its message |
| ReportBlocks.GscRejectedStatus | app/api/report/route.ts:30 | a non-2xx reply fails with the status in the message |
| ReportBlocks.GscTableShape | app/api/report/route.ts:47-56 | a successful reply has no error; the queries table exists iff selected, and has the first 20 queries in order |
| ReportBlocks.GscScenario | app/api/report/route.ts:33-43 | two sample rows give 30 clicks, impressions of 0.3 thousand shown with no decimal and a "K", and an average position of 2.0 |
| ReportBlocks.Ga4IgnoresStatus | app/api/report/route.ts:81-82 | Analytics reads its rows whatever the status of the reply |
| ReportBlocks.Ga4NeedsProperty | app/api/report/route.ts:66-67 | with no property configured, Analytics fails with its message |
| ReportBlocks.Ga4UnparsableSessions | app/api/report/route.ts:84-95 | one unparsable session count makes the sessions total NaN, and the rate reads "0%" |
| ReportBlocks.Ga4TableShape | app/api/report/route.ts:97-110 | the channel table exists iff selected, with one row per channel returned |
| ReportBlocks.SemrushFailureMessage | app/api/report/route.ts:156-158 | a Semrush request that throws reports the fixed Semrush failure message |
| ReportBlocks.SemrushAiNeedsSelection | app/api/report/route.ts:132-149 | without the AI-overview module, its figure reads as the upgrade notice |
| ReportBlocks.SemrushOneLineReply | app/api/report/route.ts:146-154 | a reply with no data lines gives 0 keywords, no average, and no table |
| ReportBlocks.SemrushTableShape | app/api/report/route.ts:151-154 | the rankings table exists iff selected and the CSV has records, and has at most 15 rows |
| ReportBlocks.LinkedInNeedsOrg | app/api/report/route.ts:165-166 | with no organisation configured, LinkedIn fails with its message |
| ReportBlocks.MetaNeedsAccount | app/api/report/route.ts:204-205 | with no ad account configured, Meta fails with its message |
| ReportBlocks.MetaEmptyInsights | app/api/report/route.ts:211-224 | with no insights row, spend reads 0 and ROAS reads "—x" |
| ReportBlocks.HubSpotShape | app/api/report/route.ts:247-265 | the deal count is the number of deals returned; the table exists iff selected and non-empty, with at most 10 rows |
| ReportRoute.Outcome | app/api/report/route.ts:13-270 | each section built sits at the position of its provider |
| ReportRoute.Report | app/api/report/route.ts:11-272 | at most six sections; each is the section of a block that runs, and every running block's section is among them |
| ReportRoute.Sections | app/api/report/route.ts:11-272 | well-formed sections in strictly increasing provider order, at most six, and a provider has one exactly when its block runs |
| ReportRoute.FlagsAre | app/api/report/route.ts:14-233 | block i runs iff its cookie is present and a module with its prefix is selected |
| ReportRoute.Post | app/api/report/route.ts:7-273 | the sections returned are those of the report's specification |
| ReportRoute.Handle | app/api/report/route.ts:7-273 | the response is the report built from the jar, the selection and the replies |
| ReportRoute.OneSectionPerProviderInOrder | app/api/report/route.ts:11-272 | at most six sections, well-formed, in strictly increasing provider order |
| ReportRoute.ReportedExactlyWhenRun | app/api/report/route.ts:14-233 | a provider appears in the report iff its block runs |
| ReportRoute.NothingToReport | app/api/report/route.ts:11-272 | no connected, selected source gives an empty report |
| ReportRoute.GoogleAdsAloneReportsNothing | app/api/report/route.ts:15-233 | selecting only Google Ads modules reports nothing |
| ReportRoute.SameGuardsSamePositions | app/api/report/route.ts:11-272 | the providers reported depend only on the jar and the selection, and each section is its block's |
| ReportRoute.FailuresStayLocal | app/api/report/route.ts:58-268 | changing replies keeps the providers reported; a section whose block got the same reply is unchanged |
| ReportRoute.SameReplySameSection | app/api/report/route.ts:13-270 | a block given the same reply builds the same section |
| SemrushCsv.Cell | app/api/report/route.ts:287 | a missing cell reads as ""; a present one is trimmed |
| SemrushCsv.Names | app/api/report/route.ts:284-287 | the header names are the trimmed header cells, in order |
| SemrushCsv.Cells | app/api/report/route.ts:286-287 | one cell per column, each read as Cell reads it |
| SemrushCsv.SplitCount | app/api/report/route.ts:282 | splitting gives one piece more than there are separators |
| SemrushCsv.Entries | app/api/report/route.ts:285-288 | a record's keys are exactly the trimmed header names |
| SemrushCsv.Parse | app/api/report/route.ts:281-289 | one record per line break of the trimmed text, each keyed by exactly the trimmed names of the header line |
| SemrushCsv.OneRecordPerLineBreak | app/api/report/route.ts:281-289 | one record per line break in the trimmed text, so fewer than two lines give none |
| SemrushCsv.EntriesShape | app/api/report/route.ts:285-288 | a record has exactly the header names as keys; each holds the cell of the last column with that name |
| Text.Or | app/api/report/route.ts:59 | a non-empty text is kept, and the empty text gives the fallback; the error messages and the prompt's defaults use it |
| Text.TrimStart | app/api/auth/semrush/route.ts:17 | a suffix of the input without a leading blank, and everything removed is blank |
| Text.TrimEnd | app/api/auth/semrush/route.ts:17 | a prefix of the input without a trailing blank, and everything removed is blank |
| Text.Trim | app/api/auth/semrush/route.ts:17 | the result is a contiguous piece of the input with only blanks cut off before and after it, and has no blank at either end |
| Text.TrimPiece | app/api/auth/semrush/route.ts:17 | cutting blanks off the start and then off the end leaves a piece of the input surrounded only by blanks |
| Text.TrimIdempotent | app/api/auth/semrush/route.ts:21 | trimming twice equals trimming once |
| Text.Split | app/api/report/route.ts:282 | at least one piece, and no piece holds the separator |
| Text.JoinSplit | app/api/report/route.ts:282-284 | joining the pieces back with the separator gives the text |
| Text.Take | app/components/ReportView.tsx:21 | a prefix of at most n characters; the whole text when it is that short |
| Text.IndexOf | app/components/ReportView.tsx:55 | -1 iff the pattern does not occur; otherwise its first occurrence |
| Text.IndexOfStable | app/components/ReportView.tsx:55-56 | once the pattern occurs, extending the text keeps its first position |
| Text.NatToString | app/api/report/route.ts:147 | at least one decimal digit, with no leading zero |
| Text.NatToStringRoundTrip | app/api/report/route.ts:147 | reading the digits back gives the number |
| Text.IntToString | app/api/report/route.ts:30 | starts with "-" iff the number is negative |
| Text.IntToStringRoundTrip | app/api/report/route.ts:30 | reading the rendering back gives the integer: a minus sign and the digits of its magnitude, or just its digits |
| Numbers.Add | app/api/report/route.ts:33 | NaN iff an operand is NaN or the infinities are opposite; the exact sum on finite operands |
| Numbers.Div | app/api/report/route.ts:43 | NaN propagates; a non-zero divisor gives the exact quotient; 0/0 is NaN and any other division by 0 is not |
| Numbers.Scale | app/api/report/route.ts:35 | NaN iff the operand is NaN; a finite value is scaled exactly |
| Numbers.SumOfFinite | app/api/report/route.ts:33-34 | summing finite numbers gives their exact sum |
| Numbers.NaNPoisonsSum | app/api/report/route.ts:84 | one NaN summand makes the total NaN |
| Wizard.RestoreStep | app/page.tsx:23-29 | the restored step is never the report step; it is "configure" iff that is what was saved, and "connect" otherwise |
| Wizard.Without | app/page.tsx:101 | keeps exactly the selected ids not being removed, and never grows |
| Wizard.WithoutInOrder | app/page.tsx:83 | the filter's result is the selection with some entries dropped and the rest in their original order, and every dropped entry is one of the removed ids |
| Wizard.WithoutAppend | app/page.tsx:83 | filtering a concatenation filters each part |
| Wizard.WithoutNothing | app/page.tsx:83 | an id that is not selected leaves the selection as it was |
| Wizard.WithoutDistinct | app/page.tsx:101 | filtering keeps a selection free of repeats |
| Wizard.Dedup | app/page.tsx:105 | the merge holds exactly the ids of its input, without repeats |
| Wizard.MergeKeepsSelection | app/page.tsx:105 | the merge extends the old selection and holds exactly the old and new ids, without repeats |
| Wizard.Toggle | app/page.tsx:101 | a selected id is removed and the other ids stay, in their order; an unselected one is appended |
| Wizard.ToggleTwice | app/page.tsx:101 | toggling a module twice gives the selection back |
| Wizard.ToggleDistinct | app/page.tsx:101 | toggling keeps the selection free of repeats |
| Wizard.ToggleAllShape | app/page.tsx:102-106 | all on: they are all removed and the rest kept; otherwise the old selection is extended by all of them; never a repeat |
| Wizard.ToggleAll | app/page.tsx:102-106 | all on: exactly the old ids outside the source remain, in their order; otherwise the old selection joined with the source's ids, without repeats |
| Wizard.SourceNamed | app/page.tsx:82 | finds the source whose identifier is the name, or nothing iff none has it |
| Wizard.SourceNamedFinds | app/page.tsx:82 | looking a source up by its identifier finds the catalog entry |
| Wizard.DisconnectPrunes | app/page.tsx:82-83 | disconnecting a source removes exactly its modules from the selection and keeps the rest in their order |
| Wizard.UnknownDisconnectKeepsSelection | app/page.tsx:82-83 | disconnecting an unknown id leaves the selection as it was |
| Wizard.SemrushModulesOfCatalog | app/page.tsx:94 | the Semrush modules are those the catalog lists, minus the AI overview when it is not available |
| Wizard.SemrushMergeShape | app/page.tsx:94-96 | a good key keeps the old selection, adds rankings and competitors, and the AI overview iff available or already selected, never a repeat |
| Wizard.WithField | app/page.tsx:117 | only the chosen field of the goal takes the new value |
| Wizard.UpdatedNorthStars | app/page.tsx:116-118 | editing a goal keeps the number of goals and leaves the other goals as they were |
| Wizard.ConnectedSources | app/page.tsx:71 | exactly the catalog sources the status marks connected |
| Wizard.ShownInCatalogOrder | app/page.tsx:71 | the sources shown as connected are those the status reports, in catalog order |
| Wizard.AfterStatus | app/page.tsx:56 | the step changes only to "configure", only with auto-advance on and some source connected, and then it does |
| Wizard.NoAdvanceWithoutConnection | app/page.tsx:56 | with nothing connected the wizard stays where it is |
| Wizard.App.constructor | app/page.tsx:23-46 | the stored step is restored; nothing connected or selected; four empty goals; the key dialog at its first step with no error and no plan |
| Wizard.App.FetchStatus | app/page.tsx:50-57 | the connected map becomes the status (empty when it failed); the step moves as AfterStatus says; nothing else changes; the selection stays free of repeats |
| Wizard.App.ToggleModule | app/page.tsx:101 | the selection becomes the toggled one, and nothing else changes; the selection stays free of repeats |
| Wizard.App.ToggleAllFromSource | app/page.tsx:102-106 | the selection becomes the source-wide toggle, and nothing else changes; the selection stays free of repeats |
| Wizard.App.HandleDisconnect | app/page.tsx:78-84 | Semrush goes to its own route and the others to the disconnect route; the status is refreshed; the source's modules are pruned; nothing else changes; the selection stays free of repeats |
| Wizard.App.ApplyKeyCheck | app/page.tsx:89-97 | a good reply records the plan, goes to the third panel and merges the offered modules; a refusal shows its error or the generic one; no reply shows the connection error; the selection stays free of repeats |
| Wizard.App.ValidateSemrushKey | app/page.tsx:86-99 | a blank key shows its error and sends nothing; otherwise the trimmed key is sent and the reply applied as in ApplyKeyCheck; the selection stays free of repeats |
| Wizard.App.UpdateNorthStar | app/page.tsx:116-118 | the goals become the edited ones, and nothing else changes; the selection stays free of repeats |
| Narrative.Named | app/components/ReportView.tsx:20 | keeps exactly the goals with a non-empty label, never more |
| Narrative.Lines | app/components/ReportView.tsx:20 | one line per goal, each that goal's line |
| Narrative.NsContext | app/components/ReportView.tsx:20 | the goal context is empty exactly when no goal has a label |
| Narrative.ContextLines | app/components/ReportView.tsx:20 | the goal context splits into one line per labelled goal |
| Narrative.DataContext | app/components/ReportView.tsx:21 | a prefix of the serialized data of at most 3000 characters, the whole of it when shorter |
| Narrative.Opening | app/components/ReportView.tsx:22 | names the company, or "la empresa" when no company is given |
| Narrative.Prompt | app/components/ReportView.tsx:22-40 | the prompt starts with the company (or "la empresa"), the industry (or "B2B"), the preamble and the goal block (or "No se especificaron."); the data context follows its heading; the instructions close it |
| Narrative.Delta | app/components/ReportView.tsx:50-59 | a line that is not a data line, or whose payload does not parse, contributes nothing |
| Narrative.DeltaFilter | app/components/ReportView.tsx:50-54 | a line adds text exactly when it is a `data:` line whose payload parses to a `content_block_delta` event with non-empty text, and then it adds exactly that text |
| Narrative.FullOnlyGrows | app/components/ReportView.tsx:53-54 | the text of the first chunks is a prefix of the text of all |
| Narrative.OnlyDataLines | app/components/ReportView.tsx:50 | lines that are all non-data lines contribute nothing |
| Narrative.Separate | app/components/ReportView.tsx:55-57 | without the actions marker the whole text is narrative and the JSON part empty; with it, the JSON part is the suffix from its first occurrence |
| Narrative.SeparateNarrative | app/components/ReportView.tsx:56 | with the marker, the narrative is the trimmed text before the JSON part |
| Narrative.MarkerFreezesNarrative | app/components/ReportView.tsx:55-57 | once the marker has arrived, more text leaves the narrative unchanged and goes to the JSON part |
| Narrative.StripFencesPlain | app/components/ReportView.tsx:64 | text without fence marks is kept as it is |
| Narrative.StripFencedObject | app/components/ReportView.tsx:64 | a ```json fenced block yields its contents |
| Narrative.StripFences | app/components/ReportView.tsx:64 | the result is never longer and holds only characters of the input |
| Narrative.ActionsOf | app/components/ReportView.tsx:64 | no JSON part gives no actions |
| Narrative.Summary.Absorb | app/components/ReportView.tsx:51-59 | the text grows by the line's delta, and narrative and JSON part are re-split from it; a non-empty delta shows the new narrative, an empty one leaves the shown text; actions and loading are unchanged |
| Narrative.Summary.AbsorbChunk | app/components/ReportView.tsx:50-61 | the text grows by the chunk's deltas in order, and narrative and JSON part are re-split from it; the shown text is the new narrative if any delta arrived, and unchanged otherwise |
| Narrative.Summary.Read | app/components/ReportView.tsx:47-62 | after the stream, narrative and JSON part are the split of all the deltas; the shown text is that narrative if any delta arrived, and unchanged otherwise |
| Narrative.Summary.StreamSummary | app/components/ReportView.tsx:18-69 | loading ends; a broken stream shows the fallback text; otherwise the narrative of the whole stream is shown and parsed actions replace the old ones |

## Left out

- The executive-summary route (app/api/exec-summary/route.ts), the page layout, JSX, styles and icons are not part of this model.
- Network I/O is not modelled. Each request is a value and each reply an input; timeouts collapse into `Threw`. For parallel work, `Promise.all` is taken as giving the first failure.
- Random bytes are a parameter of the state generator, not drawn from a random source.
- Floating point is not modelled: numbers are exact reals. `toFixed` and `toLocaleString` are kept symbolic.
- The clock is not modelled, and neither are the request bodies that carry its dates: the Search Console and Analytics request bodies built from `thirtyDaysAgo()` and `today()` (app/api/report/route.ts:20-21, 75) are left out together with the rest of the outgoing URLs and bodies.
- The wizard's timers and storage are not modelled: `setInterval`, the `sessionStorage` write, `window.location`, history changes, navigation in `handleConnect`, `generateReport`, and the arrow glyph of a goal.
- URL encoding is not modelled: query strings are lists of name/value pairs. This leaves out `URLSearchParams` serialisation, `encodeURIComponent`, and the exact URLs the report sends to providers.
- Malformed JSON request bodies, cookie expiry enforcement by the browser, and JavaScript prototype keys in map lookups are not modelled.
- Strings are sequences of characters, so UTF-16 slicing is not modelled.
- Stream chunk boundaries are not modelled: each chunk is decoded and split into lines on its own. A `TextDecoder` in streaming mode, or a line spanning two chunks, is not covered.
- Wizard.App.ToggleAllFromSource: decides "all on" on the current selection. The page decides it on the selection of the last render, and the two differ only when updates are batched.
- Wizard.App.ValidateSemrushKey: the busy flag and the panel's open state are not modelled.
- The source catalog's display fields are not modelled: names, colours, descriptions and icons.
- ReportRoute.Post: is given every block's section, built in advance, and the guard decides which are pushed. The route sends a block's requests only when that block runs, and that difference is not modelled.
- Narrative.Prompt: `JSON.stringify(data, null, 2)` of the report data is not modelled; the serialised text is its parameter `serialized`.
- Wizard.App.HandleDisconnect: assumes the disconnect request succeeds. In the page (app/page.tsx:79-83) a rejected `fetch` throws before the status refresh and the pruning, so neither happens; the model always refreshes and prunes.
- OAuthRoutes.Complete: a 2xx JSON reply whose `access_token` is absent stores an empty cookie value, which is how Next.js serialises `undefined`; an `access_token` that is some other JSON type (a number, an object) is not modelled.

=== FILE: base_url.dfy ===
/**
 * The process environment the server reads, and the canonical application
 * URL resolved from it (lib/base-url.ts).
 */
module Environment {

  import opened Wrappers

  /** The environment variables the application reads; None is unset. */
  datatype Env = Env(
    nodeEnv: Option<string>,
    appUrl: Option<string>,                 // NEXT_PUBLIC_APP_URL
    vercelProductionUrl: Option<string>,    // VERCEL_PROJECT_PRODUCTION_URL
    vercelUrl: Option<string>,              // VERCEL_URL
    googleClientId: Option<string>,
    googleClientSecret: Option<string>,
    hubspotClientId: Option<string>,
    hubspotClientSecret: Option<string>,
    linkedinClientId: Option<string>,
    linkedinClientSecret: Option<string>,
    metaAppId: Option<string>,
    metaAppSecret: Option<string>)

  /** `process.env.NODE_ENV === "production"`, which decides the `secure`
      attribute of every cookie. */
  predicate Production(env: Env) {
    env.nodeEnv == Some("production")
  }
}

module BaseUrl {

  import opened Wrappers
  import opened Text
  import opened Environment

  const LocalUrl := "http://localhost:3000"

  /** `s.replace(/\/$/, "")`: one trailing slash removed, if there is one. */
  function DropTrailingSlash(s: string): (r: string)
    ensures |s| > 0 && s[|s| - 1] == '/' ==> r + "/" == s
    ensures (|s| == 0 || s[|s| - 1] != '/') ==> r == s
  {
    if |s| > 0 && s[|s| - 1] == '/' then s[..|s| - 1] else s
  }

  /** `getBaseUrl()`: the first non-empty of NEXT_PUBLIC_APP_URL (trimmed,
      one trailing slash dropped), VERCEL_PROJECT_PRODUCTION_URL and
      VERCEL_URL (both behind "https://"), else the local development URL. */
  function GetBaseUrl(env: Env): (url: string)
    ensures Truthy(env.appUrl) ==>
              var t := Trim(env.appUrl.value);
              && (|t| > 0 && t[|t| - 1] == '/' ==> url + "/" == t)
              && (|t| == 0 || t[|t| - 1] != '/' ==> url == t)
    ensures !Truthy(env.appUrl) && Truthy(env.vercelProductionUrl) ==>
              url == "https://" + env.vercelProductionUrl.value
    ensures !Truthy(env.appUrl) && !Truthy(env.vercelProductionUrl) && Truthy(env.vercelUrl) ==>
              url == "https://" + env.vercelUrl.value
    ensures !Truthy(env.appUrl) && !Truthy(env.vercelProductionUrl) && !Truthy(env.vercelUrl) ==>
              url == LocalUrl
  {
    if Truthy(env.appUrl) then DropTrailingSlash(Trim(env.appUrl.value))
    else if Truthy(env.vercelProductionUrl) then "https://" + env.vercelProductionUrl.value
    else if Truthy(env.vercelUrl) then "https://" + env.vercelUrl.value
    else LocalUrl
  }

  /** A variable set to the empty string is the same as an unset one. */
  lemma EmptyCountsAsUnset(env: Env)
    ensures GetBaseUrl(env.(appUrl := Some(""))) == GetBaseUrl(env.(appUrl := None))
    ensures GetBaseUrl(env.(vercelProductionUrl := Some(""))) == GetBaseUrl(env.(vercelProductionUrl := None))
    ensures GetBaseUrl(env.(vercelUrl := Some(""))) == GetBaseUrl(env.(vercelUrl := None))
  {
  }

  /** An earlier variable in the chain beats every later one: once it is set,
      the later ones do not matter. */
  lemma EarlierWins(env: Env, production: Option<string>, deployment: Option<string>)
    ensures Truthy(env.appUrl) ==>
              GetBaseUrl(env.(vercelProductionUrl := production, vercelUrl := deployment)) == GetBaseUrl(env)
    ensures Truthy(env.vercelProductionUrl) ==>
              GetBaseUrl(env.(vercelUrl := deployment)) == GetBaseUrl(env)
  {
  }

  /** The override keeps no white space at its start and loses at most its
      last slash. */
  lemma OverrideIsTrimmed(env: Env)
    requires Truthy(env.appUrl)
    ensures StartsWith(Trim(env.appUrl.value), GetBaseUrl(env))
    ensures |Trim(env.appUrl.value)| - 1 <= |GetBaseUrl(env)|
  {
  }
}

=== FILE: catalog.dfy ===
/**
 * The declarative catalog of data sources and their report modules
 * (lib/sources.ts). Display-only fields (names, descriptions, colour, icon)
 * are not carried.
 */
module Catalog {

  import opened Wrappers
  import opened Text

  datatype SourceId =
    | GoogleSearchConsole
    | GoogleAnalytics
    | GoogleAds
    | Semrush
    | LinkedIn
    | MetaAds
    | HubSpot

  /** The identifier as the client and the JSON bodies spell it. */
  function IdName(id: SourceId): string {
    match id
    case GoogleSearchConsole => "google_search_console"
    case GoogleAnalytics => "google_analytics"
    case GoogleAds => "google_ads"
    case Semrush => "semrush"
    case LinkedIn => "linkedin"
    case MetaAds => "meta_ads"
    case HubSpot => "hubspot"
  }

  datatype AuthMethod = OAuth | ApiKey

  datatype Module = Module(id: string, sourceId: SourceId)

  datatype Source = Source(
    id: SourceId,
    authMethod: AuthMethod,
    authPath: Option<string>,
    tokenCookie: string,
    modules: seq<Module>)

  const Sources: seq<Source> := [
    Source(GoogleSearchConsole, OAuth, Some("/api/auth/google?scope=gsc"), "mbr_google_token", [
      Module("gsc_summary", GoogleSearchConsole),
      Module("gsc_queries", GoogleSearchConsole),
      Module("gsc_trend", GoogleSearchConsole)]),
    Source(GoogleAnalytics, OAuth, Some("/api/auth/google?scope=ga4"), "mbr_google_token", [
      Module("ga4_traffic", GoogleAnalytics),
      Module("ga4_conversions", GoogleAnalytics),
      Module("ga4_pages", GoogleAnalytics)]),
    Source(Semrush, ApiKey, None, "mbr_semrush_apikey", [
      Module("semrush_ai_overview", Semrush),
      Module("semrush_rankings", Semrush),
      Module("semrush_competitors", Semrush)]),
    Source(LinkedIn, OAuth, Some("/api/auth/linkedin"), "mbr_linkedin_token", [
      Module("linkedin_page", LinkedIn),
      Module("linkedin_benchmark", LinkedIn)]),
    Source(MetaAds, OAuth, Some("/api/auth/meta"), "mbr_meta_token", [
      Module("meta_summary", MetaAds),
      Module("meta_campaigns", MetaAds)]),
    Source(GoogleAds, OAuth, Some("/api/auth/google?scope=ads"), "mbr_google_token", [
      Module("gads_summary", GoogleAds),
      Module("gads_keywords", GoogleAds)]),
    Source(HubSpot, OAuth, Some("/api/auth/hubspot"), "mbr_hubspot_token", [
      Module("hubspot_leads", HubSpot),
      Module("hubspot_email", HubSpot)])
  ]

  /** `sources.flatMap((s) => s.modules)`: exactly the modules the sources
      list. */
  function Flatten(sources: seq<Source>): (r: seq<Module>)
    ensures forall m :: m in r <==> exists s :: s in sources && m in s.modules
  {
    if sources == [] then []
    else
      assert forall s :: s in sources <==> s == sources[0] || s in sources[1..];
      sources[0].modules + Flatten(sources[1..])
  }

  /** A catalog source lists the module. */
  predicate Listed(m: Module) {
    exists s :: s in Sources && m in s.modules
  }

  /** `ALL_MODULES`: every module of every catalog source, and nothing else. */
  function AllModules(): (r: seq<Module>)
    ensures forall m :: m in r <==> Listed(m)
  {
    Flatten(Sources)
  }

  /** The first source with identifier `id` (`SOURCES.find`). */
  function Find(sources: seq<Source>, id: SourceId): (r: Option<Source>)
    ensures r.Some? ==> r.value in sources && r.value.id == id
    ensures r.None? ==> forall s :: s in sources ==> s.id != id
  {
    if sources == [] then None
    else if sources[0].id == id then Some(sources[0])
    else Find(sources[1..], id)
  }

  /** `getSource(id)`: every identifier has its catalog entry. */
  function GetSource(id: SourceId): (s: Source)
    ensures s in Sources && s.id == id
  {
    assert Sources[IndexOf(id)].id == id;
    Find(Sources, id).value
  }

  /** The position of a source in the catalog. */
  function IndexOf(id: SourceId): (i: nat)
    ensures i < |Sources| && Sources[i].id == id
  {
    match id
    case GoogleSearchConsole => 0
    case GoogleAnalytics => 1
    case Semrush => 2
    case LinkedIn => 3
    case MetaAds => 4
    case GoogleAds => 5
    case HubSpot => 6
  }

  /** The prefix every module identifier of a source starts with. */
  function ModulePrefix(id: SourceId): string {
    match id
    case GoogleSearchConsole => "gsc_"
    case GoogleAnalytics => "ga4_"
    case GoogleAds => "gads_"
    case Semrush => "semrush_"
    case LinkedIn => "linkedin_"
    case MetaAds => "meta_"
    case HubSpot => "hubspot_"
  }

  /** The seven identifiers appear once each, in catalog order. */
  lemma SourceIdsExactlyOnce()
    ensures |Sources| == 7
    ensures forall i, j :: 0 <= i < j < |Sources| ==> Sources[i].id != Sources[j].id
    ensures forall id: SourceId :: Sources[IndexOf(id)].id == id
  {
  }

  /** Every module names the source that lists it, and its identifier starts
      with that source's prefix. */
  lemma ModulesBelongToTheirSource()
    ensures forall s, m :: s in Sources && m in s.modules ==> Belongs(m, s.id)
  {
    forall i | 0 <= i < |Sources|
      ensures forall m :: m in Sources[i].modules ==> Belongs(m, Sources[i].id)
    {
      ModulesOfSourceBelong(i);
    }
  }

  /** The module names the source `id` and starts with its prefix. */
  predicate Belongs(m: Module, id: SourceId) {
    m.sourceId == id && StartsWith(m.id, ModulePrefix(id))
  }

  /** The modules of the `i`-th source belong to it. */
  lemma ModulesOfSourceBelong(i: nat)
    requires i < |Sources|
    ensures forall m :: m in Sources[i].modules ==> Belongs(m, Sources[i].id)
  {
    var ms := Sources[i].modules;
    forall k | 0 <= k < |ms|
      ensures Belongs(ms[k], Sources[i].id)
    {
      var pre := ModulePrefix(Sources[i].id);
      assert ms[k].id[..|pre|] == pre;
    }
  }

  /** Only Semrush uses a static API key, and it alone has no authorization
      path; every OAuth source has one. */
  lemma AuthMethods()
    ensures forall s :: s in Sources ==>
              (s.authMethod == ApiKey <==> s.id == Semrush)
              && (s.authPath.None? <==> s.authMethod == ApiKey)
  {
  }

  /** The three Google sources share one token cookie. */
  lemma GoogleSourcesShareCookie()
    ensures forall s :: s in Sources && s.id in {GoogleSearchConsole, GoogleAnalytics, GoogleAds} ==>
              s.tokenCookie == "mbr_google_token"
  {
  }

  /** Every other source has a token cookie of its own. */
  lemma OtherSourcesOwnCookie()
    ensures forall s, t :: s in Sources && t in Sources && s.id != t.id && s.tokenCookie == t.tokenCookie ==>
              s.id in {GoogleSearchConsole, GoogleAnalytics, GoogleAds}
  {
  }

  /** ALL_MODULES is the concatenation of the sources' module lists, in
      catalog order. */
  lemma AllModulesInCatalogOrder()
    ensures AllModules() == Sources[0].modules + Sources[1].modules + Sources[2].modules
              + Sources[3].modules + Sources[4].modules + Sources[5].modules + Sources[6].modules
  {
    assert Sources[7..] == [];
    assert Sources[6..][1..] == Sources[7..];
    assert Sources[5..][1..] == Sources[6..];
    assert Sources[4..][1..] == Sources[5..];
    assert Sources[3..][1..] == Sources[4..];
    assert Sources[2..][1..] == Sources[3..];
    assert Sources[1..][1..] == Sources[2..];
    assert Flatten(Sources[6..]) == Sources[6].modules;
    assert Flatten(Sources[5..]) == Sources[5].modules + Flatten(Sources[6..]);
    assert Flatten(Sources[4..]) == Sources[4].modules + Flatten(Sources[5..]);
    assert Flatten(Sources[3..]) == Sources[3].modules + Flatten(Sources[4..]);
    assert Flatten(Sources[2..]) == Sources[2].modules + Flatten(Sources[3..]);
    assert Flatten(Sources[1..]) == Sources[1].modules + Flatten(Sources[2..]);
  }

  /** The identifiers of a list of modules. */
  function Ids(ms: seq<Module>): (ids: seq<string>)
    ensures |ids| == |ms|
    ensures forall k :: 0 <= k < |ms| ==> ids[k] == ms[k].id
  {
    if ms == [] then [] else [ms[0].id] + Ids(ms[1..])
  }

  lemma IdsAppend(a: seq<Module>, b: seq<Module>)
    ensures Ids(a + b) == Ids(a) + Ids(b)
  {
  }

  /** The module identifiers of ALL_MODULES, in order. */
  const ModuleIds: seq<string> :=
    ["gsc_summary", "gsc_queries", "gsc_trend"]
    + ["ga4_traffic", "ga4_conversions", "ga4_pages"]
    + ["semrush_ai_overview", "semrush_rankings", "semrush_competitors"]
    + ["linkedin_page", "linkedin_benchmark"]
    + ["meta_summary", "meta_campaigns"]
    + ["gads_summary", "gads_keywords"]
    + ["hubspot_leads", "hubspot_email"]

  lemma ModuleIdsDistinct()
    ensures forall i, j :: 0 <= i < j < |ModuleIds| ==> ModuleIds[i] != ModuleIds[j]
  {
  }

  /** The module identifiers of each source, in order. */
  lemma SourceModuleIds()
    ensures Ids(Sources[0].modules) + Ids(Sources[1].modules) + Ids(Sources[2].modules)
            + Ids(Sources[3].modules) + Ids(Sources[4].modules) + Ids(Sources[5].modules)
            + Ids(Sources[6].modules) == ModuleIds
  {
    assert Ids(Sources[0].modules) == ["gsc_summary", "gsc_queries", "gsc_trend"];
    assert Ids(Sources[1].modules) == ["ga4_traffic", "ga4_conversions", "ga4_pages"];
    assert Ids(Sources[2].modules) == ["semrush_ai_overview", "semrush_rankings", "semrush_competitors"];
    assert Ids(Sources[3].modules) == ["linkedin_page", "linkedin_benchmark"];
    assert Ids(Sources[4].modules) == ["meta_summary", "meta_campaigns"];
    assert Ids(Sources[5].modules) == ["gads_summary", "gads_keywords"];
    assert Ids(Sources[6].modules) == ["hubspot_leads", "hubspot_email"];
  }

  /** The identifiers of ALL_MODULES are the seventeen module identifiers in
      catalog order. */
  lemma AllModuleIds()
    ensures Ids(AllModules()) == ModuleIds
  {
    AllModulesInCatalogOrder();
    var m0, m1, m2, m3, m4, m5, m6 := Sources[0].modules, Sources[1].modules, Sources[2].modules,
      Sources[3].modules, Sources[4].modules, Sources[5].modules, Sources[6].modules;
    IdsAppend(m0 + m1 + m2 + m3 + m4 + m5, m6);
    IdsAppend(m0 + m1 + m2 + m3 + m4, m5);
    IdsAppend(m0 + m1 + m2 + m3, m4);
    IdsAppend(m0 + m1 + m2, m3);
    IdsAppend(m0 + m1, m2);
    IdsAppend(m0, m1);
    SourceModuleIds();
  }

  /** ALL_MODULES has seventeen modules with distinct identifiers. */
  lemma AllModulesDistinct()
    ensures |AllModules()| == 17
    ensures forall i, j :: 0 <= i < j < |AllModules()| ==> AllModules()[i].id != AllModules()[j].id
  {
    AllModuleIds();
    ModuleIdsDistinct();
    var all := AllModules();
    forall i, j | 0 <= i < j < |all| ensures all[i].id != all[j].id {
      assert Ids(all)[i] == all[i].id && Ids(all)[j] == all[j].id;
    }
  }
}

=== FILE: cookies.dfy ===
/**
 * The browser cookie jar as the server sees it during one request
 * (`cookies()` / `req.cookies` / `res.cookies` of the web framework): a map
 * from cookie name to value and attributes. Deleting a cookie removes it from
 * the jar the next request presents; expiry enforced by the browser is not
 * modelled.
 */
module Cookies {

  import opened Wrappers
  import opened Text

  /** The attributes the application writes with every cookie. */
  datatype CookieOptions = CookieOptions(
    httpOnly: bool,
    secure: bool,
    sameSite: string,
    path: string,
    maxAge: nat)

  datatype Cookie = Cookie(value: string, options: CookieOptions)

  type Jar = map<string, Cookie>

  /** `cookies.get(name)?.value` */
  function Lookup(jar: Jar, name: string): (v: Option<string>)
    ensures v.Some? <==> name in jar
    ensures v.Some? ==> v.value == jar[name].value
  {
    if name in jar then Some(jar[name].value) else None
  }

  /** `!!cookies.get(name)?.value`: the cookie exists with a non-empty value. */
  predicate Present(jar: Jar, name: string) {
    Truthy(Lookup(jar, name))
  }

  /** The mutable cookie store of one request/response cycle. */
  class CookieStore {
    var jar: Jar

    constructor (initial: Jar)
      ensures jar == initial
    {
      jar := initial;
    }

    /** `cookies().get(name)?.value` */
    function Get(name: string): Option<string>
      reads this
    {
      Lookup(jar, name)
    }

    /** `cookies().set(name, value, options)`: adds or overwrites one cookie. */
    method Set(name: string, value: string, options: CookieOptions)
      modifies this
      ensures jar == old(jar)[name := Cookie(value, options)]
    {
      jar := jar[name := Cookie(value, options)];
    }

    /** `cookies().delete(name)`: removes one cookie, if there is one. */
    method Delete(name: string)
      modifies this
      ensures jar == old(jar) - {name}
    {
      jar := jar - {name};
    }
  }
}

=== FILE: disconnect_route.dfy ===
/**
 * `POST /api/auth/disconnect` (app/api/auth/disconnect/route.ts): deletes the
 * credential cookie mapped to the posted `sourceId` and answers `{ok: true}`.
 */
module DisconnectRoute {

  import opened Wrappers
  import opened Text
  import opened Cookies
  import StatusRoute

  /** `SOURCE_COOKIES`. Unlike the status route, semrush maps to
      `mbr_semrush_token`, a cookie no route writes. */
  const SourceCookies: map<string, string> := map[
    "google_search_console" := "mbr_google_token",
    "google_analytics" := "mbr_google_token",
    "google_ads" := "mbr_google_token",
    "semrush" := "mbr_semrush_token",
    "linkedin" := "mbr_linkedin_token",
    "meta_ads" := "mbr_meta_token",
    "hubspot" := "mbr_hubspot_token"
  ]

  /** `SOURCE_COOKIES[sourceId]`: a body without `sourceId` looks up the key
      "undefined", which is not mapped. */
  function CookieFor(sourceId: Option<string>): (c: Option<string>)
    ensures c.Some? <==> Interpolate(sourceId) in SourceCookies
    ensures c.Some? ==> c.value == SourceCookies[Interpolate(sourceId)] && c.value != ""
  {
    var key := Interpolate(sourceId);
    if key in SourceCookies then Some(SourceCookies[key]) else None
  }

  /** The jar after the route ran: every cookie but the one mapped to
      `sourceId` is kept, with its value and attributes. */
  function Disconnected(jar: Jar, sourceId: Option<string>): (r: Jar)
    ensures forall c :: c in r <==> c in jar && CookieFor(sourceId) != Some(c)
    ensures forall c :: c in r ==> r[c] == jar[c]
  {
    match CookieFor(sourceId)
    case Some(name) => jar - {name}
    case None => jar
  }

  method Post(store: CookieStore, sourceId: Option<string>) returns (ok: bool)
    modifies store
    ensures ok
    ensures store.jar == Disconnected(old(store.jar), sourceId)
  {
    var cookieName := CookieFor(sourceId);
    if Truthy(cookieName) {
      store.Delete(cookieName.value);
    }
    ok := true;
  }

  /** A mapped `sourceId` deletes its cookie and leaves every other cookie as
      it was. */
  lemma DeletesExactlyItsCookie(jar: Jar, id: string, other: string)
    requires id in SourceCookies && other != SourceCookies[id]
    ensures SourceCookies[id] !in Disconnected(jar, Some(id))
    ensures Lookup(Disconnected(jar, Some(id)), other) == Lookup(jar, other)
  {
  }

  /** An unknown or missing `sourceId` changes nothing. */
  lemma UnknownChangesNothing(jar: Jar, sourceId: Option<string>)
    requires Interpolate(sourceId) !in SourceCookies
    ensures Disconnected(jar, sourceId) == jar
  {
  }

  /** Disconnecting twice leaves the jar that disconnecting once leaves. */
  lemma Idempotent(jar: Jar, sourceId: Option<string>)
    ensures Disconnected(Disconnected(jar, sourceId), sourceId) == Disconnected(jar, sourceId)
  {
  }

  /** Disconnecting any Google source deletes the shared Google token, so the
      status route then reports all three Google sources as disconnected. */
  lemma GoogleDisconnectsAllThree(jar: Jar, id: string)
    requires id in {"google_search_console", "google_analytics", "google_ads"}
    ensures var status := StatusRoute.Connected(Disconnected(jar, Some(id)));
            && "google_search_console" in status && !status["google_search_console"]
            && "google_analytics" in status && !status["google_analytics"]
            && "google_ads" in status && !status["google_ads"]
  {
    var after := Disconnected(jar, Some(id));
    assert "mbr_google_token" !in after;
    StatusRoute.GoogleSourcesAgree(after);
  }

  /** Every source but semrush is reported disconnected afterwards. */
  lemma StatusFollowsDisconnect(jar: Jar, id: string)
    requires id in SourceCookies && id != "semrush"
    ensures id in StatusRoute.Connected(Disconnected(jar, Some(id)))
    ensures !StatusRoute.Connected(Disconnected(jar, Some(id)))[id]
  {
    var after := Disconnected(jar, Some(id));
    StatusRoute.GoogleSourcesAgree(after);
    StatusRoute.SemrushFromApiKey(after);
  }

  /** Disconnecting semrush deletes `mbr_semrush_token` only: the stored API
      key `mbr_semrush_apikey` survives and the status route still reports
      semrush exactly as before. */
  lemma SemrushKeyNotCleared(jar: Jar)
    ensures Lookup(Disconnected(jar, Some("semrush")), "mbr_semrush_apikey") == Lookup(jar, "mbr_semrush_apikey")
    ensures var before := StatusRoute.Connected(jar);
            var after := StatusRoute.Connected(Disconnected(jar, Some("semrush")));
            "semrush" in before && "semrush" in after && after["semrush"] == before["semrush"]
  {
    StatusRoute.SemrushFromApiKey(jar);
    StatusRoute.SemrushFromApiKey(Disconnected(jar, Some("semrush")));
  }
}

=== FILE: narrative.dfy ===
/**
 * The executive-summary panel of the report view
 * (app/components/ReportView.tsx): the prompt it builds from the
 * configuration and the report data, and the accumulator that reads the
 * streamed reply, a server-sent event stream whose `data:` lines carry JSON
 * events, and splits the text into the narrative and a trailing JSON object
 * of actions that starts with `{"u":`.
 */
module Narrative {

  import opened Wrappers
  import opened Text
  import Wizard

  /** One North Star line of the prompt; an empty value shows as "—". */
  function NsLine(ns: Wizard.NorthStar): string {
    "- " + ns.name + ": real " + Or(ns.actual, "—") + " / meta " + Or(ns.goal, "—")
  }

  /** The North Stars that have a name, in order. */
  function Named(list: seq<Wizard.NorthStar>): (r: seq<Wizard.NorthStar>)
    ensures forall ns :: ns in r <==> ns in list && ns.name != ""
    ensures |r| <= |list|
    decreases |list|
  {
    if list == [] then []
    else (if list[0].name != "" then [list[0]] else []) + Named(list[1..])
  }

  function Lines(list: seq<Wizard.NorthStar>): (r: seq<string>)
    ensures |r| == |list|
    ensures forall i :: 0 <= i < |list| ==> r[i] == NsLine(list[i])
    decreases |list|
  {
    if list == [] then [] else [NsLine(list[0])] + Lines(list[1..])
  }

  /** `nsContext`: one line per named North Star, joined by newlines; it is
      empty exactly when no North Star has a name. */
  function NsContext(list: seq<Wizard.NorthStar>): (r: string)
    ensures r == "" <==> forall ns :: ns in list ==> ns.name == ""
  {
    NamedLinesEmpty(list);
    Join(Lines(Named(list)), "\n")
  }

  /** The joined lines of the named North Stars are empty exactly when none
      has a name: every line starts with "-". */
  lemma NamedLinesEmpty(list: seq<Wizard.NorthStar>)
    ensures Join(Lines(Named(list)), "\n") == "" <==> forall ns :: ns in list ==> ns.name == ""
  {
    var lines := Lines(Named(list));
    forall i | 0 <= i < |lines|
      ensures lines[i] != ""
    {
      assert lines[i][0] == '-';
    }
    JoinEmpty(lines);
    if Named(list) != [] {
      assert Named(list)[0] in Named(list);
    }
  }

  /** Joining non-empty lines gives the empty string only for no lines. */
  lemma {:induction false} JoinEmpty(parts: seq<string>)
    requires forall i :: 0 <= i < |parts| ==> parts[i] != ""
    ensures Join(parts, "\n") == "" <==> parts == []
  {
    if |parts| >= 1 {
      assert Join(parts, "\n")[..|parts[0]|] == parts[0] by {
        if |parts| > 1 {
          assert Join(parts, "\n") == parts[0] + ("\n" + Join(parts[1..], "\n"));
        }
      }
    }
  }

  /** Splitting the context at its newlines gives back one line per named
      North Star when no name or value holds a newline. */
  lemma ContextLines(list: seq<Wizard.NorthStar>)
    requires forall ns :: ns in list ==> '\n' !in NsLine(ns)
    ensures Named(list) != [] ==> Split(NsContext(list), '\n') == Lines(Named(list))
  {
    var named := Named(list);
    if named != [] {
      forall i | 0 <= i < |named|
        ensures '\n' !in Lines(named)[i]
      {
        assert named[i] in named;
      }
      SplitJoin(Lines(named));
    }
  }

  /** Splitting a join of non-empty, newline-free lines recovers them. */
  lemma {:induction false} SplitJoin(parts: seq<string>)
    requires parts != []
    requires forall i :: 0 <= i < |parts| ==> '\n' !in parts[i]
    ensures Split(Join(parts, "\n"), '\n') == parts
    decreases |parts|
  {
    if |parts| == 1 {
      SplitNoSeparator(parts[0]);
    } else {
      SplitJoin(parts[1..]);
      SplitAcross(parts[0], Join(parts[1..], "\n"));
      assert Join(parts, "\n") == parts[0] + "\n" + Join(parts[1..], "\n");
    }
  }

  lemma {:induction false} SplitNoSeparator(s: string)
    requires '\n' !in s
    ensures Split(s, '\n') == [s]
    decreases |s|
  {
    if |s| > 0 {
      SplitNoSeparator(s[1..]);
      assert s == [s[0]] + s[1..];
    }
  }

  /** Splitting `a + "\n" + b`, `a` free of newlines, gives `a` followed by
      the pieces of `b`. */
  lemma {:induction false} SplitAcross(a: string, b: string)
    requires '\n' !in a
    ensures Split(a + "\n" + b, '\n') == [a] + Split(b, '\n')
    decreases |a|
  {
    if a == [] {
      assert a + "\n" + b == ['\n'] + b;
      assert (['\n'] + b)[1..] == b;
    } else {
      SplitAcross(a[1..], b);
      assert (a + "\n" + b)[1..] == a[1..] + "\n" + b;
      assert (a + "\n" + b)[0] == a[0];
      assert a == [a[0]] + a[1..];
    }
  }

  const DataLimit := 3000

  const Preamble := ").\nRevisaste el MBR de marketing del mes. Escribí una nota ejecutiva de interpretación en primera persona del plural.\n\nNorth Stars del mes (real vs. meta):\n"

  const Instructions := "\n\nInstrucciones:\n- 3-4 oraciones fluidas, sin bullets ni títulos\n- Compará lo logrado vs. el objetivo y explicá qué significa para el negocio\n- Nombrá el principal driver del mes\n- Cerrá con una recomendación accionable y con convicción\n- Tono: estratégico, directo, opinión real de CMO senior\n- Español rioplatense, primera persona del plural\n\nLuego en nueva línea, solo este JSON sin backticks:\n{\"u\":\"[acción urgente, 1 oración]\",\"o\":\"[oportunidad a capitalizar, 1 oración]\",\"s\":\"[qué sostener, 1 oración]\"}"

  /** The part of the prompt that carries the data: the first 3000
      characters of the serialised report. */
  function DataContext(serialized: string): (r: string)
    ensures |r| <= DataLimit && StartsWith(serialized, r)
    ensures |serialized| <= DataLimit ==> r == serialized
  {
    Take(serialized, DataLimit)
  }

  /** The opening of the prompt, which names the company, "la empresa"
      when none is configured. */
  function Opening(company: string): (r: string)
    ensures company != "" ==> r == "Sos el CMO de " + company + " (industria: "
    ensures company == "" ==> r == "Sos el CMO de la empresa (industria: "
  {
    "Sos el CMO de " + Or(company, "la empresa") + " (industria: "
  }

  /** The goal block of the prompt: the goal lines, or "No se
      especificaron." when no goal has a label. */
  function Goals(northStars: seq<Wizard.NorthStar>): string {
    Or(NsContext(northStars), "No se especificaron.")
  }

  /** The prompt sent to the summary endpoint: it names the company ("la
      empresa" by default) and the industry ("B2B" by default), then lists
      the goal block and carries the data context after its heading, and
      closes with the instructions that ask for the JSON line. */
  function Prompt(company: string, industry: string, northStars: seq<Wizard.NorthStar>, serialized: string): (r: string)
    ensures StartsWith(r, Opening(company) + Or(industry, "B2B") + Preamble + Goals(northStars))
    ensures OccursAt(r, DataContext(serialized),
                     |Opening(company) + Or(industry, "B2B") + Preamble + Goals(northStars) + DataHeading|)
    ensures EndsWith(r, Instructions)
  {
    PromptShape(Opening(company), Or(industry, "B2B"), Preamble, Goals(northStars), DataHeading,
                DataContext(serialized), Instructions);
    Opening(company) + Rest(industry, northStars, serialized)
  }

  const DataHeading := "\n\nDatos del mes:\n"

  function Rest(industry: string, northStars: seq<Wizard.NorthStar>, serialized: string): string {
    Or(industry, "B2B") + Preamble + Goals(northStars) + DataHeading + DataContext(serialized) + Instructions
  }

  /** `s` ends with `suffix`. */
  predicate EndsWith(s: string, suffix: string) {
    |suffix| <= |s| && s[|s| - |suffix|..] == suffix
  }

  /** The pieces of a prompt, whatever their text: the head up to the goal
      block is a prefix, the data sits after its heading, and the
      instructions end it. */
  lemma PromptShape(opening: string, industry: string, preamble: string, goals: string, heading: string,
                    data: string, instructions: string)
    ensures var r := opening + (industry + preamble + goals + heading + data + instructions);
            && StartsWith(r, opening + industry + preamble + goals)
            && OccursAt(r, data, |opening + industry + preamble + goals + heading|)
            && EndsWith(r, instructions)
  {
    var head := opening + industry + preamble + goals;
    var r := opening + (industry + preamble + goals + heading + data + instructions);
    assert r == head + heading + data + instructions;
    assert r[..|head|] == head;
    assert r[|head + heading|..|head + heading| + |data|] == data;
    assert r[|r| - |instructions|..] == instructions;
  }

  /** A stream event, as far as the accumulator reads it: its `type` and
      its `delta.text` when that is a string. */
  datatype Event = Event(kind: string, text: Option<string>)

  /** The three actions of the JSON suffix. */
  datatype Actions = Actions(urgent: string, opportunity: string, sustain: string)

  /** The text one line of the stream adds: a `data:` line whose payload
      parses to a `content_block_delta` event with non-empty text adds that
      text; any other line adds nothing. `parse` is `JSON.parse`, `None`
      when it throws. */
  function Delta(line: string, parse: string -> Option<Event>): (t: string)
    ensures !StartsWith(line, "data:") ==> t == ""
    ensures StartsWith(line, "data:") && parse(Trim(line[5..])).None? ==> t == ""
  {
    if StartsWith(line, "data:") then
      match parse(Trim(line[5..]))
      case Some(ev) =>
        if ev.kind == "content_block_delta" && Truthy(ev.text) then ev.text.value else ""
      case None => ""
    else ""
  }

  /** Only a `content_block_delta` event with non-empty text extends the
      accumulated text, and by exactly that text. */
  lemma DeltaFilter(line: string, parse: string -> Option<Event>)
    ensures var t := Delta(line, parse);
            && (t != "" <==>
                  && StartsWith(line, "data:")
                  && parse(Trim(line[5..])).Some?
                  && parse(Trim(line[5..])).value.kind == "content_block_delta"
                  && Truthy(parse(Trim(line[5..])).value.text))
            && (t != "" ==> parse(Trim(line[5..])).value.text == Some(t))
  {
  }

  /** The text a sequence of lines adds, in order. */
  function Texts(lines: seq<string>, parse: string -> Option<Event>): string
    decreases |lines|
  {
    if lines == [] then "" else Texts(lines[..|lines| - 1], parse) + Delta(lines[|lines| - 1], parse)
  }

  /** `full` after the given chunks: each decoded chunk is split into lines
      on its own. */
  function Full(chunks: seq<string>, parse: string -> Option<Event>): string
    decreases |chunks|
  {
    if chunks == [] then ""
    else Full(chunks[..|chunks| - 1], parse) + Texts(Split(chunks[|chunks| - 1], '\n'), parse)
  }

  lemma TextsStep(full: string, lines: seq<string>, l: nat, parse: string -> Option<Event>)
    requires l < |lines|
    ensures Texts(lines[..l + 1], parse) == Texts(lines[..l], parse) + Delta(lines[l], parse)
    ensures full + Texts(lines[..l + 1], parse) == (full + Texts(lines[..l], parse)) + Delta(lines[l], parse)
  {
    assert lines[..l + 1][..l] == lines[..l];
  }

  lemma FullStep(chunks: seq<string>, c: nat, parse: string -> Option<Event>)
    requires c < |chunks|
    ensures Full(chunks[..c + 1], parse) == Full(chunks[..c], parse) + Texts(Split(chunks[c], '\n'), parse)
  {
    assert chunks[..c + 1][..c] == chunks[..c];
  }

  /** `full` only grows: what the first chunks gave is a prefix of what all
      of them give. */
  lemma {:induction false} FullOnlyGrows(chunks: seq<string>, parse: string -> Option<Event>, i: nat)
    requires i <= |chunks|
    ensures Full(chunks[..i], parse) <= Full(chunks, parse)
    decreases |chunks|
  {
    if i == |chunks| {
      assert chunks[..i] == chunks;
    } else {
      var n := |chunks| - 1;
      assert chunks[..n][..i] == chunks[..i];
      FullOnlyGrows(chunks[..n], parse, i);
      var last := Texts(Split(chunks[n], '\n'), parse);
      assert Full(chunks, parse) == Full(chunks[..n], parse) + last;
      PrefixExtends(Full(chunks[..i], parse), Full(chunks[..n], parse), last);
    }
  }

  lemma PrefixExtends(a: string, b: string, c: string)
    requires a <= b
    ensures a <= b + c
  {
    assert (b + c)[..|a|] == b[..|a|];
  }

  /** Lines that are not `data:` lines add nothing. */
  lemma {:induction false} OnlyDataLines(lines: seq<string>, parse: string -> Option<Event>)
    requires forall i :: 0 <= i < |lines| ==> !StartsWith(lines[i], "data:")
    ensures Texts(lines, parse) == ""
    decreases |lines|
  {
    if lines != [] {
      OnlyDataLines(lines[..|lines| - 1], parse);
    }
  }

  const Marker := "{\"u\":"

  /** The narrative and `jsonPart` for an accumulated text: cut at the first
      `{"u":`, the narrative being the trimmed text before it; without the
      marker the narrative is the whole text and `jsonPart` is empty. */
  function Separate(full: string): (parts: (string, string))
    ensures |parts.1| <= |full|
    ensures parts.1 == "" ==> parts.0 == full && forall j :: !OccursAt(full, Marker, j)
    ensures parts.1 != "" ==>
              && OccursAt(full, Marker, |full| - |parts.1|)
              && (forall j :: 0 <= j < |full| - |parts.1| ==> !OccursAt(full, Marker, j))
              && full[|full| - |parts.1|..] == parts.1
  {
    var ji := IndexOf(full, Marker);
    if ji != -1 then (Trim(full[..ji]), full[ji..]) else (full, "")
  }

  /** With the marker present, the narrative is the trimmed text before its
      first occurrence. */
  lemma SeparateNarrative(full: string)
    ensures var (narrative, jsonPart) := Separate(full);
            jsonPart != "" ==> narrative == Trim(full[..|full| - |jsonPart|])
  {
    var ji := IndexOf(full, Marker);
    if ji != -1 {
      assert Separate(full) == (Trim(full[..ji]), full[ji..]);
    }
  }

  /** Once the marker has arrived, the narrative no longer changes and
      `jsonPart` only grows. */
  lemma MarkerFreezesNarrative(full: string, more: string)
    requires Separate(full).1 != ""
    ensures Separate(full + more).0 == Separate(full).0
    ensures Separate(full + more).1 == Separate(full).1 + more
  {
    var ji := IndexOf(full, Marker);
    assert ji != -1 && Separate(full) == (Trim(full[..ji]), full[ji..]);
    assert IndexOf(full + more, Marker) == ji by {
      IndexOfStable(full, more, Marker);
    }
    assert (full + more)[..ji] == full[..ji] && (full + more)[ji..] == full[ji..] + more;
  }

  /** `.replace(/```json|```/g, "")`: at each position the longer fence is
      tried first. */
  function StripFences(s: string): (r: string)
    ensures |r| <= |s|
    ensures forall c :: c in r ==> c in s
    decreases |s|
  {
    if StartsWith(s, "```json") then StripFences(s[7..])
    else if StartsWith(s, "```") then StripFences(s[3..])
    else if s == [] then []
    else [s[0]] + StripFences(s[1..])
  }

  /** Text without backticks passes unchanged. */
  lemma {:induction false} StripFencesPlain(s: string)
    requires '`' !in s
    ensures StripFences(s) == s
    decreases |s|
  {
    if s != [] {
      assert s[0] != '`';
      StripFencesPlain(s[1..]);
      assert s == [s[0]] + s[1..];
    }
  }

  /** A JSON object wrapped in a json code fence is unwrapped. */
  lemma StripFencedObject(s: string)
    requires '`' !in s
    ensures StripFences("```json" + s + "```") == s
  {
    var t := "```json" + s + "```";
    assert t[7..] == s + "```";
    StripAppendedFence(s);
  }

  lemma {:induction false} StripAppendedFence(s: string)
    requires '`' !in s
    ensures StripFences(s + "```") == s
    decreases |s|
  {
    var t := s + "```";
    if s == [] {
      assert t == "```";
      assert StartsWith(t, "```") && t[3..] == [];
    } else {
      assert s[0] != '`' && t[0] == s[0];
      assert !StartsWith(t, "```json") && !StartsWith(t, "```");
      assert t[1..] == s[1..] + "```";
      StripAppendedFence(s[1..]);
      assert StripFences(t) == [s[0]] + StripFences(t[1..]);
      assert s == [s[0]] + s[1..];
    }
  }

  const Fallback := "No se pudo generar el análisis. Verificá la configuración del servidor."

  /** What the summary request delivered: the decoded chunks that arrived,
      and whether the request or the stream failed (after those chunks). */
  datatype Stream = Stream(chunks: seq<string>, broken: bool)

  /** The actions read from a `jsonPart`, if there is one and it parses
      once the fences are stripped. */
  function ActionsOf(jsonPart: string, parseActions: string -> Option<Actions>): (a: Option<Actions>)
    ensures jsonPart == "" ==> a == None
  {
    if jsonPart != "" then parseActions(Trim(StripFences(jsonPart))) else None
  }

  class Summary {
    var interpretation: string
    var actions: Option<Actions>
    var loading: bool

    constructor ()
      ensures interpretation == "" && actions == None && loading
    {
      interpretation := "";
      actions := None;
      loading := true;
    }

    /** One line of a chunk: a delta extends `full`, recomputes the
        narrative and `jsonPart` from it and shows the narrative. */
    method Absorb(full: string, narrative: string, jsonPart: string, line: string, parse: string -> Option<Event>)
      returns (full': string, narrative': string, jsonPart': string)
      requires (narrative, jsonPart) == Separate(full)
      modifies this
      ensures full' == full + Delta(line, parse)
      ensures (narrative', jsonPart') == Separate(full')
      ensures Delta(line, parse) != "" ==> interpretation == narrative'
      ensures Delta(line, parse) == "" ==> interpretation == old(interpretation)
      ensures actions == old(actions) && loading == old(loading)
    {
      full', narrative', jsonPart' := full, narrative, jsonPart;
      if StartsWith(line, "data:") {
        var ev := parse(Trim(line[5..]));
        if ev.Some? && ev.value.kind == "content_block_delta" && Truthy(ev.value.text) {
          assert Delta(line, parse) == ev.value.text.value;
          full' := full + ev.value.text.value;
          var ji := IndexOf(full', Marker);
          if ji != -1 {
            narrative' := Trim(full'[..ji]);
            jsonPart' := full'[ji..];
          } else {
            narrative' := full';
          }
          assert (narrative', jsonPart') == Separate(full') by {
            Extend(full, ev.value.text.value);
          }
          interpretation := narrative';
        } else {
          assert Delta(line, parse) == "";
        }
      } else {
        assert Delta(line, parse) == "";
      }
    }

    /** One decoded chunk, split into lines: the lines are read in order. */
    method AbsorbChunk(full: string, narrative: string, jsonPart: string, lines: seq<string>, parse: string -> Option<Event>)
      returns (full': string, narrative': string, jsonPart': string)
      requires (narrative, jsonPart) == Separate(full)
      modifies this
      ensures full' == full + Texts(lines, parse)
      ensures (narrative', jsonPart') == Separate(full')
      ensures Texts(lines, parse) != "" ==> interpretation == narrative'
      ensures Texts(lines, parse) == "" ==> interpretation == old(interpretation)
      ensures actions == old(actions) && loading == old(loading)
    {
      full', narrative', jsonPart' := full, narrative, jsonPart;
      var l := 0;
      assert full + Texts(lines[..0], parse) == full by {
        assert lines[..0] == [];
      }
      while l < |lines|
        invariant 0 <= l <= |lines|
        invariant full' == full + Texts(lines[..l], parse)
        invariant (narrative', jsonPart') == Separate(full')
        invariant Texts(lines[..l], parse) != "" ==> interpretation == narrative'
        invariant Texts(lines[..l], parse) == "" ==> interpretation == old(interpretation)
        invariant actions == old(actions) && loading == old(loading)
      {
        full', narrative', jsonPart' := Absorb(full', narrative', jsonPart', lines[l], parse);
        TextsStep(full, lines, l, parse);
        Grows(Texts(lines[..l], parse), Delta(lines[l], parse), Texts(lines[..l + 1], parse));
        l := l + 1;
      }
      assert lines[..l] == lines;
    }

    /** The reading loop: every chunk that arrives is absorbed in order. */
    method Read(chunks: seq<string>, parse: string -> Option<Event>) returns (narrative: string, jsonPart: string)
      modifies this
      ensures (narrative, jsonPart) == Separate(Full(chunks, parse))
      ensures Full(chunks, parse) != "" ==> interpretation == narrative
      ensures Full(chunks, parse) == "" ==> interpretation == old(interpretation)
      ensures actions == old(actions) && loading == old(loading)
    {
      var full := "";
      narrative, jsonPart := "", "";
      var c := 0;
      while c < |chunks|
        invariant 0 <= c <= |chunks|
        invariant full == Full(chunks[..c], parse)
        invariant (narrative, jsonPart) == Separate(full)
        invariant full != "" ==> interpretation == narrative
        invariant full == "" ==> interpretation == old(interpretation)
        invariant actions == old(actions) && loading == old(loading)
      {
        ghost var before := full;
        var lines := Split(chunks[c], '\n');
        full, narrative, jsonPart := AbsorbChunk(full, narrative, jsonPart, lines, parse);
        FullStep(chunks, c, parse);
        Grows(before, Texts(lines, parse), full);
        c := c + 1;
      }
      assert chunks[..c] == chunks;
    }

    /** `streamSummary`: the chunks are read in order and each `data:` line
        is folded into `full`; the narrative shown is recomputed at every
        delta. When everything arrived the final narrative is shown and the
        actions are set if the JSON suffix parses; when the request or the
        stream failed the fallback message is shown instead. Loading always
        ends. */
    method StreamSummary(stream: Stream, parse: string -> Option<Event>, parseActions: string -> Option<Actions>)
      modifies this
      ensures !loading
      ensures stream.broken ==> interpretation == Fallback && actions == old(actions)
      ensures !stream.broken ==> interpretation == Separate(Full(stream.chunks, parse)).0
      ensures !stream.broken ==>
                actions == (var a := ActionsOf(Separate(Full(stream.chunks, parse)).1, parseActions);
                            if a.Some? then a else old(actions))
    {
      loading := true;
      var narrative, jsonPart := Read(stream.chunks, parse);
      ghost var parts := Separate(Full(stream.chunks, parse));
      assert narrative == parts.0 && jsonPart == parts.1;
      if stream.broken {
        interpretation := Fallback;
      } else {
        interpretation := narrative;
        var a := ActionsOf(jsonPart, parseActions);
        if a.Some? {
          actions := a;
        }
      }
      loading := false;
    }
  }

  /** Appending text leaves a string as it was exactly when the text is
      empty, and otherwise makes it non-empty. */
  lemma Grows(before: string, more: string, after: string)
    requires after == before + more
    ensures more == "" ==> after == before
    ensures more != "" ==> after != ""
  {
    if more != "" {
      assert |after| > 0;
    }
  }

  /** Appending text to an accumulator without the marker leaves `jsonPart`
      empty unless the marker is now present. */
  lemma Extend(full: string, more: string)
    ensures Separate(full).1 != "" ==> IndexOf(full + more, Marker) == IndexOf(full, Marker)
    ensures IndexOf(full + more, Marker) == -1 ==> Separate(full).1 == ""
  {
    if Separate(full).1 != "" {
      IndexOfStable(full, more, Marker);
    }
  }
}

=== FILE: numbers.dfy ===
/**
 * The JavaScript numbers the report arithmetic works on. A number is NaN, a
 * finite value or a signed infinity; finite values are exact reals, so
 * binary floating-point rounding is not modelled (nor is the sign of zero).
 */
module Numbers {

  datatype Num = NaN | Finite(x: real) | Infinite(positive: bool)

  const Zero: Num := Finite(0.0)

  /** JavaScript truthiness of a number: everything but 0 and NaN. */
  predicate NumTruthy(n: Num) {
    n.Infinite? || (n.Finite? && n.x != 0.0)
  }

  /** `a + b` */
  function Add(a: Num, b: Num): (r: Num)
    ensures r.NaN? <==> a.NaN? || b.NaN? || (a.Infinite? && b.Infinite? && a.positive != b.positive)
    ensures a.Finite? && b.Finite? ==> r == Finite(a.x + b.x)
  {
    match (a, b)
    case (NaN, _) => NaN
    case (_, NaN) => NaN
    case (Finite(x), Finite(y)) => Finite(x + y)
    case (Infinite(p), Infinite(q)) => if p == q then a else NaN
    case (Infinite(_), Finite(_)) => a
    case (Finite(_), Infinite(_)) => b
  }

  /** `a / b`; a zero divisor is taken as +0. */
  function Div(a: Num, b: Num): (r: Num)
    ensures a.NaN? || b.NaN? ==> r.NaN?
    ensures a.Finite? && b.Finite? && b.x != 0.0 ==> r == Finite(a.x / b.x)
    ensures a.Finite? && b.Finite? && b.x == 0.0 ==> (r.NaN? <==> a.x == 0.0)
  {
    match (a, b)
    case (NaN, _) => NaN
    case (_, NaN) => NaN
    case (Finite(x), Finite(y)) =>
      if y != 0.0 then Finite(x / y)
      else if x == 0.0 then NaN
      else Infinite(x > 0.0)
    case (Finite(_), Infinite(_)) => Zero
    case (Infinite(p), Finite(y)) => Infinite(if y >= 0.0 then p else !p)
    case (Infinite(_), Infinite(_)) => NaN
  }

  /** `a * k` for a positive constant `k`. */
  function Scale(a: Num, k: real): (r: Num)
    requires k > 0.0
    ensures r.NaN? <==> a.NaN?
    ensures a.Finite? ==> r.Finite? && r.x == a.x * k
  {
    match a
    case NaN => NaN
    case Finite(x) => Finite(x * k)
    case Infinite(_) => a
  }

  /** `xs.reduce((s, x) => s + x, 0)`: the additions happen left to right. */
  function Sum(xs: seq<Num>): Num
    decreases |xs|
  {
    if xs == [] then Zero else Add(Sum(xs[..|xs| - 1]), xs[|xs| - 1])
  }

  /** The exact sum of a sequence of finite numbers. */
  function RealSum(xs: seq<Num>): real
    requires forall i :: 0 <= i < |xs| ==> xs[i].Finite?
    decreases |xs|
  {
    if xs == [] then 0.0 else RealSum(xs[..|xs| - 1]) + xs[|xs| - 1].x
  }

  /** Summing finite numbers gives their exact sum. */
  lemma {:induction false} SumOfFinite(xs: seq<Num>)
    requires forall i :: 0 <= i < |xs| ==> xs[i].Finite?
    ensures Sum(xs) == Finite(RealSum(xs))
    decreases |xs|
  {
    if xs != [] {
      SumOfFinite(xs[..|xs| - 1]);
    }
  }

  /** One NaN among the summands makes the whole sum NaN: a single value
      that does not parse poisons a total. */
  lemma {:induction false} NaNPoisonsSum(xs: seq<Num>, k: nat)
    requires k < |xs| && xs[k].NaN?
    ensures Sum(xs).NaN?
    decreases |xs|
  {
    if k < |xs| - 1 {
      NaNPoisonsSum(xs[..|xs| - 1], k);
    }
  }
}

=== FILE: oauth_flows.dfy ===
/**
 * Properties of the OAuth connectors (module OAuthRoutes): the order of the
 * checks, what each failure leaves behind, the complete initiate-then-callback
 * round trip, and the Google scope table.
 */
module OAuthFlows {

  import opened Wrappers
  import opened Text
  import opened Cookies
  import opened Session
  import opened OAuthState
  import opened Environment
  import opened BaseUrl
  import opened OAuthRoutes

  /** A callback that gets past Google's `error` check. */
  predicate NotDenied(p: Provider, q: Query) {
    !(p == Google && Truthy(q.error))
  }

  /** The state cookie and the token cookie of a provider are different
      cookies, and different providers use different cookies of each kind. */
  lemma CookiesDistinct(p: Provider, p': Provider)
    ensures StateCookie(Key(p)) != TokenCookie(p')
    ensures p != p' ==> StateCookie(Key(p)) != StateCookie(Key(p')) && TokenCookie(p) != TokenCookie(p')
  {
    assert StateCookie(Key(p))[4] == 'o';
    assert TokenCookie(p')[4] == Key(p')[0] != 'o';
    assert TokenCookie(p)[4] == Key(p)[0];
    if p != p' {
      StateCookieInjective(Key(p), Key(p'));
    }
  }

  /** HubSpot and Meta without both credentials answer 503 before looking at
      the query, callbacks included, and touch nothing. */
  lemma ConfigurationGuardFirst(p: Provider, jar: Jar, env: Env, q: Query, random: seq<Byte>, reply: TokenReply)
    requires |random| == 16
    requires !Configured(p, env)
    ensures p == HubSpot || p == Meta
    ensures Handle(p, jar, env, q, random, reply) == Outcome(JsonError(503, NotConfigured(p)), None, jar)
  {
  }

  /** In Google's parameters the state and the callback address are found. */
  lemma GoogleParamsFound(clientId: string, uri: string, scopes: string, state: string)
    ensures Param(GoogleParams(clientId, uri, scopes, state), "state") == Some(state)
    ensures Param(GoogleParams(clientId, uri, scopes, state), "redirect_uri") == Some(uri)
  {
    var params := GoogleParams(clientId, uri, scopes, state);
    assert "scope"[1] != "state"[1];
    ParamAt(params, 4, "state", state);
    ParamAt(params, 2, "redirect_uri", uri);
  }

  /** In Google's parameters the scope text is found. */
  lemma GoogleScopeFound(clientId: string, uri: string, scopes: string, state: string)
    ensures Param(GoogleParams(clientId, uri, scopes, state), "scope") == Some(scopes)
  {
    var params := GoogleParams(clientId, uri, scopes, state);
    assert |params[0].0| != 5 && |params[1].0| != 5 && |params[2].0| != 5;
    ParamAt(params, 3, "scope", scopes);
  }

  lemma GoogleAuthorizeCarriesState(env: Env, scope: Option<string>, state: string)
    ensures Param(AuthorizeParams(Google, env, scope, state), "state") == Some(state)
    ensures Param(AuthorizeParams(Google, env, scope, state), "redirect_uri") == Some(RedirectUri(Google, env))
  {
    GoogleParamsFound(Interpolate(ClientId(Google, env)), RedirectUri(Google, env), Join(GoogleScopes(scope), " "), state);
  }

  lemma LinkedInAuthorizeCarriesState(env: Env, scope: Option<string>, state: string)
    ensures Param(AuthorizeParams(LinkedIn, env, scope, state), "state") == Some(state)
    ensures Param(AuthorizeParams(LinkedIn, env, scope, state), "redirect_uri") == Some(RedirectUri(LinkedIn, env))
  {
    var params := AuthorizeParams(LinkedIn, env, scope, state);
    ParamAt(params, 4, "state", state);
    ParamAt(params, 2, "redirect_uri", RedirectUri(LinkedIn, env));
  }

  lemma HubSpotAuthorizeCarriesState(env: Env, scope: Option<string>, state: string)
    ensures Param(AuthorizeParams(HubSpot, env, scope, state), "state") == Some(state)
    ensures Param(AuthorizeParams(HubSpot, env, scope, state), "redirect_uri") == Some(RedirectUri(HubSpot, env))
  {
    var params := AuthorizeParams(HubSpot, env, scope, state);
    ParamAt(params, 3, "state", state);
    ParamAt(params, 1, "redirect_uri", RedirectUri(HubSpot, env));
  }

  lemma MetaAuthorizeCarriesState(env: Env, scope: Option<string>, state: string)
    ensures Param(AuthorizeParams(Meta, env, scope, state), "state") == Some(state)
    ensures Param(AuthorizeParams(Meta, env, scope, state), "redirect_uri") == Some(RedirectUri(Meta, env))
  {
    var params := AuthorizeParams(Meta, env, scope, state);
    ParamAt(params, 3, "state", state);
    ParamAt(params, 1, "redirect_uri", RedirectUri(Meta, env));
  }

  /** The consent-screen redirect carries the issued state and the route's
      own callback address. */
  lemma AuthorizeCarriesState(p: Provider, env: Env, scope: Option<string>, state: string)
    ensures Param(AuthorizeParams(p, env, scope, state), "state") == Some(state)
    ensures Param(AuthorizeParams(p, env, scope, state), "redirect_uri") == Some(RedirectUri(p, env))
  {
    match p
    case Google => GoogleAuthorizeCarriesState(env, scope, state);
    case LinkedIn => LinkedInAuthorizeCarriesState(env, scope, state);
    case HubSpot => HubSpotAuthorizeCarriesState(env, scope, state);
    case Meta => MetaAuthorizeCarriesState(env, scope, state);
  }

  /** Without `code` the handler initiates, even when `error` is present: it
      issues a fresh state for the provider, puts that same value in the
      `state` parameter of the consent-screen redirect, and exchanges
      nothing. */
  lemma InitiatesWithoutCode(p: Provider, jar: Jar, env: Env, q: Query, random: seq<Byte>, reply: TokenReply)
    requires |random| == 16
    requires Configured(p, env) && !Truthy(q.code)
    ensures var out := Handle(p, jar, env, q, random, reply);
            && out.response == Authorize(AuthorizeEndpoint(p), AuthorizeParams(p, env, q.scope, Hex(random)))
            && Param(out.response.params, "state") == Some(Hex(random))
            && Param(out.response.params, "redirect_uri") == Some(RedirectUri(p, env))
            && out.exchange == None
            && out.jar == Issue(jar, Key(p), Hex(random), Production(env))
            && Accepts(out.jar, Key(p), Hex(random))
  {
    assert Handle(p, jar, env, q, random, reply) == Initiate(p, jar, env, q.scope, random);
    AuthorizeCarriesState(p, env, q.scope, Hex(random));
    IssuedStateValidates(jar, Key(p), random, Production(env));
  }

  /** Google checks `error` before the state: a denied consent redirects with
      `google_denied`, sends no token request and leaves the state cookie in
      place. */
  lemma GoogleDenialBeforeState(jar: Jar, env: Env, q: Query, random: seq<Byte>, reply: TokenReply)
    requires |random| == 16
    requires Truthy(q.code) && Truthy(q.error)
    ensures Handle(Google, jar, env, q, random, reply)
            == Outcome(Redirect(ErrorUrl(Google, env, "google_denied")), None, jar)
  {
  }

  /** HubSpot, LinkedIn and Meta never read the `error` parameter. */
  lemma OthersIgnoreError(p: Provider, jar: Jar, env: Env, q: Query, error: Option<string>, random: seq<Byte>, reply: TokenReply)
    requires |random| == 16
    requires p != Google
    ensures Handle(p, jar, env, q.(error := error), random, reply) == Handle(p, jar, env, q, random, reply)
  {
  }

  /** A callback whose state does not validate is redirected with the state
      error, sends no token request and changes no cookie. */
  lemma StateMismatchStopsEarly(p: Provider, jar: Jar, env: Env, q: Query, random: seq<Byte>, reply: TokenReply)
    requires |random| == 16
    requires Configured(p, env) && Truthy(q.code) && NotDenied(p, q)
    requires !Accepts(jar, Key(p), q.state.GetOr(""))
    ensures Handle(p, jar, env, q, random, reply)
            == Outcome(Redirect(ErrorUrl(p, env, StateError(p))), None, jar)
  {
  }

  /** A token endpoint that answers a non-2xx status gets the token error
      redirect: the state is spent but no token cookie is written. */
  lemma TokenFailureStoresNothing(p: Provider, jar: Jar, env: Env, q: Query, random: seq<Byte>, status: int, body: TokenBody)
    requires |random| == 16
    requires Configured(p, env) && Truthy(q.code) && NotDenied(p, q)
    requires Accepts(jar, Key(p), q.state.GetOr("")) && !Ok(status)
    ensures var out := Handle(p, jar, env, q, random, Replied(status, body));
            && out.response == Redirect(ErrorUrl(p, env, TokenError(p)))
            && out.exchange == Some(ExchangeRequest(p, env, q.code.value))
            && out.jar == jar - {StateCookie(Key(p))}
            && Lookup(out.jar, TokenCookie(p)) == Lookup(jar, TokenCookie(p))
  {
    CookiesDistinct(p, p);
  }

  /** A successful exchange stores the access token under the provider's
      token cookie with the credential attributes, consumes the state and
      redirects home (Google) or to the setup page (the others). */
  lemma SuccessStoresToken(p: Provider, jar: Jar, env: Env, q: Query, random: seq<Byte>, status: int, token: string)
    requires |random| == 16
    requires Configured(p, env) && Truthy(q.code) && NotDenied(p, q)
    requires Accepts(jar, Key(p), q.state.GetOr("")) && Ok(status)
    ensures var out := Handle(p, jar, env, q, random, Replied(status, Json(Some(token))));
            && out.response == Redirect(SuccessUrl(p, env))
            && out.exchange == Some(ExchangeRequest(p, env, q.code.value))
            && out.jar == Stored(jar - {StateCookie(Key(p))}, TokenCookie(p), token, Production(env))
            && Lookup(out.jar, TokenCookie(p)) == Some(token)
            && StateCookie(Key(p)) !in out.jar
  {
    CookiesDistinct(p, p);
  }

  /** A 2xx reply whose JSON has no `access_token` is still taken for a
      success: the state is spent, the token cookie is written empty and the
      user is sent to the success page. */
  lemma MissingTokenStillSucceeds(p: Provider, jar: Jar, env: Env, q: Query, random: seq<Byte>, status: int)
    requires |random| == 16
    requires Configured(p, env) && Truthy(q.code) && NotDenied(p, q)
    requires Accepts(jar, Key(p), q.state.GetOr("")) && Ok(status)
    ensures var out := Handle(p, jar, env, q, random, Replied(status, Json(None)));
            && out.response == Redirect(SuccessUrl(p, env))
            && out.jar == Stored(jar - {StateCookie(Key(p))}, TokenCookie(p), "", Production(env))
            && Lookup(out.jar, TokenCookie(p)) == Some("")
  {
    CookiesDistinct(p, p);
  }

  /** A 2xx reply whose body is not JSON makes `json()` throw: the framework
      answers 500, the state is spent and no token is written. */
  lemma NonJsonReplyFails(p: Provider, jar: Jar, env: Env, q: Query, random: seq<Byte>, status: int)
    requires |random| == 16
    requires Configured(p, env) && Truthy(q.code) && NotDenied(p, q)
    requires Accepts(jar, Key(p), q.state.GetOr("")) && Ok(status)
    ensures var out := Handle(p, jar, env, q, random, Replied(status, NotJson));
            && out.response == InternalError
            && out.exchange == Some(ExchangeRequest(p, env, q.code.value))
            && out.jar == jar - {StateCookie(Key(p))}
  {
  }

  /** The token cookie changes only in a configured callback whose state
      validated and whose exchange answered 2xx: a forged or missing state
      never stores a token. */
  lemma TokenOnlyAfterValidState(p: Provider, jar: Jar, env: Env, q: Query, random: seq<Byte>, reply: TokenReply)
    requires |random| == 16
    ensures var out := Handle(p, jar, env, q, random, reply);
            Lookup(out.jar, TokenCookie(p)) != Lookup(jar, TokenCookie(p)) ==>
              && Configured(p, env) && Truthy(q.code) && NotDenied(p, q)
              && Accepts(jar, Key(p), q.state.GetOr(""))
              && reply.Replied? && Ok(reply.status)
  {
    CookiesDistinct(p, p);
    if Configured(p, env) {
      if !Truthy(q.code) {
        assert Lookup(Issue(jar, Key(p), Hex(random), Production(env)), TokenCookie(p)) == Lookup(jar, TokenCookie(p));
      } else if NotDenied(p, q) && Accepts(jar, Key(p), q.state.GetOr("")) {
        var spent := Validated(jar, Key(p), q.state.GetOr(""));
        assert Lookup(spent, TokenCookie(p)) == Lookup(jar, TokenCookie(p));
        CompleteStoresOnlyOnSuccess(p, spent, env, q.code.value, reply);
      }
    }
  }

  /** The exchange step changes the token only when the exchange answered 2xx. */
  lemma CompleteStoresOnlyOnSuccess(p: Provider, jar: Jar, env: Env, code: string, reply: TokenReply)
    ensures Lookup(Complete(p, jar, env, code, reply).jar, TokenCookie(p)) != Lookup(jar, TokenCookie(p)) ==>
              reply.Replied? && Ok(reply.status)
  {
  }

  /** No token request is ever sent unless the state validated. */
  lemma NoExchangeWithoutValidState(p: Provider, jar: Jar, env: Env, q: Query, random: seq<Byte>, reply: TokenReply)
    requires |random| == 16
    ensures Handle(p, jar, env, q, random, reply).exchange.Some? ==>
              Configured(p, env) && Truthy(q.code) && Accepts(jar, Key(p), q.state.GetOr(""))
  {
  }

  /** The exchange step writes the token cookie and nothing else. */
  lemma CompleteTouchesOnlyToken(p: Provider, jar: Jar, env: Env, code: string, reply: TokenReply)
    ensures forall c :: c != TokenCookie(p) ==> Lookup(Complete(p, jar, env, code, reply).jar, c) == Lookup(jar, c)
  {
  }

  /** A callback writes or deletes no cookie but the provider's own state
      and token cookies. */
  lemma CallbackTouchesOnlyOwnCookies(p: Provider, jar: Jar, env: Env, q: Query, reply: TokenReply)
    requires Truthy(q.code)
    ensures forall c :: c != StateCookie(Key(p)) && c != TokenCookie(p) ==>
              Lookup(Callback(p, jar, env, q, reply).jar, c) == Lookup(jar, c)
  {
    if NotDenied(p, q) && Accepts(jar, Key(p), q.state.GetOr("")) {
      var spent := jar - {StateCookie(Key(p))};
      assert Callback(p, jar, env, q, reply) == Complete(p, spent, env, q.code.value, reply);
      CompleteTouchesOnlyToken(p, spent, env, q.code.value, reply);
    }
  }

  /** A request for provider `p` writes or deletes no cookie but the
      provider's own state and token cookies. */
  lemma TouchesOnlyOwnCookies(p: Provider, jar: Jar, env: Env, q: Query, random: seq<Byte>, reply: TokenReply)
    requires |random| == 16
    ensures var out := Handle(p, jar, env, q, random, reply);
            forall c :: c != StateCookie(Key(p)) && c != TokenCookie(p) ==> Lookup(out.jar, c) == Lookup(jar, c)
  {
    if Configured(p, env) && Truthy(q.code) {
      CallbackTouchesOnlyOwnCookies(p, jar, env, q, reply);
    } else if Configured(p, env) {
      var issued := Issue(jar, Key(p), Hex(random), Production(env));
      assert Handle(p, jar, env, q, random, reply).jar == issued;
      assert forall c :: c != StateCookie(Key(p)) ==> Lookup(issued, c) == Lookup(jar, c);
    }
  }

  /** A request for provider `p` leaves the state and token cookies of every
      other provider as they were. */
  lemma ProvidersIsolated(p: Provider, other: Provider, jar: Jar, env: Env, q: Query, random: seq<Byte>, reply: TokenReply)
    requires |random| == 16
    requires p != other
    ensures var out := Handle(p, jar, env, q, random, reply);
            && Lookup(out.jar, StateCookie(Key(other))) == Lookup(jar, StateCookie(Key(other)))
            && Lookup(out.jar, TokenCookie(other)) == Lookup(jar, TokenCookie(other))
  {
    TouchesOnlyOwnCookies(p, jar, env, q, random, reply);
    CookiesDistinct(p, other);
    CookiesDistinct(other, p);
  }

  /** The round trip of section 4.1 of RFC 6749: a flow initiated for `p`,
      followed by the provider's callback carrying a code and the state it was
      given, stores the token; the state is then spent, so replaying the same
      callback is refused with the state error and changes nothing. */
  lemma InitiateThenCallback(p: Provider, jar: Jar, env: Env, scope: Option<string>, random: seq<Byte>,
                             code: string, status: int, token: string, unused: seq<Byte>)
    requires |random| == 16 && |unused| == 16
    requires Configured(p, env) && code != "" && Ok(status)
    ensures var start := Handle(p, jar, env, Query(None, None, None, scope), random, Threw);
            var state := Param(start.response.params, "state");
            var callback := Query(Some(code), state, None, None);
            var finish := Handle(p, start.jar, env, callback, unused, Replied(status, Json(Some(token))));
            var replay := Handle(p, finish.jar, env, callback, unused, Replied(status, Json(Some(token))));
            && start.response.Authorize?
            && Lookup(finish.jar, TokenCookie(p)) == Some(token)
            && finish.response == Redirect(SuccessUrl(p, env))
            && replay == Outcome(Redirect(ErrorUrl(p, env, StateError(p))), None, finish.jar)
  {
    var start := Handle(p, jar, env, Query(None, None, None, scope), random, Threw);
    InitiatesWithoutCode(p, jar, env, Query(None, None, None, scope), random, Threw);
    CallbackThenReplay(p, start.jar, env, code, Hex(random), status, token, unused);
  }

  /** A callback carrying a state the jar accepts stores the token and spends
      the state, so the same callback replayed is refused. */
  lemma CallbackThenReplay(p: Provider, jar: Jar, env: Env, code: string, state: string,
                           status: int, token: string, unused: seq<Byte>)
    requires |unused| == 16
    requires Configured(p, env) && code != "" && Ok(status) && Accepts(jar, Key(p), state)
    ensures var callback := Query(Some(code), Some(state), None, None);
            var finish := Handle(p, jar, env, callback, unused, Replied(status, Json(Some(token))));
            var replay := Handle(p, finish.jar, env, callback, unused, Replied(status, Json(Some(token))));
            && Lookup(finish.jar, TokenCookie(p)) == Some(token)
            && finish.response == Redirect(SuccessUrl(p, env))
            && replay == Outcome(Redirect(ErrorUrl(p, env, StateError(p))), None, finish.jar)
  {
    var callback := Query(Some(code), Some(state), None, None);
    SuccessStoresToken(p, jar, env, callback, unused, status, token);
    var finish := Handle(p, jar, env, callback, unused, Replied(status, Json(Some(token))));
    StateMismatchStopsEarly(p, finish.jar, env, callback, unused, Replied(status, Json(Some(token))));
  }

  /** The scope key defaults to "all" and an unknown key falls back to it. */
  lemma ScopeFallback(scope: Option<string>)
    ensures GoogleScopes(None) == GoogleScopes(Some("all"))
    ensures scope.Some? && scope.value !in {"gsc", "ga4", "ads", "all"} ==>
              GoogleScopes(scope) == GoogleScopes(Some("all"))
  {
  }

  /** Every scope list starts with the identity scopes, and "all" asks for
      exactly the union of the three product scopes. */
  lemma ScopeTable(key: string)
    ensures ScopeMap(key).Some? ==> |ScopeMap(key).value| >= 2 && ScopeMap(key).value[0] == "openid email profile"
    ensures var all := set s | s in ScopeMap("all").value;
            all == (set s | s in ScopeMap("gsc").value) + (set s | s in ScopeMap("ga4").value)
                   + (set s | s in ScopeMap("ads").value)
  {
    var all := ScopeMap("all").value;
    assert all == [Identity, WebmastersScope, AnalyticsScope, AdwordsScope];
  }

  /** Google's consent redirect asks for the chosen scopes joined by spaces. */
  lemma GoogleScopeParameter(env: Env, scope: Option<string>, state: string)
    ensures Param(AuthorizeParams(Google, env, scope, state), "scope") == Some(Join(GoogleScopes(scope), " "))
  {
    GoogleScopeFound(Interpolate(ClientId(Google, env)), RedirectUri(Google, env), Join(GoogleScopes(scope), " "), state);
  }

  /** The token request carries the code of the callback and the very
      callback address the consent redirect named, as section 4.1.3 of
      RFC 6749 requires. */
  lemma ExchangeMatchesAuthorize(p: Provider, env: Env, code: string, scope: Option<string>, state: string)
    ensures Param(ExchangeRequest(p, env, code).params, "code") == Some(code)
    ensures Param(ExchangeRequest(p, env, code).params, "redirect_uri")
         == Param(AuthorizeParams(p, env, scope, state), "redirect_uri")
  {
    AuthorizeCarriesState(p, env, scope, state);
    ExchangeCarries(p, env, code);
  }

  /** Meta's token request is a GET with query parameters; the others are
      POSTs with a form body. */
  lemma ExchangeVerb(p: Provider, env: Env, code: string)
    ensures ExchangeRequest(p, env, code).verb == (if p == Meta then "GET" else "POST")
  {
  }

  lemma ExchangeCarries(p: Provider, env: Env, code: string)
    ensures Param(ExchangeRequest(p, env, code).params, "code") == Some(code)
    ensures Param(ExchangeRequest(p, env, code).params, "redirect_uri") == Some(RedirectUri(p, env))
  {
    match p
    case Google => GoogleExchangeCarries(env, code);
    case HubSpot => HubSpotExchangeCarries(env, code);
    case LinkedIn => LinkedInExchangeCarries(env, code);
    case Meta => MetaExchangeCarries(env, code);
  }

  lemma GoogleExchangeCarries(env: Env, code: string)
    ensures Param(ExchangeRequest(Google, env, code).params, "code") == Some(code)
    ensures Param(ExchangeRequest(Google, env, code).params, "redirect_uri") == Some(RedirectUri(Google, env))
  {
    GoogleTokenFormCarries(code, Interpolate(ClientId(Google, env)), Interpolate(ClientSecret(Google, env)), RedirectUri(Google, env));
  }

  lemma HubSpotExchangeCarries(env: Env, code: string)
    ensures Param(ExchangeRequest(HubSpot, env, code).params, "code") == Some(code)
    ensures Param(ExchangeRequest(HubSpot, env, code).params, "redirect_uri") == Some(RedirectUri(HubSpot, env))
  {
    CodeAndCallbackAt(ExchangeRequest(HubSpot, env, code).params, 4, 3, code, RedirectUri(HubSpot, env));
  }

  lemma LinkedInExchangeCarries(env: Env, code: string)
    ensures Param(ExchangeRequest(LinkedIn, env, code).params, "code") == Some(code)
    ensures Param(ExchangeRequest(LinkedIn, env, code).params, "redirect_uri") == Some(RedirectUri(LinkedIn, env))
  {
    CodeAndCallbackAt(ExchangeRequest(LinkedIn, env, code).params, 1, 4, code, RedirectUri(LinkedIn, env));
  }

  lemma MetaExchangeCarries(env: Env, code: string)
    ensures Param(ExchangeRequest(Meta, env, code).params, "code") == Some(code)
    ensures Param(ExchangeRequest(Meta, env, code).params, "redirect_uri") == Some(RedirectUri(Meta, env))
  {
    CodeAndCallbackAt(ExchangeRequest(Meta, env, code).params, 3, 2, code, RedirectUri(Meta, env));
  }

  lemma GoogleTokenFormCarries(code: string, id: string, secret: string, uri: string)
    ensures Param(GoogleTokenForm(code, id, secret, uri), "code") == Some(code)
    ensures Param(GoogleTokenForm(code, id, secret, uri), "redirect_uri") == Some(uri)
  {
    CodeAndCallbackAt(GoogleTokenForm(code, id, secret, uri), 0, 3, code, uri);
  }

  /** A token request's code and callback address are found where they are
      listed, since the names listed before them are of other lengths. */
  lemma CodeAndCallbackAt(params: seq<(string, string)>, i: nat, j: nat, code: string, uri: string)
    requires i < |params| && params[i] == ("code", code)
    requires j < |params| && params[j] == ("redirect_uri", uri)
    requires forall k :: 0 <= k < i ==> |params[k].0| != 4
    requires forall k :: 0 <= k < j ==> |params[k].0| != 12
    ensures Param(params, "code") == Some(code)
    ensures Param(params, "redirect_uri") == Some(uri)
  {
    ParamAt(params, i, "code", code);
    ParamAt(params, j, "redirect_uri", uri);
  }
}

=== FILE: oauth_routes.dfy ===
/**
 * The four OAuth connectors (app/api/auth/{google,hubspot,linkedin,meta}/route.ts),
 * each an authorization-code grant as in section 4.1 of RFC 6749. One GET
 * handler either initiates the flow (no `code`: issue a state, redirect to the
 * provider's consent screen) or completes it (`code` present: validate the
 * state, exchange the code, store the access token). The outcome of the token
 * exchange and the random bytes of the state are inputs.
 */
module OAuthRoutes {

  import opened Wrappers
  import opened Text
  import opened Cookies
  import opened Session
  import opened OAuthState
  import opened Environment
  import opened BaseUrl

  datatype Provider = Google | HubSpot | LinkedIn | Meta

  /** The query parameters the handlers read (`searchParams.get`; None is
      an absent parameter). */
  datatype Query = Query(code: Option<string>, state: Option<string>, error: Option<string>, scope: Option<string>)

  /** The body of a token response as `json()` reads it: not JSON (the call
      throws), or a JSON object whose `access_token` is a string or absent
      (None: destructuring gives `undefined`). */
  datatype TokenBody = NotJson | Json(accessToken: Option<string>)

  /** What the token endpoint did: the request threw (network failure), or it
      answered with a status and a body. */
  datatype TokenReply = Threw | Replied(status: int, body: TokenBody)

  /** The token request a callback sends (`fetch`); its parameters are sent
      form-encoded (POST) or in the query string (GET), in this order. */
  datatype Exchange = Exchange(verb: string, url: string, params: seq<(string, string)>)

  datatype Response =
    | Redirect(location: string)
      /** A redirect to the provider's consent screen with these query parameters. */
    | Authorize(endpoint: string, params: seq<(string, string)>)
    | JsonError(status: int, message: string)
      /** An exception escaped the handler: the framework answers 500. */
    | InternalError

  /** The response, the token request sent if any, and the cookie jar after. */
  datatype Outcome = Outcome(response: Response, exchange: Option<Exchange>, jar: Jar)

  /** The name under which the state is kept and validated. */
  function Key(p: Provider): string {
    match p
    case Google => "google"
    case HubSpot => "hubspot"
    case LinkedIn => "linkedin"
    case Meta => "meta"
  }

  /** The credential cookie a successful callback writes. */
  function TokenCookie(p: Provider): string {
    "mbr_" + Key(p) + "_token"
  }

  /** The application URL each route builds its links on: Google uses the
      resolved base URL; HubSpot and Meta take NEXT_PUBLIC_APP_URL or the
      local URL; LinkedIn takes NEXT_PUBLIC_APP_URL as it is, with no
      fallback, so an unset variable reads "undefined". */
  function Base(p: Provider, env: Env): string {
    match p
    case Google => GetBaseUrl(env)
    case HubSpot | Meta => if Truthy(env.appUrl) then env.appUrl.value else LocalUrl
    case LinkedIn => Interpolate(env.appUrl)
  }

  function ClientId(p: Provider, env: Env): Option<string> {
    match p
    case Google => env.googleClientId
    case HubSpot => env.hubspotClientId
    case LinkedIn => env.linkedinClientId
    case Meta => env.metaAppId
  }

  function ClientSecret(p: Provider, env: Env): Option<string> {
    match p
    case Google => env.googleClientSecret
    case HubSpot => env.hubspotClientSecret
    case LinkedIn => env.linkedinClientSecret
    case Meta => env.metaAppSecret
  }

  /** HubSpot and Meta refuse to run without both credentials; Google and
      LinkedIn have no such guard. */
  predicate Configured(p: Provider, env: Env) {
    (p == HubSpot || p == Meta) ==> Truthy(ClientId(p, env)) && Truthy(ClientSecret(p, env))
  }

  function NotConfigured(p: Provider): string {
    if p == HubSpot then "HubSpot not configured" else "Meta not configured"
  }

  function RedirectUri(p: Provider, env: Env): string {
    Base(p, env) + "/api/auth/" + Key(p)
  }

  function StateError(p: Provider): string {
    if p == Google then "google_state_mismatch" else Key(p) + "_state"
  }

  function TokenError(p: Provider): string {
    if p == Google then "google_token_failed" else Key(p) + "_token"
  }

  function ErrorUrl(p: Provider, env: Env, error: string): string {
    Base(p, env) + "/?error=" + error
  }

  /** Google sends the user home, the others back to the setup page. */
  function SuccessUrl(p: Provider, env: Env): string {
    if p == Google then Base(p, env) + "/" else Base(p, env) + "/setup"
  }

  const Identity := "openid email profile"
  const WebmastersScope := "https://www.googleapis.com/auth/webmasters.readonly"
  const AnalyticsScope := "https://www.googleapis.com/auth/analytics.readonly"
  const AdwordsScope := "https://www.googleapis.com/auth/adwords"

  /** `SCOPE_MAP`: four keys, each list opening with the identity scopes. */
  function ScopeMap(key: string): (r: Option<seq<string>>)
    ensures r.Some? <==> key == "gsc" || key == "ga4" || key == "ads" || key == "all"
    ensures r.Some? ==> |r.value| >= 2 && r.value[0] == Identity
  {
    if key == "gsc" then Some([Identity, WebmastersScope])
    else if key == "ga4" then Some([Identity, AnalyticsScope])
    else if key == "ads" then Some([Identity, AdwordsScope])
    else if key == "all" then Some([Identity, WebmastersScope, AnalyticsScope, AdwordsScope])
    else None
  }

  /** `SCOPE_MAP[scope ?? "all"] ?? SCOPE_MAP["all"]` */
  function GoogleScopes(scope: Option<string>): seq<string> {
    match ScopeMap(scope.GetOr("all"))
    case Some(scopes) => scopes
    case None => ScopeMap("all").value
  }

  /** Google's consent parameters, whatever the client id, callback address
      and scope text. */
  function GoogleParams(clientId: string, uri: string, scopes: string, state: string): seq<(string, string)> {
    [("response_type", "code"), ("client_id", clientId), ("redirect_uri", uri),
     ("scope", scopes), ("state", state), ("access_type", "online"),
     ("prompt", "select_account")]
  }

  /** The query of the consent-screen redirect. */
  function AuthorizeParams(p: Provider, env: Env, scope: Option<string>, state: string): seq<(string, string)> {
    var clientId := Interpolate(ClientId(p, env));
    match p
    case Google => GoogleParams(clientId, RedirectUri(p, env), Join(GoogleScopes(scope), " "), state)
    case HubSpot =>
      [("client_id", clientId), ("redirect_uri", RedirectUri(p, env)),
       ("scope", "crm.objects.contacts.read crm.objects.deals.read marketing-email campaigns"),
       ("state", state)]
    case LinkedIn =>
      [("response_type", "code"), ("client_id", clientId), ("redirect_uri", RedirectUri(p, env)),
       ("scope", "r_liteprofile r_emailaddress r_organization_social rw_organization_admin"),
       ("state", state)]
    case Meta =>
      [("client_id", clientId), ("redirect_uri", RedirectUri(p, env)),
       ("scope", "ads_read,ads_management,business_management,read_insights"),
       ("state", state), ("response_type", "code")]
  }

  function AuthorizeEndpoint(p: Provider): string {
    match p
    case Google => "https://accounts.google.com/o/oauth2/v2/auth"
    case HubSpot => "https://app.hubspot.com/oauth/authorize"
    case LinkedIn => "https://www.linkedin.com/oauth/v2/authorization"
    case Meta => "https://www.facebook.com/v19.0/dialog/oauth"
  }

  /** Google's token form, whatever the code, credentials and callback
      address. */
  function GoogleTokenForm(code: string, id: string, secret: string, uri: string): seq<(string, string)> {
    [("code", code), ("client_id", id), ("client_secret", secret),
     ("redirect_uri", uri), ("grant_type", "authorization_code")]
  }

  /** The token request of a callback carrying `code`. */
  function ExchangeRequest(p: Provider, env: Env, code: string): Exchange {
    var id := Interpolate(ClientId(p, env));
    var secret := Interpolate(ClientSecret(p, env));
    var uri := RedirectUri(p, env);
    match p
    case Google =>
      Exchange("POST", "https://oauth2.googleapis.com/token", GoogleTokenForm(code, id, secret, uri))
    case HubSpot =>
      Exchange("POST", "https://api.hubapi.com/oauth/v1/token",
        [("grant_type", "authorization_code"), ("client_id", id), ("client_secret", secret),
         ("redirect_uri", uri), ("code", code)])
    case LinkedIn =>
      Exchange("POST", "https://www.linkedin.com/oauth/v2/accessToken",
        [("grant_type", "authorization_code"), ("code", code), ("client_id", id),
         ("client_secret", secret), ("redirect_uri", uri)])
    case Meta =>
      Exchange("GET", "https://graph.facebook.com/v19.0/oauth/access_token",
        [("client_id", id), ("client_secret", secret), ("redirect_uri", uri), ("code", code)])
  }

  /** `tokenRes.ok` */
  predicate Ok(status: int) {
    200 <= status < 300
  }

  /** `URLSearchParams.get`: the value of the first parameter called `name`. */
  function Param(params: seq<(string, string)>, name: string): (v: Option<string>)
    ensures v.Some? ==> (name, v.value) in params
    ensures v.None? ==> forall x :: x in params ==> x.0 != name
  {
    if params == [] then None
    else if params[0].0 == name then Some(params[0].1)
    else Param(params[1..], name)
  }

  /** In a parameter list whose first `k` names differ from `name`, the
      parameter at index `k` is the one found. */
  lemma {:induction false} ParamAt(params: seq<(string, string)>, k: nat, name: string, value: string)
    requires k < |params| && params[k] == (name, value)
    requires forall j :: 0 <= j < k ==> params[j].0 != name
    ensures Param(params, name) == Some(value)
    decreases k
  {
    if k > 0 {
      assert params[0].0 != name;
      ParamAt(params[1..], k - 1, name, value);
    }
  }

  /** The value a cookie write stores for `access_token`: the string, or the
      empty value Next.js serialises `undefined` as. */
  function CookieValue(token: Option<string>): string {
    token.GetOr("")
  }

  /** The callback once the state is accepted and consumed: exchange the code
      and store the token. A 2xx JSON reply without `access_token` still
      writes the cookie, empty, and still redirects to the success page. */
  function Complete(p: Provider, jar: Jar, env: Env, code: string, reply: TokenReply): (out: Outcome)
    ensures out.exchange == Some(ExchangeRequest(p, env, code))
    ensures forall c :: c != TokenCookie(p) ==> Lookup(out.jar, c) == Lookup(jar, c)
    ensures Lookup(out.jar, TokenCookie(p)) != Lookup(jar, TokenCookie(p)) ==>
              reply.Replied? && Ok(reply.status) && reply.body.Json?
    ensures reply.Replied? && Ok(reply.status) && reply.body.Json? ==>
              && out.response == Redirect(SuccessUrl(p, env))
              && Lookup(out.jar, TokenCookie(p)) == Some(CookieValue(reply.body.accessToken))
  {
    var exchange := Some(ExchangeRequest(p, env, code));
    match reply
    case Threw => Outcome(InternalError, exchange, jar)
    case Replied(status, body) =>
      if !Ok(status) then Outcome(Redirect(ErrorUrl(p, env, TokenError(p))), exchange, jar)
      else if body.NotJson? then Outcome(InternalError, exchange, jar)
      else Outcome(Redirect(SuccessUrl(p, env)), exchange, Stored(jar, TokenCookie(p), CookieValue(body.accessToken), Production(env)))
  }

  /** A callback carrying `code`: Google's `error` check, then the state,
      then the exchange, then the cookie. */
  function Callback(p: Provider, jar: Jar, env: Env, q: Query, reply: TokenReply): (out: Outcome)
    requires Truthy(q.code)
    ensures out.exchange.Some? <==> !(p == Google && Truthy(q.error)) && Accepts(jar, Key(p), q.state.GetOr(""))
    ensures out.exchange.None? ==> out.jar == jar
    ensures forall c :: c != StateCookie(Key(p)) && c != TokenCookie(p) ==> Lookup(out.jar, c) == Lookup(jar, c)
  {
    if p == Google && Truthy(q.error) then Outcome(Redirect(ErrorUrl(p, env, "google_denied")), None, jar)
    else if !Accepts(jar, Key(p), q.state.GetOr("")) then
      Outcome(Redirect(ErrorUrl(p, env, StateError(p))), None, jar)
    else Complete(p, Validated(jar, Key(p), q.state.GetOr("")), env, q.code.value, reply)
  }

  /** A request without `code`: a fresh state for the provider and a redirect
      to its consent screen carrying that state. */
  function Initiate(p: Provider, jar: Jar, env: Env, scope: Option<string>, random: seq<Byte>): (out: Outcome)
    requires |random| == 16
    ensures out.exchange == None && out.response.Authorize? && out.response.endpoint == AuthorizeEndpoint(p)
    ensures Lookup(out.jar, StateCookie(Key(p))) == Some(Hex(random))
    ensures forall c :: c != StateCookie(Key(p)) ==> Lookup(out.jar, c) == Lookup(jar, c)
  {
    var state := Hex(random);
    Outcome(Authorize(AuthorizeEndpoint(p), AuthorizeParams(p, env, scope, state)), None,
            Issue(jar, Key(p), state, Production(env)))
  }

  /** What one GET request does: the configuration guard first, then the
      presence of `code` decides between callback and initiation. */
  function Handle(p: Provider, jar: Jar, env: Env, q: Query, random: seq<Byte>, reply: TokenReply): (out: Outcome)
    requires |random| == 16
    ensures !Configured(p, env) ==> out == Outcome(JsonError(503, NotConfigured(p)), None, jar)
    ensures out.exchange.Some? ==> Configured(p, env) && Truthy(q.code) && Accepts(jar, Key(p), q.state.GetOr(""))
    ensures forall c :: c != StateCookie(Key(p)) && c != TokenCookie(p) ==> Lookup(out.jar, c) == Lookup(jar, c)
  {
    if !Configured(p, env) then Outcome(JsonError(503, NotConfigured(p)), None, jar)
    else if Truthy(q.code) then Callback(p, jar, env, q, reply)
    else Initiate(p, jar, env, q.scope, random)
  }

  /** The exchange and the cookie write of an accepted callback. */
  method Finish(p: Provider, store: CookieStore, env: Env, code: string, reply: TokenReply)
    returns (response: Response, exchange: Option<Exchange>)
    modifies store
    ensures Outcome(response, exchange, store.jar) == Complete(p, old(store.jar), env, code, reply)
  {
    exchange := Some(ExchangeRequest(p, env, code));
    match reply {
      case Threw =>
        response := InternalError;
      case Replied(status, body) =>
        if !Ok(status) {
          response := Redirect(ErrorUrl(p, env, TokenError(p)));
        } else if body.NotJson? {
          response := InternalError;
        } else {
          SetTokenCookie(store, TokenCookie(p), CookieValue(body.accessToken), Production(env));
          response := Redirect(SuccessUrl(p, env));
        }
    }
  }

  method HandleCallback(p: Provider, store: CookieStore, env: Env, q: Query, reply: TokenReply)
    returns (response: Response, exchange: Option<Exchange>)
    requires Truthy(q.code)
    modifies store
    ensures Outcome(response, exchange, store.jar) == Callback(p, old(store.jar), env, q, reply)
  {
    exchange := None;
    if p == Google && Truthy(q.error) {
      response := Redirect(ErrorUrl(p, env, "google_denied"));
      return;
    }
    var valid := ValidateOAuthState(store, Key(p), q.state.GetOr(""));
    if !valid {
      response := Redirect(ErrorUrl(p, env, StateError(p)));
      return;
    }
    response, exchange := Finish(p, store, env, q.code.value, reply);
  }

  method HandleInitiate(p: Provider, store: CookieStore, env: Env, scope: Option<string>, random: seq<Byte>)
    returns (response: Response, exchange: Option<Exchange>)
    requires |random| == 16
    modifies store
    ensures Outcome(response, exchange, store.jar) == Initiate(p, old(store.jar), env, scope, random)
  {
    var oauthState := GenerateOAuthState(store, Key(p), random, Production(env));
    response, exchange := Authorize(AuthorizeEndpoint(p), AuthorizeParams(p, env, scope, oauthState)), None;
  }

  /** `GET` of the connector route of provider `p`. */
  method Get(p: Provider, store: CookieStore, env: Env, q: Query, random: seq<Byte>, reply: TokenReply)
    returns (response: Response, exchange: Option<Exchange>)
    requires |random| == 16
    modifies store
    ensures Outcome(response, exchange, store.jar) == Handle(p, old(store.jar), env, q, random, reply)
  {
    if !Configured(p, env) {
      response, exchange := JsonError(503, NotConfigured(p)), None;
      return;
    }
    if Truthy(q.code) {
      response, exchange := HandleCallback(p, store, env, q, reply);
      return;
    }
    response, exchange := HandleInitiate(p, store, env, q.scope, random);
  }
}

=== FILE: oauth_state.dfy ===
/**
 * The one-time CSRF `state` of the authorization-code flow (section 10.12 of
 * RFC 6749), kept per provider in a ten-minute cookie (lib/oauth-state.ts).
 * The sixteen random bytes the server draws are a parameter.
 */
module OAuthState {

  import opened Wrappers
  import opened Text
  import opened Cookies

  type Byte = b: int | 0 <= b < 256

  const StatePrefix := "mbr_oauth_state_"

  /** Ten minutes, in seconds. */
  const StateMaxAge: nat := 60 * 10

  /** The cookie that holds the pending state of `provider`. */
  function StateCookie(provider: string): string {
    StatePrefix + provider
  }

  /** Different providers keep their state in different cookies. */
  lemma StateCookieInjective(p: string, q: string)
    requires p != q
    ensures StateCookie(p) != StateCookie(q)
  {
    assert StateCookie(p)[|StatePrefix|..] == p;
    assert StateCookie(q)[|StatePrefix|..] == q;
  }

  function StateOptions(production: bool): CookieOptions {
    CookieOptions(true, production, "lax", "/", StateMaxAge)
  }

  predicate IsHexDigit(c: char) {
    '0' <= c <= '9' || 'a' <= c <= 'f'
  }

  function HexDigit(d: int): (c: char)
    requires 0 <= d < 16
    ensures IsHexDigit(c)
  {
    "0123456789abcdef"[d]
  }

  /** `Buffer.toString("hex")`: two lower-case hex digits per byte. */
  function Hex(bytes: seq<Byte>): (s: string)
    ensures |s| == 2 * |bytes|
    ensures forall i :: 0 <= i < |s| ==> IsHexDigit(s[i])
  {
    if bytes == [] then ""
    else [HexDigit(bytes[0] / 16), HexDigit(bytes[0] % 16)] + Hex(bytes[1..])
  }

  /** The jar after `generateOAuthState(provider)` issued `token`. */
  function Issue(jar: Jar, provider: string, token: string, production: bool): Jar {
    jar[StateCookie(provider) := Cookie(token, StateOptions(production))]
  }

  /** What `validateOAuthState(provider, state)` answers: the stored state is
      there, is non-empty and equals `state` exactly. */
  predicate Accepts(jar: Jar, provider: string, state: string) {
    Truthy(Lookup(jar, StateCookie(provider))) && Lookup(jar, StateCookie(provider)).value == state
  }

  /** The jar after `validateOAuthState`: the state cookie is consumed on
      success and left alone otherwise. */
  function Validated(jar: Jar, provider: string, state: string): Jar {
    if Accepts(jar, provider, state) then jar - {StateCookie(provider)} else jar
  }

  method GenerateOAuthState(store: CookieStore, provider: string, random: seq<Byte>, production: bool)
    returns (state: string)
    requires |random| == 16
    modifies store
    ensures state == Hex(random)
    ensures store.jar == Issue(old(store.jar), provider, state, production)
  {
    state := Hex(random);
    store.Set(StateCookie(provider), state, StateOptions(production));
  }

  method ValidateOAuthState(store: CookieStore, provider: string, state: string) returns (ok: bool)
    modifies store
    ensures ok == Accepts(old(store.jar), provider, state)
    ensures store.jar == Validated(old(store.jar), provider, state)
  {
    var stored := store.Get(StateCookie(provider));
    if !Truthy(stored) || stored.value != state {
      return false;
    }
    store.Delete(StateCookie(provider));
    ok := true;
  }

  /** A generated state is 32 lower-case hex digits. */
  lemma GeneratedShape(random: seq<Byte>)
    requires |random| == 16
    ensures |Hex(random)| == 32
    ensures forall i :: 0 <= i < 32 ==> IsHexDigit(Hex(random)[i])
  {
  }

  /** The state just issued for a provider validates for that provider. */
  lemma IssuedStateValidates(jar: Jar, provider: string, random: seq<Byte>, production: bool)
    requires |random| == 16
    ensures Accepts(Issue(jar, provider, Hex(random), production), provider, Hex(random))
  {
  }

  /** A state is single-use: a successful validation consumes it, so the same
      state presented again is refused. */
  lemma SingleUse(jar: Jar, provider: string, state: string)
    requires Accepts(jar, provider, state)
    ensures StateCookie(provider) !in Validated(jar, provider, state)
    ensures !Accepts(Validated(jar, provider, state), provider, state)
  {
  }

  /** A missing state or a mismatching one is refused and changes nothing. */
  lemma RefusalChangesNothing(jar: Jar, provider: string, state: string)
    requires StateCookie(provider) !in jar || jar[StateCookie(provider)].value != state
    ensures !Accepts(jar, provider, state)
    ensures Validated(jar, provider, state) == jar
  {
  }

  /** The empty state callers pass when `state` is absent never validates,
      whatever the jar holds. */
  lemma EmptyStateRefused(jar: Jar, provider: string)
    ensures !Accepts(jar, provider, "")
  {
  }

  /** Only the latest state issued for a provider validates: a second
      generation overwrites the first. */
  lemma LatestStateWins(jar: Jar, provider: string, first: string, second: string, state: string, production: bool)
    ensures Accepts(Issue(Issue(jar, provider, first, production), provider, second, production), provider, state)
            <==> (second != "" && state == second)
  {
  }

  /** Validating provider B neither reads nor changes provider A's state:
      A's cookie is untouched and A's verdict is what it was. */
  lemma ProvidersIsolated(jar: Jar, a: string, b: string, state: string, stateA: string, token: string, production: bool)
    requires a != b
    ensures Lookup(Validated(jar, b, state), StateCookie(a)) == Lookup(jar, StateCookie(a))
    ensures Accepts(Validated(jar, b, state), a, stateA) == Accepts(jar, a, stateA)
    ensures Accepts(Issue(jar, b, token, production), a, stateA) == Accepts(jar, a, stateA)
  {
    StateCookieInjective(a, b);
  }
}

=== FILE: report.dfy ===
/**
 * `POST /api/report` (app/api/report/route.ts): for every provider whose
 * credential cookie is present and of which at least one module is
 * selected, run its block and push its section, in a fixed provider order.
 * The handler only reads cookies; what each provider request answers is an
 * input.
 */
module ReportRoute {

  import opened Wrappers
  import opened Text
  import opened Cookies
  import opened ReportSections
  import opened ReportBlocks

  /** What every provider request of one run answered. */
  datatype Replies = Replies(
    gsc: Reply<GscBody>,
    ga4: Reply<Ga4Body>,
    semrush: Reply<string>,
    semrushAi: AiReply,
    linkedin: Reply<LinkedInBody>,
    meta: Reply<MetaBody>,
    hubspot: Reply<HubSpotBody>)

  /** `modules.some(m => m.startsWith(prefix))` */
  predicate Selected(modules: seq<string>, prefix: string) {
    exists m :: m in modules && StartsWith(m, prefix)
  }

  /** The blocks in order: the cookie each needs and the module prefix that
      selects it. Both Google blocks use the Google token. */
  const Guards: seq<(string, string)> := [
    ("mbr_google_token", "gsc_"),
    ("mbr_google_token", "ga4_"),
    ("mbr_semrush_apikey", "semrush_"),
    ("mbr_linkedin_token", "linkedin_"),
    ("mbr_meta_token", "meta_"),
    ("mbr_hubspot_token", "hubspot_")
  ]

  /** Block `i` runs: its cookie has a value and one of its modules is
      selected. */
  predicate Runs(jar: Jar, modules: seq<string>, i: nat)
    requires i < |Guards|
  {
    Present(jar, Guards[i].0) && Selected(modules, Guards[i].1)
  }

  /** The section each block builds from its provider's reply, success or
      error, before its guard is consulted. */
  datatype Outcomes = Outcomes(gsc: Section, ga4: Section, semrush: Section, linkedin: Section, meta: Section, hubspot: Section)

  /** Every section is well-formed and names its provider: the `k`-th block's
      section has rank `k`. */
  predicate Ranked(o: Outcomes) {
    && Rank(o.gsc) == 0 && WellFormed(o.gsc)
    && Rank(o.ga4) == 1 && WellFormed(o.ga4)
    && Rank(o.semrush) == 2 && WellFormed(o.semrush)
    && Rank(o.linkedin) == 3 && WellFormed(o.linkedin)
    && Rank(o.meta) == 4 && WellFormed(o.meta)
    && Rank(o.hubspot) == 5 && WellFormed(o.hubspot)
  }

  /** What the six blocks build from one run's replies. */
  function Outcome(modules: seq<string>, config: Config, replies: Replies, p: Parsers): (o: Outcomes)
    ensures Ranked(o)
  {
    Outcomes(
      Gsc(modules, config, replies.gsc),
      Ga4(modules, config, replies.ga4, p),
      Semrush(modules, replies.semrush, replies.semrushAi, p),
      LinkedIn(config, replies.linkedin),
      Meta(config, replies.meta, p),
      HubSpot(modules, replies.hubspot, p))
  }

  /** Which blocks run, in block order. */
  function Flags(jar: Jar, modules: seq<string>): (r: seq<bool>)
    ensures |r| == |Guards|
    ensures forall i :: 0 <= i < |Guards| ==> r[i] == Runs(jar, modules, i)
  {
    seq(|Guards|, i requires 0 <= i < |Guards| => Runs(jar, modules, i))
  }

  /** Each block's guard and the section it would push. */
  function Blocks(runs: seq<bool>, o: Outcomes): (b: seq<(bool, Section)>)
    requires |runs| == |Guards|
    ensures |b| == |Guards|
  {
    [ (runs[0], o.gsc), (runs[1], o.ga4), (runs[2], o.semrush),
      (runs[3], o.linkedin), (runs[4], o.meta), (runs[5], o.hubspot) ]
  }

  /** The sections pushed for the blocks' outcomes: at most one per block,
      each the section of a block that runs, and every running block's
      section among them. */
  function Report(jar: Jar, modules: seq<string>, o: Outcomes): (r: seq<Section>)
    ensures |r| <= |Guards|
    ensures forall k :: 0 <= k < |r| ==> RunningSection(jar, modules, o, r[k])
    ensures forall i :: 0 <= i < |Guards| && Runs(jar, modules, i) ==> At(o, i) in r
  {
    GatedRuns(jar, modules, o);
    Gated(Blocks(Flags(jar, modules), o))
  }

  /** The `sections` of the reply: well-formed, in block order, and one for
      each provider exactly when its block runs. */
  function Sections(jar: Jar, modules: seq<string>, config: Config, replies: Replies, p: Parsers): (r: seq<Section>)
    ensures |r| <= |Guards|
    ensures forall k :: 0 <= k < |r| ==> WellFormed(r[k])
    ensures forall k, l :: 0 <= k < l < |r| ==> Rank(r[k]) < Rank(r[l])
    ensures forall i :: 0 <= i < |Guards| ==> (Runs(jar, modules, i) <==> exists k :: 0 <= k < |r| && Rank(r[k]) == i)
  {
    var o := Outcome(modules, config, replies, p);
    OneSectionPerProviderInOrder(jar, modules, o);
    EveryRunReported(jar, modules, o);
    Report(jar, modules, o)
  }

  /** `s` is the section of a block that runs. */
  predicate RunningSection(jar: Jar, modules: seq<string>, o: Outcomes, s: Section) {
    exists i :: 0 <= i < |Guards| && Runs(jar, modules, i) && s == At(o, i)
  }

  /** The pushed sections are those of the running blocks. */
  lemma GatedRuns(jar: Jar, modules: seq<string>, o: Outcomes)
    ensures var r := Gated(Blocks(Flags(jar, modules), o));
            && |r| <= |Guards|
            && (forall k :: 0 <= k < |r| ==> RunningSection(jar, modules, o, r[k]))
            && (forall i :: 0 <= i < |Guards| && Runs(jar, modules, i) ==> At(o, i) in r)
  {
    var runs := Flags(jar, modules);
    var b := Blocks(runs, o);
    var r := Gated(b);
    GatedPicks(b);
    ChosenExactly(b);
    BlockGuards(runs, o);
    BlockSections(runs, o);
    forall k | 0 <= k < |r|
      ensures RunningSection(jar, modules, o, r[k])
    {
      var i := Chosen(b)[k];
      assert Runs(jar, modules, i) && r[k] == At(o, i);
    }
    forall i | 0 <= i < |Guards| && Runs(jar, modules, i)
      ensures At(o, i) in r
    {
      var k :| 0 <= k < |Chosen(b)| && Chosen(b)[k] == i;
      assert r[k] == At(o, i);
    }
  }

  /** Block `i`'s section is `At(o, i)`. */
  lemma BlockSections(runs: seq<bool>, o: Outcomes)
    requires |runs| == |Guards|
    ensures var b := Blocks(runs, o);
            forall i :: 0 <= i < |Guards| ==> b[i].1 == At(o, i)
  {
  }

  /** Every provider reports exactly when its block runs. */
  lemma EveryRunReported(jar: Jar, modules: seq<string>, o: Outcomes)
    requires Ranked(o)
    ensures var s := Report(jar, modules, o);
            forall i :: 0 <= i < |Guards| ==> (Runs(jar, modules, i) <==> exists k :: 0 <= k < |s| && Rank(s[k]) == i)
  {
    forall i | 0 <= i < |Guards|
      ensures var s := Report(jar, modules, o);
              Runs(jar, modules, i) <==> exists k :: 0 <= k < |s| && Rank(s[k]) == i
    {
      ReportedExactlyWhenRun(jar, modules, o, i);
    }
  }

  /** `POST`: the blocks run one after the other, each reading its cookie
      and, when it has a value and one of the block's modules is selected,
      pushing the section the block builds. */
  method Post(store: CookieStore, modules: seq<string>, built: Outcomes) returns (sections: seq<Section>)
    ensures sections == Report(store.jar, modules, built)
  {
    sections := [];
    var googleToken := store.Get("mbr_google_token");
    var gsc := Pushed((Truthy(googleToken) && Selected(modules, "gsc_"), built.gsc));
    sections := sections + gsc;
    assert sections == gsc;
    var ga4 := Pushed((Truthy(googleToken) && Selected(modules, "ga4_"), built.ga4));
    sections := sections + ga4;
    var semrushKey := store.Get("mbr_semrush_apikey");
    var semrush := Pushed((Truthy(semrushKey) && Selected(modules, "semrush_"), built.semrush));
    sections := sections + semrush;
    var linkedinToken := store.Get("mbr_linkedin_token");
    var linkedin := Pushed((Truthy(linkedinToken) && Selected(modules, "linkedin_"), built.linkedin));
    sections := sections + linkedin;
    var metaToken := store.Get("mbr_meta_token");
    var meta := Pushed((Truthy(metaToken) && Selected(modules, "meta_"), built.meta));
    sections := sections + meta;
    var hubspotToken := store.Get("mbr_hubspot_token");
    var hubspot := Pushed((Truthy(hubspotToken) && Selected(modules, "hubspot_"), built.hubspot));
    sections := sections + hubspot;
    FlagsAre(store.jar, modules);
    PushedInOrder(Flags(store.jar, modules), built, gsc, ga4, semrush, linkedin, meta, hubspot);
  }

  /** One request: the blocks build their sections from the provider
      replies, and `POST` pushes those of the blocks that run. */
  method Handle(store: CookieStore, modules: seq<string>, config: Config, replies: Replies, p: Parsers)
    returns (sections: seq<Section>)
    ensures sections == Sections(store.jar, modules, config, replies, p)
  {
    sections := Post(store, modules, Outcome(modules, config, replies, p));
  }

  /** Each block's guard reads its cookie and its module prefix. */
  lemma FlagsAre(jar: Jar, modules: seq<string>)
    ensures var r := Flags(jar, modules);
            && r[0] == (Present(jar, "mbr_google_token") && Selected(modules, "gsc_"))
            && r[1] == (Present(jar, "mbr_google_token") && Selected(modules, "ga4_"))
            && r[2] == (Present(jar, "mbr_semrush_apikey") && Selected(modules, "semrush_"))
            && r[3] == (Present(jar, "mbr_linkedin_token") && Selected(modules, "linkedin_"))
            && r[4] == (Present(jar, "mbr_meta_token") && Selected(modules, "meta_"))
            && r[5] == (Present(jar, "mbr_hubspot_token") && Selected(modules, "hubspot_"))
  {
  }

  /** Pushing each block's section in turn, when it runs, gives the report. */
  lemma PushedInOrder(runs: seq<bool>, o: Outcomes, gsc: seq<Section>, ga4: seq<Section>, semrush: seq<Section>,
                      linkedin: seq<Section>, meta: seq<Section>, hubspot: seq<Section>)
    requires |runs| == |Guards|
    requires gsc == Pushed((runs[0], o.gsc)) && ga4 == Pushed((runs[1], o.ga4))
    requires semrush == Pushed((runs[2], o.semrush)) && linkedin == Pushed((runs[3], o.linkedin))
    requires meta == Pushed((runs[4], o.meta)) && hubspot == Pushed((runs[5], o.hubspot))
    ensures gsc + ga4 + semrush + linkedin + meta + hubspot == Gated(Blocks(runs, o))
  {
    GatedSix(Blocks(runs, o));
  }

  /** The position of a section's provider in the block order, read from its
      `source`. */
  function Rank(s: Section): nat {
    if s.source == "Google Search Console" then 0
    else if s.source == "GA4" then 1
    else if s.source == "Semrush" then 2
    else if s.source == "LinkedIn Analytics" || s.source == "LinkedIn" then 3
    else if s.source == "Meta Ads Manager" then 4
    else 5
  }

  /** Block `i`'s guard is whether it runs. */
  lemma BlockGuards(runs: seq<bool>, o: Outcomes)
    requires |runs| == |Guards|
    ensures var b := Blocks(runs, o);
            forall i :: 0 <= i < |Guards| ==> b[i].0 == runs[i]
  {
  }

  /** Every block's section, success or error, is recognisable by its
      source. */
  lemma BlockRanks(runs: seq<bool>, o: Outcomes)
    requires |runs| == |Guards|
    requires Ranked(o)
    ensures var b := Blocks(runs, o);
            forall i :: 0 <= i < |b| ==> Rank(b[i].1) == i && WellFormed(b[i].1)
  {
  }

  /** Each provider contributes at most one section, and the sections come
      in block order, so the reply never holds more than six sections. */
  lemma OneSectionPerProviderInOrder(jar: Jar, modules: seq<string>, o: Outcomes)
    requires Ranked(o)
    ensures var s := Report(jar, modules, o);
            && |s| <= |Guards|
            && (forall k, l :: 0 <= k < l < |s| ==> Rank(s[k]) < Rank(s[l]))
            && (forall k :: 0 <= k < |s| ==> WellFormed(s[k]))
  {
    var b := Blocks(Flags(jar, modules), o);
    GatedPicks(b);
    BlockRanks(Flags(jar, modules), o);
  }

  /** A provider has a section exactly when its cookie has a value and one of
      its modules is selected. */
  lemma ReportedExactlyWhenRun(jar: Jar, modules: seq<string>, o: Outcomes, i: nat)
    requires Ranked(o)
    requires i < |Guards|
    ensures var s := Report(jar, modules, o);
            (exists k :: 0 <= k < |s| && Rank(s[k]) == i) <==> Runs(jar, modules, i)
  {
    var runs := Flags(jar, modules);
    PickedExactlyWhenRun(runs, o, i);
    assert runs[i] == Runs(jar, modules, i);
    assert Report(jar, modules, o) == Gated(Blocks(runs, o));
  }

  /** Block `i`'s section is among those pushed exactly when its guard
      holds. */
  lemma PickedExactlyWhenRun(runs: seq<bool>, o: Outcomes, i: nat)
    requires |runs| == |Guards| && Ranked(o) && i < |Guards|
    ensures var s := Gated(Blocks(runs, o));
            (exists k :: 0 <= k < |s| && Rank(s[k]) == i) <==> runs[i]
  {
    var b := Blocks(runs, o);
    var s := Gated(b);
    GatedPicks(b);
    ChosenExactly(b);
    BlockRanks(runs, o);
    BlockGuards(runs, o);
    if runs[i] {
      var k :| 0 <= k < |Chosen(b)| && Chosen(b)[k] == i;
      assert Rank(s[k]) == i;
    } else {
      forall k | 0 <= k < |s|
        ensures Rank(s[k]) != i
      {
        assert b[Chosen(b)[k]].0;
      }
    }
  }

  /** Without a run block the reply has no sections. */
  lemma NothingToReport(jar: Jar, modules: seq<string>, o: Outcomes)
    requires forall i :: 0 <= i < |Guards| ==> !Runs(jar, modules, i)
    ensures Report(jar, modules, o) == []
  {
    BlockGuards(Flags(jar, modules), o);
    NothingGated(Blocks(Flags(jar, modules), o));
  }

  /** The report has no Google Ads block: a selection of Google Ads modules
      only yields no sections, whichever accounts are connected. */
  lemma GoogleAdsAloneReportsNothing(jar: Jar, modules: seq<string>, o: Outcomes)
    requires forall m :: m in modules ==> StartsWith(m, "gads_")
    ensures Report(jar, modules, o) == []
  {
    forall i | 0 <= i < |Guards|
      ensures !Runs(jar, modules, i)
    {
      forall m | m in modules
        ensures !StartsWith(m, Guards[i].1)
      {
        var prefix := Guards[i].1;
        assert m[..5] == "gads_";
        assert prefix in ["gsc_", "ga4_", "semrush_", "linkedin_", "meta_", "hubspot_"];
        assert |prefix| >= 3 && (prefix[0] != 'g' || prefix[1] != 'a' || prefix[2] != 'd');
      }
    }
    NothingToReport(jar, modules, o);
  }

  /** The section block `i` builds. */
  function At(o: Outcomes, i: nat): Section {
    if i == 0 then o.gsc
    else if i == 1 then o.ga4
    else if i == 2 then o.semrush
    else if i == 3 then o.linkedin
    else if i == 4 then o.meta
    else o.hubspot
  }

  /** The guards alone decide which providers report and in which
      positions; a provider whose block built the same section in both runs
      reports it at the same position. */
  lemma SameGuardsSamePositions(jar: Jar, modules: seq<string>, oa: Outcomes, ob: Outcomes)
    requires Ranked(oa) && Ranked(ob)
    ensures var sa := Report(jar, modules, oa);
            var sb := Report(jar, modules, ob);
            && |sa| == |sb|
            && forall k :: 0 <= k < |sa| ==>
                 && Rank(sa[k]) == Rank(sb[k])
                 && sa[k] == At(oa, Rank(sa[k])) && sb[k] == At(ob, Rank(sb[k]))
  {
    var runs := Flags(jar, modules);
    var ba := Blocks(runs, oa);
    var bb := Blocks(runs, ob);
    BlockGuards(runs, oa);
    BlockGuards(runs, ob);
    SameGuardsSameChoice(ba, bb);
    GatedPicks(ba);
    GatedPicks(bb);
    BlockRanks(runs, oa);
    BlockRanks(runs, ob);
  }

  /** The reply of provider `i` (Semrush: both of its requests). */
  predicate SameReply(a: Replies, b: Replies, i: nat) {
    if i == 0 then a.gsc == b.gsc
    else if i == 1 then a.ga4 == b.ga4
    else if i == 2 then a.semrush == b.semrush && a.semrushAi == b.semrushAi
    else if i == 3 then a.linkedin == b.linkedin
    else if i == 4 then a.meta == b.meta
    else a.hubspot == b.hubspot
  }

  /** Partial failure stays local: whatever any provider answers, the same
      providers report in the same positions, and a provider whose own reply
      is unchanged reports exactly the same section. */
  lemma FailuresStayLocal(jar: Jar, modules: seq<string>, config: Config, a: Replies, b: Replies, p: Parsers)
    ensures var sa := Sections(jar, modules, config, a, p);
            var sb := Sections(jar, modules, config, b, p);
            && |sa| == |sb|
            && forall k :: 0 <= k < |sa| ==> Rank(sa[k]) == Rank(sb[k]) && (SameReply(a, b, Rank(sa[k])) ==> sa[k] == sb[k])
  {
    var oa := Outcome(modules, config, a, p);
    var ob := Outcome(modules, config, b, p);
    SameGuardsSamePositions(jar, modules, oa, ob);
    forall i: nat | SameReply(a, b, i)
      ensures At(oa, i) == At(ob, i)
    {
      SameReplySameSection(modules, config, a, b, p, i);
    }
  }

  /** A block's section depends on its own provider's reply only. */
  lemma SameReplySameSection(modules: seq<string>, config: Config, a: Replies, b: Replies, p: Parsers, i: nat)
    requires SameReply(a, b, i)
    ensures At(Outcome(modules, config, a, p), i) == At(Outcome(modules, config, b, p), i)
  {
  }
}
=== FILE: report_blocks.dfy ===
/**
 * The six provider blocks of the report route (app/api/report/route.ts):
 * from the request's `config`, the selected modules and what each provider
 * request answered, each block builds its section or its error section.
 * Provider replies arrive already parsed; `parseFloat` and `parseInt` are
 * parameters.
 */
module ReportBlocks {

  import opened Wrappers
  import opened Text
  import opened Numbers
  import opened ReportSections
  import SemrushCsv

  /** The fields of the request's `config` object the route reads. */
  datatype Config = Config(
    gscSiteUrl: Option<string>,
    domain: Option<string>,
    ga4PropertyId: Option<string>,
    linkedinOrgId: Option<string>,
    metaAdAccountId: Option<string>)

  /** A provider request and the reading of its body: it threw (a network
      failure, or a body that could not be read or parsed) with the error's
      message, or it answered with an HTTP status and the parsed body. A
      block that makes two requests at once sees the first failure. */
  datatype Reply<T> = Threw(message: string) | Answered(status: int, body: T)

  /** `parseFloat` and `parseInt` (called without a radix, so a "0x" prefix
      reads as hexadecimal) on strings. */
  datatype Parsers = Parsers(parseFloat: string -> Num, parseInt: string -> Num)

  /** `res.ok` */
  predicate Ok(status: int) {
    200 <= status <= 299
  }

  /** `xs.slice(0, n)`: the first `n` elements, or all of them. */
  function Top<T>(xs: seq<T>, n: nat): (r: seq<T>)
    ensures |r| == if |xs| <= n then |xs| else n
    ensures r == xs[..|r|]
  {
    if |xs| <= n then xs else xs[..n]
  }

  /** The mean of a non-empty column: its sum over its length. */
  function Mean(xs: seq<Num>): Num
    requires |xs| > 0
  {
    Div(Sum(xs), Finite(|xs| as real))
  }

  const DataFallback := "Error al obtener datos."

  // ----- Google Search Console -----

  datatype GscRow = GscRow(query: string, clicks: Num, impressions: Num, ctr: Num, position: Num)

  /** The reply's `rows` and its JSON serialisation (quoted in the error for
      a non-2xx status). */
  datatype GscBody = GscBody(rows: Option<seq<GscRow>>, serialized: string)

  const GscMissingSite := "Configurá el campo 'URL en GSC' o 'Dominio' en el paso anterior."
  const GscFallback := "No se pudieron obtener los datos."

  /** The property queried: the configured GSC URL, else the domain property
      of the configured domain, else none. */
  function GscSite(config: Config): (site: Option<string>)
    ensures site.Some? <==> Truthy(config.gscSiteUrl) || Truthy(config.domain)
    ensures Truthy(config.gscSiteUrl) ==> site == config.gscSiteUrl
    ensures !Truthy(config.gscSiteUrl) && Truthy(config.domain) ==> site == Some("sc-domain:" + config.domain.value)
  {
    if Truthy(config.gscSiteUrl) then config.gscSiteUrl
    else if Truthy(config.domain) then Some("sc-domain:" + config.domain.value)
    else None
  }

  function Clicks(rows: seq<GscRow>): seq<Num> {
    seq(|rows|, i requires 0 <= i < |rows| => rows[i].clicks)
  }

  function Impressions(rows: seq<GscRow>): seq<Num> {
    seq(|rows|, i requires 0 <= i < |rows| => rows[i].impressions)
  }

  function Ctrs(rows: seq<GscRow>): seq<Num> {
    seq(|rows|, i requires 0 <= i < |rows| => rows[i].ctr)
  }

  function Positions(rows: seq<GscRow>): seq<Num> {
    seq(|rows|, i requires 0 <= i < |rows| => rows[i].position)
  }

  function GscKpis(rows: seq<GscRow>): seq<Kpi> {
    [ Kpi("Clicks", Locale("", Sum(Clicks(rows)), None), "#3b72f6"),
      Kpi("Impresiones", Fixed("", Div(Sum(Impressions(rows)), Finite(1000.0)), 0, "K"), "#18c16a"),
      Kpi("CTR promedio", if |rows| > 0 then Fixed("", Scale(Mean(Ctrs(rows)), 100.0), 1, "%") else Text("0%"), "#f04b20"),
      Kpi("Posición prom.", if |rows| > 0 then Fixed("", Mean(Positions(rows)), 1, "") else Text("0"), "#d4a72c") ]
  }

  /** The top queries, at most twenty, in the order the API returned them. */
  function GscTable(rows: seq<GscRow>): Table {
    var top := Top(rows, 20);
    Table(["Query", "Clicks", "Impresiones", "CTR", "Posición"],
          seq(|top|, i requires 0 <= i < |top| =>
            [ Text(top[i].query), Locale("", top[i].clicks, None), Locale("", top[i].impressions, None),
              Fixed("", Scale(top[i].ctr, 100.0), 1, "%"), Fixed("", top[i].position, 1, "") ]))
  }

  function Gsc(modules: seq<string>, config: Config, reply: Reply<GscBody>): (s: Section)
    ensures WellFormed(s) && s.source == "Google Search Console"
  {
    if GscSite(config).None? then Failure("Search Console", "Google Search Console", GscMissingSite)
    else
      match reply
      case Threw(e) => Failure("Search Console", "Google Search Console", Or(e, GscFallback))
      case Answered(status, body) =>
        if !Ok(status) then
          Failure("Search Console", "Google Search Console", "GSC API error " + IntToString(status) + ": " + body.serialized)
        else
          var rows := body.rows.GetOr([]);
          Section("Search Console · Performance SEO", "Google Search Console", Some(GscKpis(rows)),
                  if "gsc_queries" in modules then Some(GscTable(rows)) else None, None)
  }

  // ----- Google Analytics 4 -----

  /** A report row: the channel group and the three metric values, as the
      strings the API returns. */
  datatype Ga4Row = Ga4Row(channel: string, sessions: string, users: string, conversions: string)

  datatype Ga4Body = Ga4Body(rows: Option<seq<Ga4Row>>)

  const Ga4MissingProperty := "ga4PropertyId no configurado"

  /** Conversion rate in percent with one decimal, or "0%" when there are no
      sessions (zero or NaN). */
  function Rate(conv: Num, sess: Num): (v: Shown)
    ensures !NumTruthy(sess) ==> v == Text("0%")
    ensures NumTruthy(sess) ==> v.Fixed? && v.digits == 1 && v.suffix == "%" && v.n.NaN? == (conv.NaN? || Div(conv, sess).NaN?)
  {
    if NumTruthy(sess) then Fixed("", Scale(Div(conv, sess), 100.0), 1, "%") else Text("0%")
  }

  function Sessions(rows: seq<Ga4Row>, p: Parsers): seq<Num> {
    seq(|rows|, i requires 0 <= i < |rows| => p.parseInt(rows[i].sessions))
  }

  function Users(rows: seq<Ga4Row>, p: Parsers): seq<Num> {
    seq(|rows|, i requires 0 <= i < |rows| => p.parseInt(rows[i].users))
  }

  function Conversions(rows: seq<Ga4Row>, p: Parsers): seq<Num> {
    seq(|rows|, i requires 0 <= i < |rows| => p.parseInt(rows[i].conversions))
  }

  function Ga4Kpis(rows: seq<Ga4Row>, p: Parsers): seq<Kpi> {
    var sess := Sum(Sessions(rows, p));
    var conv := Sum(Conversions(rows, p));
    [ Kpi("Sesiones", Locale("", sess, None), "#e37400"),
      Kpi("Usuarios", Locale("", Sum(Users(rows, p)), None), "#3b72f6"),
      Kpi("Conversiones", Locale("", conv, None), "#18c16a"),
      Kpi("CR global", Rate(conv, sess), "#d4a72c") ]
  }

  /** One row per channel, all of them. */
  function Ga4Table(rows: seq<Ga4Row>, p: Parsers): Table {
    Table(["Canal", "Sesiones", "Usuarios", "Conversiones", "CR"],
          seq(|rows|, i requires 0 <= i < |rows| =>
            var sess := p.parseInt(rows[i].sessions);
            var conv := p.parseInt(rows[i].conversions);
            [ Text(rows[i].channel), Locale("", sess, None), Locale("", p.parseInt(rows[i].users), None),
              Locale("", conv, None), Rate(conv, sess) ]))
  }

  /** The status of the reply is not looked at: any body is read for rows. */
  function Ga4(modules: seq<string>, config: Config, reply: Reply<Ga4Body>, p: Parsers): (s: Section)
    ensures WellFormed(s) && s.source == "GA4"
  {
    if !Truthy(config.ga4PropertyId) then Failure("Google Analytics 4", "GA4", Ga4MissingProperty)
    else
      match reply
      case Threw(e) => Failure("Google Analytics 4", "GA4", Or(e, DataFallback))
      case Answered(_, body) =>
        var rows := body.rows.GetOr([]);
        Section("Tráfico · Google Analytics 4", "GA4", Some(Ga4Kpis(rows, p)),
                if "ga4_traffic" in modules then Some(Ga4Table(rows, p)) else None, None)
  }

  // ----- Semrush -----

  /** The AI Overview request, made only when `semrush_ai_overview` is
      selected: it rejected (which the route turns into `null`), or it
      answered with a status and its body text (`None`: reading it threw). */
  datatype AiReply = Rejected | AiAnswered(status: int, text: Option<string>)

  const SemrushFailed := "No se pudieron obtener los datos. Verificá tu API Key."
  const NeedsGuru := "— (requiere Guru+)"

  /** `r[name]`: undefined when the reply had no such column. */
  function Field(r: SemrushCsv.Record, name: string): (v: Option<string>)
    ensures v.Some? <==> name in r
  {
    if name in r then Some(r[name]) else None
  }

  function Shows(v: Option<string>): Shown {
    if v.Some? then Text(v.value) else Missing
  }

  /** `parseFloat(r.Po || "0")` */
  function Position(r: SemrushCsv.Record, p: Parsers): Num {
    p.parseFloat(if Truthy(Field(r, "Po")) then r["Po"] else "0")
  }

  function RowPositions(rows: seq<SemrushCsv.Record>, p: Parsers): seq<Num> {
    seq(|rows|, i requires 0 <= i < |rows| => Position(rows[i], p))
  }

  /** The AI Overview records: parsed only when the module is selected and
      the request answered with a 2xx status and a readable body. */
  function AiRows(modules: seq<string>, ai: AiReply): seq<SemrushCsv.Record> {
    if "semrush_ai_overview" in modules && ai.AiAnswered? && Ok(ai.status) && ai.text.Some? then
      SemrushCsv.Parse(ai.text.value)
    else []
  }

  function SemrushKpis(kwRows: seq<SemrushCsv.Record>, aiRows: seq<SemrushCsv.Record>, p: Parsers): seq<Kpi> {
    [ Kpi("Keywords orgánicas", Text(NatToString(|kwRows|)), "#ff642d"),
      Kpi("Posición promedio", if |kwRows| > 0 then Fixed("", Mean(RowPositions(kwRows, p)), 1, "") else Text("—"), "#3b72f6"),
      Kpi("Aparic. AI Overview", if |aiRows| > 0 then Text(NatToString(|aiRows|)) else Text(NeedsGuru), "#18c16a") ]
  }

  /** The first fifteen keyword records, five columns each. */
  function RankingsTable(kwRows: seq<SemrushCsv.Record>): Table {
    var top := Top(kwRows, 15);
    Table(["Keyword", "Posición", "Pos. ant.", "Volumen", "Tráfico est."],
          seq(|top|, i requires 0 <= i < |top| =>
            [ Shows(Field(top[i], "Ph")), Shows(Field(top[i], "Po")), Shows(Field(top[i], "Pp")),
              Shows(Field(top[i], "Nq")), Shows(Field(top[i], "Tr")) ]))
  }

  /** Whatever goes wrong, the error section carries the same fixed message. */
  function Semrush(modules: seq<string>, kw: Reply<string>, ai: AiReply, p: Parsers): (s: Section)
    ensures WellFormed(s) && s.source == "Semrush"
  {
    match kw
    case Threw(_) => Failure("Semrush", "Semrush", SemrushFailed)
    case Answered(_, text) =>
      if "semrush_ai_overview" in modules && ai.AiAnswered? && Ok(ai.status) && ai.text.None? then
        Failure("Semrush", "Semrush", SemrushFailed)
      else
        var kwRows := SemrushCsv.Parse(text);
        Section("AI Overview & Posicionamiento SEO", "Semrush", Some(SemrushKpis(kwRows, AiRows(modules, ai), p)),
                if "semrush_rankings" in modules && |kwRows| > 0 then Some(RankingsTable(kwRows)) else None, None)
  }

  // ----- LinkedIn -----

  /** The share statistics of the first element (impressions, clicks,
      engagement) and the follower count; `None` where the reply lacks the
      value. */
  datatype LinkedInBody = LinkedInBody(
    impressions: Option<Num>,
    clicks: Option<Num>,
    engagement: Option<Num>,
    followers: Option<Num>)

  const LinkedInMissingOrg := "linkedinOrgId no configurado"

  /** `v ?? 0` */
  function OrZero(v: Option<Num>): Num {
    v.GetOr(Zero)
  }

  function LinkedIn(config: Config, reply: Reply<LinkedInBody>): (s: Section)
    ensures WellFormed(s)
    ensures s.source == "LinkedIn Analytics" || s.source == "LinkedIn"
  {
    if !Truthy(config.linkedinOrgId) then Failure("LinkedIn Analytics", "LinkedIn", LinkedInMissingOrg)
    else
      match reply
      case Threw(e) => Failure("LinkedIn Analytics", "LinkedIn", Or(e, DataFallback))
      case Answered(_, b) =>
        Section("LinkedIn · Analytics & Benchmark", "LinkedIn Analytics", Some(LinkedInKpis(b)), None, None)
  }

  function LinkedInKpis(b: LinkedInBody): seq<Kpi> {
    [ Kpi("Seguidores", Locale("", OrZero(b.followers), None), "#0077b5"),
      Kpi("Impresiones", Fixed("", Div(OrZero(b.impressions), Finite(1000.0)), 0, "K"), "#18c16a"),
      Kpi("Clicks", Locale("", OrZero(b.clicks), None), "#f04b20"),
      Kpi("Eng. rate", Fixed("", Scale(OrZero(b.engagement), 100.0), 2, "%"), "#d4a72c") ]
  }

  // ----- Meta Ads -----

  datatype Action = Action(actionType: string, value: Option<string>)

  /** One insights record; `None` where the field is absent. */
  datatype Insights = Insights(
    spend: Option<string>,
    reach: Option<string>,
    cpc: Option<string>,
    actions: Option<seq<Action>>)

  datatype MetaBody = MetaBody(data: Option<seq<Insights>>)

  const MetaMissingAccount := "metaAdAccountId no configurado"

  /** `d.data?.[0] ?? {}` */
  function FirstInsights(body: MetaBody): Insights {
    if body.data.Some? && |body.data.value| > 0 then body.data.value[0] else Insights(None, None, None, None)
  }

  /** `actions.find(a => a.action_type === "purchase")?.value ?? "0"`: the
      value of the first purchase action, "0" when there is none or it has
      no value. */
  function PurchaseValue(actions: seq<Action>): (v: string)
    ensures (forall i :: 0 <= i < |actions| ==> actions[i].actionType != "purchase") ==> v == "0"
    ensures forall i :: (0 <= i < |actions| && actions[i].actionType == "purchase" &&
                         forall j :: 0 <= j < i ==> actions[j].actionType != "purchase") ==>
              v == actions[i].value.GetOr("0")
    decreases |actions|
  {
    if actions == [] then "0"
    else if actions[0].actionType == "purchase" then actions[0].value.GetOr("0")
    else PurchaseValue(actions[1..])
  }

  /** Purchase value over spend with one decimal and an "x", or "—x" when
      there is no spend or no purchase value. */
  function Roas(ins: Insights, p: Parsers): (v: Shown)
    ensures !Truthy(ins.spend) ==> v == Text("—x")
    ensures !NumTruthy(p.parseFloat(PurchaseValue(ins.actions.GetOr([])))) ==> v == Text("—x")
  {
    var conv := p.parseFloat(PurchaseValue(ins.actions.GetOr([])));
    if Truthy(ins.spend) && NumTruthy(conv) then Fixed("", Div(conv, p.parseFloat(ins.spend.value)), 1, "x")
    else Text("—x")
  }

  function Meta(config: Config, reply: Reply<MetaBody>, p: Parsers): (s: Section)
    ensures WellFormed(s) && s.source == "Meta Ads Manager"
  {
    if !Truthy(config.metaAdAccountId) then Failure("Meta Ads", "Meta Ads Manager", MetaMissingAccount)
    else
      match reply
      case Threw(e) => Failure("Meta Ads", "Meta Ads Manager", Or(e, DataFallback))
      case Answered(_, body) =>
        Section("Meta Ads · Campañas", "Meta Ads Manager", Some(MetaKpis(FirstInsights(body), p)), None, None)
  }

  function MetaKpis(ins: Insights, p: Parsers): seq<Kpi> {
    [ Kpi("Inversión", Locale("$", p.parseFloat(ins.spend.GetOr("0")), None), "#1877f2"),
      Kpi("Alcance", Locale("", p.parseInt(ins.reach.GetOr("0")), None), "#18c16a"),
      Kpi("CPC", Fixed("$", p.parseFloat(ins.cpc.GetOr("0")), 2, ""), "#f04b20"),
      Kpi("ROAS", Roas(ins, p), "#d4a72c") ]
  }

  // ----- HubSpot -----

  /** A deal's `dealname`, `dealstage` and `amount` properties. */
  datatype Deal = Deal(name: Option<string>, stage: Option<string>, amount: Option<string>)

  /** The contacts reply's `total` and the deals reply's `results`. */
  datatype HubSpotBody = HubSpotBody(total: Option<Num>, results: Option<seq<Deal>>)

  /** `parseFloat(d.properties.amount || "0")` */
  function Amount(d: Deal, p: Parsers): Num {
    p.parseFloat(if Truthy(d.amount) then d.amount.value else "0")
  }

  function Amounts(deals: seq<Deal>, p: Parsers): seq<Num> {
    seq(|deals|, i requires 0 <= i < |deals| => Amount(deals[i], p))
  }

  /** The first ten deals. */
  function DealsTable(deals: seq<Deal>, p: Parsers): Table {
    var top := Top(deals, 10);
    Table(["Deal", "Etapa", "Monto"],
          seq(|top|, i requires 0 <= i < |top| =>
            [ Text(top[i].name.GetOr("—")), Text(top[i].stage.GetOr("—")), Locale("$", Amount(top[i], p), Some(0)) ]))
  }

  /** HubSpot needs no configuration. */
  function HubSpot(modules: seq<string>, reply: Reply<HubSpotBody>, p: Parsers): (s: Section)
    ensures WellFormed(s) && s.source == "HubSpot"
  {
    match reply
    case Threw(e) => Failure("HubSpot", "HubSpot", Or(e, DataFallback))
    case Answered(_, b) =>
      var deals := b.results.GetOr([]);
      Section("HubSpot · CRM & Pipeline", "HubSpot", Some(HubSpotKpis(b, p)),
              if "hubspot_leads" in modules && |deals| > 0 then Some(DealsTable(deals, p)) else None, None)
  }

  function HubSpotKpis(b: HubSpotBody, p: Parsers): seq<Kpi> {
    var deals := b.results.GetOr([]);
    [ Kpi("Total contactos", if b.total.Some? then Locale("", b.total.value, None) else Text("—"), "#ff7a59"),
      Kpi("Deals activos", Text(NatToString(|deals|)), "#3b72f6"),
      Kpi("Pipeline ($)", Locale("$", Sum(Amounts(deals, p)), Some(0)), "#18c16a") ]
  }

  // ----- Properties of the blocks -----

  /** Without a GSC URL or a domain the block reports the configuration
      error, whatever the API would have answered. */
  lemma GscNeedsSite(modules: seq<string>, config: Config, reply: Reply<GscBody>)
    requires !Truthy(config.gscSiteUrl) && !Truthy(config.domain)
    ensures Gsc(modules, config, reply) == Failure("Search Console", "Google Search Console", GscMissingSite)
  {
  }

  /** Search Console is the only block that looks at the status: a non-2xx
      reply becomes an error quoting the status and the reply. */
  lemma GscRejectedStatus(modules: seq<string>, config: Config, status: int, body: GscBody)
    requires GscSite(config).Some? && !Ok(status)
    ensures var s := Gsc(modules, config, Answered(status, body));
            s.kpis.None? && s.error == Some("GSC API error " + IntToString(status) + ": " + body.serialized)
  {
  }

  /** The query table is present exactly when `gsc_queries` is selected, and
      lists the first twenty rows in the order the API returned them. */
  lemma GscTableShape(modules: seq<string>, config: Config, status: int, body: GscBody)
    requires GscSite(config).Some? && Ok(status)
    ensures var s := Gsc(modules, config, Answered(status, body));
            var rows := body.rows.GetOr([]);
            && s.error.None?
            && (s.table.Some? <==> "gsc_queries" in modules)
            && (s.table.Some? ==>
                  && |s.table.value.rows| == (if |rows| <= 20 then |rows| else 20)
                  && forall i :: 0 <= i < |s.table.value.rows| ==> s.table.value.rows[i][0] == Text(rows[i].query))
  {
  }

  /** Two queries with 10 and 20 clicks and 100 and 200 impressions give 30
      clicks and 0.3 thousand impressions, shown without decimals. */
  lemma GscScenario(modules: seq<string>, config: Config)
    requires GscSite(config).Some?
    ensures var rows := [GscRow("a", Finite(10.0), Finite(100.0), Finite(0.1), Finite(1.0)),
                         GscRow("b", Finite(20.0), Finite(200.0), Finite(0.2), Finite(3.0))];
            var s := Gsc(modules, config, Answered(200, GscBody(Some(rows), "")));
            && s.kpis.Some? && |s.kpis.value| == 4
            && s.kpis.value[0] == Kpi("Clicks", Locale("", Finite(30.0), None), "#3b72f6")
            && s.kpis.value[1] == Kpi("Impresiones", Fixed("", Finite(0.3), 0, "K"), "#18c16a")
            && s.kpis.value[3] == Kpi("Posición prom.", Fixed("", Finite(2.0), 1, ""), "#d4a72c")
  {
    var rows := [GscRow("a", Finite(10.0), Finite(100.0), Finite(0.1), Finite(1.0)),
                 GscRow("b", Finite(20.0), Finite(200.0), Finite(0.2), Finite(3.0))];
    assert Gsc(modules, config, Answered(200, GscBody(Some(rows), ""))).kpis == Some(GscKpis(rows));
    ScenarioKpis(rows);
  }

  lemma ScenarioKpis(rows: seq<GscRow>)
    requires rows == [GscRow("a", Finite(10.0), Finite(100.0), Finite(0.1), Finite(1.0)),
                      GscRow("b", Finite(20.0), Finite(200.0), Finite(0.2), Finite(3.0))]
    ensures GscKpis(rows)[0].value == Locale("", Finite(30.0), None)
    ensures GscKpis(rows)[1].value == Fixed("", Finite(0.3), 0, "K")
    ensures GscKpis(rows)[3].value == Fixed("", Finite(2.0), 1, "")
  {
    ScenarioColumns(rows);
  }

  lemma ScenarioColumns(rows: seq<GscRow>)
    requires rows == [GscRow("a", Finite(10.0), Finite(100.0), Finite(0.1), Finite(1.0)),
                      GscRow("b", Finite(20.0), Finite(200.0), Finite(0.2), Finite(3.0))]
    ensures Sum(Clicks(rows)) == Finite(30.0)
    ensures Sum(Impressions(rows)) == Finite(300.0)
    ensures Sum(Positions(rows)) == Finite(4.0)
  {
    assert Clicks(rows) == [Finite(10.0), Finite(20.0)];
    assert Impressions(rows) == [Finite(100.0), Finite(200.0)];
    assert Positions(rows) == [Finite(1.0), Finite(3.0)];
    TwoTerms(10.0, 20.0);
    TwoTerms(100.0, 200.0);
    TwoTerms(1.0, 3.0);
  }

  lemma TwoTerms(a: real, b: real)
    ensures Sum([Finite(a), Finite(b)]) == Finite(a + b)
  {
    assert [Finite(a), Finite(b)][..1] == [Finite(a)];
    assert [Finite(a)][..0] == [];
    assert Sum([Finite(a)]) == Add(Zero, Finite(a)) == Finite(a);
  }

  /** The Analytics block reads the rows whatever the status. */
  lemma Ga4IgnoresStatus(modules: seq<string>, config: Config, status: int, other: int, body: Ga4Body, p: Parsers)
    ensures Ga4(modules, config, Answered(status, body), p) == Ga4(modules, config, Answered(other, body), p)
  {
  }

  lemma Ga4NeedsProperty(modules: seq<string>, config: Config, reply: Reply<Ga4Body>, p: Parsers)
    requires !Truthy(config.ga4PropertyId)
    ensures Ga4(modules, config, reply, p) == Failure("Google Analytics 4", "GA4", Ga4MissingProperty)
  {
  }

  /** One session count that does not parse makes the session total NaN,
      and the conversion rate then falls back to "0%". */
  lemma Ga4UnparsableSessions(rows: seq<Ga4Row>, p: Parsers, k: nat)
    requires k < |rows| && p.parseInt(rows[k].sessions).NaN?
    ensures Ga4Kpis(rows, p)[0].value == Locale("", NaN, None)
    ensures Ga4Kpis(rows, p)[3].value == Text("0%")
  {
    NaNPoisonsSum(Sessions(rows, p), k);
  }

  /** The channel table, present exactly when `ga4_traffic` is selected, has
      a row for every channel. */
  lemma Ga4TableShape(modules: seq<string>, config: Config, status: int, body: Ga4Body, p: Parsers)
    requires Truthy(config.ga4PropertyId)
    ensures var s := Ga4(modules, config, Answered(status, body), p);
            && (s.table.Some? <==> "ga4_traffic" in modules)
            && (s.table.Some? ==> |s.table.value.rows| == |body.rows.GetOr([])|)
  {
  }

  /** Every Semrush failure, whatever its cause, shows the same message. */
  lemma SemrushFailureMessage(modules: seq<string>, e: string, ai: AiReply, p: Parsers)
    ensures Semrush(modules, Threw(e), ai, p).error == Some(SemrushFailed)
  {
  }

  /** Unless `semrush_ai_overview` is selected the AI Overview tile shows the
      plan hint. */
  lemma SemrushAiNeedsSelection(modules: seq<string>, status: int, text: string, ai: AiReply, p: Parsers)
    requires "semrush_ai_overview" !in modules
    ensures var s := Semrush(modules, Answered(status, text), ai, p);
            s.kpis.Some? && |s.kpis.value| == 3 && s.kpis.value[2].value == Text(NeedsGuru)
  {
  }

  /** A keyword reply without a line break (an API error text, an empty
      body) counts zero keywords, has no average position and no table. */
  lemma SemrushOneLineReply(modules: seq<string>, status: int, text: string, ai: AiReply, p: Parsers)
    requires SemrushCsv.Occurrences(Trim(text), '\n') == 0
    requires !("semrush_ai_overview" in modules && ai.AiAnswered? && Ok(ai.status) && ai.text.None?)
    ensures var s := Semrush(modules, Answered(status, text), ai, p);
            && s.kpis.Some? && |s.kpis.value| == 3
            && s.kpis.value[0].value == Text("0")
            && s.kpis.value[1].value == Text("—")
            && s.table.None?
  {
    SemrushCsv.OneRecordPerLineBreak(text);
  }

  /** The rankings table needs `semrush_rankings` and at least one keyword,
      and holds at most fifteen. */
  lemma SemrushTableShape(modules: seq<string>, status: int, text: string, ai: AiReply, p: Parsers)
    requires !("semrush_ai_overview" in modules && ai.AiAnswered? && Ok(ai.status) && ai.text.None?)
    ensures var s := Semrush(modules, Answered(status, text), ai, p);
            && (s.table.Some? <==> "semrush_rankings" in modules && |SemrushCsv.Parse(text)| > 0)
            && (s.table.Some? ==> |s.table.value.rows| <= 15)
  {
    var kwRows := SemrushCsv.Parse(text);
    assert Semrush(modules, Answered(status, text), ai, p).table ==
           if "semrush_rankings" in modules && |kwRows| > 0 then Some(RankingsTable(kwRows)) else None;
    assert |RankingsTable(kwRows).rows| <= 15;
  }

  lemma LinkedInNeedsOrg(config: Config, reply: Reply<LinkedInBody>)
    requires !Truthy(config.linkedinOrgId)
    ensures LinkedIn(config, reply) == Failure("LinkedIn Analytics", "LinkedIn", LinkedInMissingOrg)
  {
  }

  lemma MetaNeedsAccount(config: Config, reply: Reply<MetaBody>, p: Parsers)
    requires !Truthy(config.metaAdAccountId)
    ensures Meta(config, reply, p) == Failure("Meta Ads", "Meta Ads Manager", MetaMissingAccount)
  {
  }

  /** Missing fields count as zero, so an empty insights list still yields
      the four tiles, with "—x" for the return on ad spend. */
  lemma MetaEmptyInsights(config: Config, status: int, p: Parsers)
    requires Truthy(config.metaAdAccountId)
    ensures var s := Meta(config, Answered(status, MetaBody(Some([]))), p);
            && s.kpis.Some? && |s.kpis.value| == 4
            && s.kpis.value[0].value == Locale("$", p.parseFloat("0"), None)
            && s.kpis.value[3].value == Text("—x")
  {
  }

  /** The deals tile counts every deal returned; the table needs
      `hubspot_leads` and at least one deal, and lists at most ten. */
  lemma HubSpotShape(modules: seq<string>, status: int, b: HubSpotBody, p: Parsers)
    ensures var s := HubSpot(modules, Answered(status, b), p);
            && s.kpis.Some? && |s.kpis.value| == 3
            && s.kpis.value[1].value == Text(NatToString(|b.results.GetOr([])|))
            && (s.table.Some? <==> "hubspot_leads" in modules && |b.results.GetOr([])| > 0)
            && (s.table.Some? ==> |s.table.value.rows| <= 10)
  {
  }
}

=== FILE: report_sections.dfy ===
/**
 * The normalised report the report route answers with (`{sections}` of
 * app/api/report/route.ts): each section is one provider's KPIs and
 * optional table, or its error message alone. Display values are kept
 * symbolic: which number is formatted, by which formatter, with which
 * prefix and suffix.
 */
module ReportSections {

  import opened Wrappers
  import opened Numbers

  /** A display string. */
  datatype Shown =
    | Text(s: string)
      /** An undefined table cell (serialised as `null`). */
    | Missing
      /** `prefix + n.toLocaleString("es", {maximumFractionDigits})`; `None`
          is the locale default. */
    | Locale(prefix: string, n: Num, maxFraction: Option<nat>)
      /** `prefix + n.toFixed(digits) + suffix` */
    | Fixed(prefix: string, n: Num, digits: nat, suffix: string)

  /** A KPI tile; `label` is a reserved word here, hence `name`. */
  datatype Kpi = Kpi(name: string, value: Shown, color: string)

  datatype Table = Table(headers: seq<string>, rows: seq<seq<Shown>>)

  datatype Section = Section(
    title: string,
    source: string,
    kpis: Option<seq<Kpi>>,
    table: Option<Table>,
    error: Option<string>)

  /** A section either reports an error and nothing else, or reports KPIs
      and no error; every table row has one cell per header. */
  predicate WellFormed(s: Section) {
    && (s.error.Some? ==> s.kpis.None? && s.table.None?)
    && (s.error.None? ==> s.kpis.Some?)
    && (s.table.Some? ==> forall r :: r in s.table.value.rows ==> |r| == |s.table.value.headers|)
  }

  /** The section a provider block pushes from its `catch`. */
  function Failure(title: string, source: string, message: string): (s: Section)
    ensures WellFormed(s) && s.error == Some(message)
    ensures s.title == title && s.source == source
  {
    Section(title, source, None, None, Some(message))
  }

  /** What one block pushes: its section when its guard holds, else
      nothing. */
  function Pushed(block: (bool, Section)): (r: seq<Section>)
    ensures |r| <= 1 && (r != [] <==> block.0)
    ensures forall s :: s in r ==> s == block.1
  {
    if block.0 then [block.1] else []
  }

  /** The sections pushed by a run of blocks, each pushing its section only
      when its guard holds. */
  function Gated(blocks: seq<(bool, Section)>): seq<Section>
    decreases |blocks|
  {
    if blocks == [] then []
    else Gated(blocks[..|blocks| - 1]) + Pushed(blocks[|blocks| - 1])
  }

  /** Six blocks push, one after the other. */
  lemma {:induction false} GatedSix(b: seq<(bool, Section)>)
    requires |b| == 6
    ensures Gated(b) == Pushed(b[0]) + Pushed(b[1]) + Pushed(b[2]) + Pushed(b[3]) + Pushed(b[4]) + Pushed(b[5])
  {
    assert b[..1][..0] == [] && b[..1][0] == b[0];
    assert b[..2][..1] == b[..1] && b[..3][..2] == b[..2] && b[..4][..3] == b[..3];
    assert b[..5][..4] == b[..4] && b[..6] == b;
    assert Gated(b[..1]) == Pushed(b[0]);
    assert Gated(b[..2]) == Pushed(b[0]) + Pushed(b[1]);
    assert Gated(b[..3]) == Pushed(b[0]) + Pushed(b[1]) + Pushed(b[2]);
    assert Gated(b[..4]) == Pushed(b[0]) + Pushed(b[1]) + Pushed(b[2]) + Pushed(b[3]);
    assert Gated(b[..5]) == Pushed(b[0]) + Pushed(b[1]) + Pushed(b[2]) + Pushed(b[3]) + Pushed(b[4]);
  }

  /** Positions of the blocks whose guard holds, in increasing order. */
  function Chosen(blocks: seq<(bool, Section)>): (c: seq<nat>)
    ensures |c| <= |blocks|
    ensures forall k :: 0 <= k < |c| ==> c[k] < |blocks| && blocks[c[k]].0
    ensures forall k, l :: 0 <= k < l < |c| ==> c[k] < c[l]
    decreases |blocks|
  {
    if blocks == [] then []
    else
      var n := |blocks| - 1;
      Chosen(blocks[..n]) + (if blocks[n].0 then [n] else [])
  }

  /** A block is chosen exactly when its guard holds. */
  lemma {:induction false} ChosenExactly(blocks: seq<(bool, Section)>)
    ensures forall i :: 0 <= i < |blocks| ==> (blocks[i].0 <==> i in Chosen(blocks))
    decreases |blocks|
  {
    if blocks != [] {
      var n := |blocks| - 1;
      ChosenExactly(blocks[..n]);
      assert forall i :: 0 <= i < n ==> blocks[..n][i] == blocks[i];
    }
  }

  /** The sections are the guarded blocks' sections, in block order: the
      k-th section comes from the k-th block whose guard holds. */
  lemma {:induction false} GatedPicks(blocks: seq<(bool, Section)>)
    ensures |Gated(blocks)| == |Chosen(blocks)|
    ensures forall k :: 0 <= k < |Chosen(blocks)| ==> Gated(blocks)[k] == blocks[Chosen(blocks)[k]].1
    decreases |blocks|
  {
    if blocks != [] {
      var n := |blocks| - 1;
      var front := blocks[..n];
      GatedPicks(front);
      assert Gated(blocks) == Gated(front) + Pushed(blocks[n]);
      assert Chosen(blocks) == Chosen(front) + (if blocks[n].0 then [n] else []);
      forall k | 0 <= k < |Chosen(front)|
        ensures Gated(blocks)[k] == blocks[Chosen(blocks)[k]].1
      {
        assert front[Chosen(front)[k]] == blocks[Chosen(front)[k]];
      }
    }
  }

  /** No guard holds: nothing is pushed. */
  lemma {:induction false} NothingGated(blocks: seq<(bool, Section)>)
    requires forall i :: 0 <= i < |blocks| ==> !blocks[i].0
    ensures Gated(blocks) == []
    decreases |blocks|
  {
    if blocks != [] {
      NothingGated(blocks[..|blocks| - 1]);
    }
  }

  /** The choice depends on the guards only. */
  lemma {:induction false} SameGuardsSameChoice(a: seq<(bool, Section)>, b: seq<(bool, Section)>)
    requires |a| == |b|
    requires forall i :: 0 <= i < |a| ==> a[i].0 == b[i].0
    ensures Chosen(a) == Chosen(b)
    decreases |a|
  {
    if a != [] {
      var n := |a| - 1;
      SameGuardsSameChoice(a[..n], b[..n]);
    }
  }
}

=== FILE: semrush_csv.dfy ===
/**
 * `parseSemrushCSV` (app/api/report/route.ts): the Semrush API answers with
 * semicolon-separated text whose first line names the columns. Each later
 * line becomes a record from trimmed column name to trimmed cell.
 */
module SemrushCsv {

  import opened Text

  /** One parsed line: the object `Object.fromEntries` builds. */
  type Record = map<string, string>

  /** `vals[i]?.trim() ?? ""`: a line with fewer cells than headers gives
      empty strings for the missing ones. */
  function Cell(vals: seq<string>, i: nat): (c: string)
    ensures i >= |vals| ==> c == ""
    ensures i < |vals| ==> c == Trim(vals[i])
  {
    if i < |vals| then Trim(vals[i]) else ""
  }

  /** Trimmed column names. */
  function Names(headers: seq<string>): (names: seq<string>)
    ensures |names| == |headers|
    ensures forall i :: 0 <= i < |headers| ==> names[i] == Trim(headers[i])
  {
    seq(|headers|, i requires 0 <= i < |headers| => Trim(headers[i]))
  }

  /** The cells of a line, one per column. */
  function Cells(vals: seq<string>, columns: nat): (cells: seq<string>)
    ensures |cells| == columns
    ensures forall i :: 0 <= i < columns ==> cells[i] == Cell(vals, i)
  {
    seq(columns, i requires 0 <= i < columns => Cell(vals, i))
  }

  /** Entries added in order: a later duplicate name overwrites an earlier
      one. */
  function Fill(names: seq<string>, cells: seq<string>): Record
    requires |cells| == |names|
    decreases |names|
  {
    if names == [] then map[]
    else
      var n := |names| - 1;
      Fill(names[..n], cells[..n])[names[n] := cells[n]]
  }

  /** `Object.fromEntries(headers.map((h, i) => [h.trim(), Cell(vals, i)]))` */
  function Entries(headers: seq<string>, vals: seq<string>): (r: Record)
    ensures forall k :: k in r <==> k in Names(headers)
  {
    FillKeys(Names(headers), Cells(vals, |headers|));
    Fill(Names(headers), Cells(vals, |headers|))
  }

  /** The records of the lines after the first, in order; none when the
      trimmed text has fewer than two lines. There is one record per line
      break, and every record has the trimmed names of the first line as
      its keys. */
  function Parse(text: string): (recs: seq<Record>)
    ensures |recs| == Occurrences(Trim(text), '\n')
    ensures forall i, k :: 0 <= i < |recs| ==>
              (k in recs[i] <==> k in Names(Split(Split(Trim(text), '\n')[0], ';')))
  {
    SplitCount(Trim(text), '\n');
    var lines := Split(Trim(text), '\n');
    if |lines| < 2 then []
    else
      var headers := Split(lines[0], ';');
      seq(|lines| - 1, i requires 0 <= i < |lines| - 1 => Entries(headers, Split(lines[i + 1], ';')))
  }

  /** Number of occurrences of `c` in `s`. */
  function Occurrences(s: string, c: char): nat
    decreases |s|
  {
    if s == [] then 0 else (if s[0] == c then 1 else 0) + Occurrences(s[1..], c)
  }

  /** A split on one character yields one more piece than there are
      separators. */
  lemma {:induction false} SplitCount(s: string, sep: char)
    ensures |Split(s, sep)| == Occurrences(s, sep) + 1
    decreases |s|
  {
    if s != [] {
      SplitCount(s[1..], sep);
    }
  }

  /** There is one record per line break of the trimmed text, so a reply
      without any line break (the API's one-line error texts, an empty
      body) yields no records. */
  lemma OneRecordPerLineBreak(text: string)
    ensures |Parse(text)| == Occurrences(Trim(text), '\n')
  {
    SplitCount(Trim(text), '\n');
  }

  lemma {:induction false} FillKeys(names: seq<string>, cells: seq<string>)
    requires |cells| == |names|
    ensures forall k :: k in Fill(names, cells) <==> k in names
    decreases |names|
  {
    if names != [] {
      var n := |names| - 1;
      FillKeys(names[..n], cells[..n]);
      assert names == names[..n] + [names[n]];
    }
  }

  lemma {:induction false} FillValues(names: seq<string>, cells: seq<string>)
    requires |cells| == |names|
    ensures forall i :: 0 <= i < |names| && (forall j :: i < j < |names| ==> names[j] != names[i]) ==>
              names[i] in Fill(names, cells) && Fill(names, cells)[names[i]] == cells[i]
    decreases |names|
  {
    if names != [] {
      var n := |names| - 1;
      FillValues(names[..n], cells[..n]);
      forall i | 0 <= i < |names| && (forall j :: i < j < |names| ==> names[j] != names[i])
        ensures names[i] in Fill(names, cells) && Fill(names, cells)[names[i]] == cells[i]
      {
        if i < n {
          assert names[n] != names[i];
          assert names[..n][i] == names[i] && cells[..n][i] == cells[i];
          assert forall j :: i < j < n ==> names[..n][j] == names[j];
        }
      }
    }
  }

  /** Each record has exactly the trimmed column names as keys, and the value
      under a name is the trimmed cell of the last column bearing it. */
  lemma EntriesShape(headers: seq<string>, vals: seq<string>)
    ensures forall k :: k in Entries(headers, vals) <==> exists i :: 0 <= i < |headers| && Trim(headers[i]) == k
    ensures forall i :: 0 <= i < |headers| && (forall j :: i < j < |headers| ==> Trim(headers[j]) != Trim(headers[i])) ==>
              Trim(headers[i]) in Entries(headers, vals) && Entries(headers, vals)[Trim(headers[i])] == Cell(vals, i)
  {
    var names, cells := Names(headers), Cells(vals, |headers|);
    assert Entries(headers, vals) == Fill(names, cells);
    FillValues(names, cells);
  }
}

=== FILE: semrush_route.dfy ===
/**
 * `POST` and `DELETE /api/auth/semrush` (app/api/auth/semrush/route.ts).
 * Semrush has no OAuth: the user's personal API key is checked against two
 * probe requests and kept in an httpOnly cookie. The outcomes of the two
 * probes are inputs.
 */
module SemrushRoute {

  import opened Wrappers
  import opened Text
  import opened Cookies
  import opened Session
  import StatusRoute

  const ApiKeyCookie := "mbr_semrush_apikey"

  /** The `apiKey` field of the JSON request body. */
  datatype KeyField = Missing | NotString | Str(s: string)

  /** The key probe (8 s timeout): it threw (network failure or timeout), or it
      answered with a status and its body could (or could not) be read. */
  datatype Probe = Threw | Replied(status: int, bodyRead: bool)

  datatype PlanInfo = PlanInfo(plan: string, requestsLeft: int, hasAiOverview: bool)

  /** The three refusals the route can answer with. */
  datatype Refusal = InvalidKey | Refused | Unreachable

  /** The `error` text of each refusal. */
  function Message(r: Refusal): string {
    match r
    case InvalidKey => "API key inválida"
    case Refused => "API Key inválida o sin acceso. Verificá que sea correcta en tu cuenta de Semrush."
    case Unreachable => "No se pudo conectar con Semrush. Intentá de nuevo."
  }

  datatype Body = Error(refusal: Refusal) | Connected(planInfo: PlanInfo) | Done

  /** The two probe requests: the keyword probe and the AI Overview probe. */
  datatype Request = KeyProbe(key: string) | AiProbe(key: string)

  /** The URL each probe fetches. */
  function Url(r: Request): string {
    match r
    case KeyProbe(key) =>
      "https://api.semrush.com/?type=phrase_this&key=" + key + "&phrase=test&database=us&export_columns=Ph,Nq&display_limit=1"
    case AiProbe(key) =>
      "https://api.semrush.com/analytics/v1/?key=" + key + "&type=domain_ai_overview&domain=example.com&database=us&display_limit=1"
  }

  /** The JSON reply, the probes requested in order, and the jar after. */
  datatype Outcome = Outcome(status: int, body: Body, fetched: seq<Request>, jar: Jar)

  /** The request is refused outright: no key, a key that is not a string, or
      one shorter than ten characters once trimmed. */
  predicate Malformed(apiKey: KeyField) {
    !apiKey.Str? || |Trim(apiKey.s)| < 10
  }

  /** The plan derived from the AI Overview probe (None: the probe threw,
      which the route swallows). Only a 403 means the plan lacks AI
      Overview. */
  function Plan(aiStatus: Option<int>): (info: PlanInfo)
    ensures info.hasAiOverview <==> aiStatus.Some? && aiStatus.value != 403
    ensures info.plan == (if info.hasAiOverview then "Guru / Business" else "Pro / Free")
    ensures info.requestsLeft == 0
  {
    var hasAiOverview := if aiStatus.Some? then aiStatus.value != 403 else false;
    PlanInfo(if hasAiOverview then "Guru / Business" else "Pro / Free", 0, hasAiOverview)
  }

  /** The probes once the key passed the shape check. The key probe is
      always sent; only a readable reply other than 401 and 403 is a
      success, which sends the AI Overview probe and stores the key. Every
      failure leaves the jar as it was. */
  function Check(jar: Jar, production: bool, key: string, test: Probe, aiStatus: Option<int>): (out: Outcome)
    ensures out.status == 200 <==> test.Replied? && test.status != 401 && test.status != 403 && test.bodyRead
    ensures out.status == 200 ==>
              && out.jar == Stored(jar, ApiKeyCookie, key, production)
              && out.body == Connected(Plan(aiStatus))
              && out.fetched == [KeyProbe(key), AiProbe(key)]
    ensures out.status != 200 ==> out.jar == jar && out.fetched == [KeyProbe(key)] && out.body.Error?
  {
    match test
    case Threw => Outcome(502, Error(Unreachable), [KeyProbe(key)], jar)
    case Replied(status, bodyRead) =>
      if status == 403 || status == 401 then Outcome(401, Error(Refused), [KeyProbe(key)], jar)
      else if !bodyRead then Outcome(502, Error(Unreachable), [KeyProbe(key)], jar)
      else Outcome(200, Connected(Plan(aiStatus)), [KeyProbe(key), AiProbe(key)],
                   Stored(jar, ApiKeyCookie, key, production))
  }

  /** What `POST` does with the body field `apiKey`, the key probe and the AI
      Overview probe. */
  function Validate(jar: Jar, production: bool, apiKey: KeyField, test: Probe, aiStatus: Option<int>): (out: Outcome)
    ensures Malformed(apiKey) ==> out == Outcome(400, Error(InvalidKey), [], jar)
    ensures out.status == 200 <==>
              !Malformed(apiKey) && test.Replied? && test.status != 401 && test.status != 403 && test.bodyRead
    ensures out.status == 200 ==> Lookup(out.jar, ApiKeyCookie) == Some(Trim(apiKey.s)) && |Trim(apiKey.s)| >= 10
    ensures out.status != 200 ==> out.jar == jar
  {
    if Malformed(apiKey) then Outcome(400, Error(InvalidKey), [], jar)
    else Check(jar, production, Trim(apiKey.s), test, aiStatus)
  }

  method Probes(store: CookieStore, production: bool, key: string, test: Probe, aiStatus: Option<int>)
    returns (status: int, body: Body, fetched: seq<Request>)
    modifies store
    ensures Outcome(status, body, fetched, store.jar) == Check(old(store.jar), production, key, test, aiStatus)
  {
    fetched := [KeyProbe(key)];
    if test.Threw? {
      return 502, Error(Unreachable), fetched;
    }
    if test.status == 403 || test.status == 401 {
      return 401, Error(Refused), fetched;
    }
    if !test.bodyRead {
      return 502, Error(Unreachable), fetched;
    }
    fetched := fetched + [AiProbe(key)];
    var planInfo := Plan(aiStatus);
    SetTokenCookie(store, ApiKeyCookie, key, production);
    status, body := 200, Connected(planInfo);
  }

  method Post(store: CookieStore, production: bool, apiKey: KeyField, test: Probe, aiStatus: Option<int>)
    returns (status: int, body: Body, fetched: seq<Request>)
    modifies store
    ensures Outcome(status, body, fetched, store.jar) == Validate(old(store.jar), production, apiKey, test, aiStatus)
  {
    if !apiKey.Str? || |Trim(apiKey.s)| < 10 {
      return 400, Error(InvalidKey), [];
    }
    status, body, fetched := Probes(store, production, Trim(apiKey.s), test, aiStatus);
  }

  /** The jar after `DELETE`. */
  function Deleted(jar: Jar): Jar {
    Cleared(jar, ApiKeyCookie)
  }

  method Delete(store: CookieStore) returns (ok: bool)
    modifies store
    ensures ok
    ensures store.jar == Deleted(old(store.jar))
  {
    ClearTokenCookie(store, ApiKeyCookie);
    ok := true;
  }

  /** A missing, non-string or short key gets 400 with no probe and no
      cookie. */
  lemma MalformedKeyRefused(jar: Jar, production: bool, apiKey: KeyField, test: Probe, aiStatus: Option<int>)
    requires Malformed(apiKey)
    ensures Validate(jar, production, apiKey, test, aiStatus) == Outcome(400, Error(InvalidKey), [], jar)
  {
  }

  /** A probe answered 401 or 403 gets a 401 and no cookie. */
  lemma RejectedKeyRefused(jar: Jar, production: bool, s: string, status: int, bodyRead: bool, aiStatus: Option<int>)
    requires |Trim(s)| >= 10 && (status == 401 || status == 403)
    ensures Validate(jar, production, Str(s), Replied(status, bodyRead), aiStatus)
            == Outcome(401, Error(Refused), [KeyProbe(Trim(s))], jar)
  {
  }

  /** A probe that throws, or whose body cannot be read, gets a 502 and no
      cookie. */
  lemma UnreachableProbe(jar: Jar, production: bool, s: string, test: Probe, aiStatus: Option<int>)
    requires |Trim(s)| >= 10
    requires test.Threw? || (test.status != 401 && test.status != 403 && !test.bodyRead)
    ensures Validate(jar, production, Str(s), test, aiStatus) == Outcome(502, Error(Unreachable), [KeyProbe(Trim(s))], jar)
  {
  }

  /** Any other probe status, 5xx included, is a success: the key is stored
      for eight hours under `mbr_semrush_apikey`, the plan follows the AI
      Overview probe, and the status route then reports semrush connected. */
  lemma ProbesAccept(jar: Jar, production: bool, key: string, status: int, aiStatus: Option<int>)
    requires key != "" && status != 401 && status != 403
    ensures var out := Check(jar, production, key, Replied(status, true), aiStatus);
            && out.status == 200
            && out.body == Connected(Plan(aiStatus))
            && out.fetched == [KeyProbe(key), AiProbe(key)]
            && Lookup(out.jar, ApiKeyCookie) == Some(key)
            && out.jar[ApiKeyCookie].options.maxAge == 28800
            && "semrush" in StatusRoute.Connected(out.jar) && StatusRoute.Connected(out.jar)["semrush"]
  {
    StoredKeyConnects(jar, key, production);
  }

  /** A well-formed key the probe does not refuse is stored trimmed. */
  lemma AcceptedKeyStored(jar: Jar, production: bool, s: string, status: int, aiStatus: Option<int>)
    requires |Trim(s)| >= 10 && status != 401 && status != 403
    ensures Validate(jar, production, Str(s), Replied(status, true), aiStatus)
            == Check(jar, production, Trim(s), Replied(status, true), aiStatus)
    ensures Lookup(Validate(jar, production, Str(s), Replied(status, true), aiStatus).jar, ApiKeyCookie) == Some(Trim(s))
  {
    ProbesAccept(jar, production, Trim(s), status, aiStatus);
  }

  lemma StoredKeyConnects(jar: Jar, key: string, production: bool)
    requires key != ""
    ensures var after := Stored(jar, ApiKeyCookie, key, production);
            "semrush" in StatusRoute.Connected(after) && StatusRoute.Connected(after)["semrush"]
  {
    var after := Stored(jar, ApiKeyCookie, key, production);
    assert Present(after, ApiKeyCookie);
    StatusRoute.SemrushFromApiKey(after);
  }

  /** The cookie changes only on a 200 reply, and what it then holds is a
      trimmed key of at least ten characters. */
  lemma CookieOnlyOnSuccess(jar: Jar, production: bool, apiKey: KeyField, test: Probe, aiStatus: Option<int>)
    ensures var out := Validate(jar, production, apiKey, test, aiStatus);
            && (out.status != 200 ==> out.jar == jar)
            && (out.status == 200 ==> apiKey.Str? && Lookup(out.jar, ApiKeyCookie) == Some(Trim(apiKey.s))
                                      && |Trim(apiKey.s)| >= 10 && Trim(Trim(apiKey.s)) == Trim(apiKey.s))
  {
    if !Malformed(apiKey) {
      TrimIdempotent(apiKey.s);
    }
  }

  /** `DELETE` removes the stored key, so the status route then reports
      semrush disconnected; nothing else changes. */
  lemma DeleteDisconnects(jar: Jar, other: string)
    requires other != ApiKeyCookie
    ensures Lookup(Deleted(jar), ApiKeyCookie) == None
    ensures Lookup(Deleted(jar), other) == Lookup(jar, other)
    ensures "semrush" in StatusRoute.Connected(Deleted(jar)) && !StatusRoute.Connected(Deleted(jar))["semrush"]
  {
    StatusRoute.SemrushFromApiKey(Deleted(jar));
  }
}

=== FILE: session.dfy ===
/**
 * The credential store (lib/session.ts): bearer tokens and API keys live only
 * in httpOnly cookies, written with one fixed set of attributes.
 */
module Session {

  import opened Wrappers
  import opened Cookies

  /** Eight hours, in seconds. */
  const CredentialMaxAge: nat := 60 * 60 * 8

  /** The attributes of every credential cookie: httpOnly, secure only in
      production, same-site lax, the whole site, eight hours. */
  function CredentialOptions(production: bool): CookieOptions {
    CookieOptions(true, production, "lax", "/", CredentialMaxAge)
  }

  /** The jar after storing credential `token` under `name`. */
  function Stored(jar: Jar, name: string, token: string, production: bool): Jar {
    jar[name := Cookie(token, CredentialOptions(production))]
  }

  /** The jar after clearing the credential under `name`. */
  function Cleared(jar: Jar, name: string): Jar {
    jar - {name}
  }

  method SetTokenCookie(store: CookieStore, name: string, token: string, production: bool)
    modifies store
    ensures store.jar == Stored(old(store.jar), name, token, production)
  {
    store.Set(name, token, CredentialOptions(production));
  }

  /** The value of the cookie called `name`, or nothing when there is none. */
  function GetTokenCookie(store: CookieStore, name: string): (v: Option<string>)
    reads store
    ensures v.Some? <==> name in store.jar
    ensures v.Some? ==> v.value == store.jar[name].value
  {
    store.Get(name)
  }

  method ClearTokenCookie(store: CookieStore, name: string)
    modifies store
    ensures store.jar == Cleared(old(store.jar), name)
  {
    store.Delete(name);
  }

  /** Storing then reading the same name gives back the token, and the cookie
      carries the credential attributes (httpOnly, lax, path "/", 28800 s). */
  lemma StoreThenGet(jar: Jar, name: string, token: string, production: bool)
    ensures Lookup(Stored(jar, name, token, production), name) == Some(token)
    ensures var o := Stored(jar, name, token, production)[name].options;
            o.httpOnly && o.sameSite == "lax" && o.path == "/" && o.maxAge == 28800
            && o.secure == production
  {
  }

  /** Clearing then reading gives nothing. */
  lemma ClearThenGet(jar: Jar, name: string)
    ensures Lookup(Cleared(jar, name), name) == None
  {
  }

  /** Storing and clearing touch only the named cookie. */
  lemma OthersUntouched(jar: Jar, name: string, other: string, token: string, production: bool)
    requires other != name
    ensures Lookup(Stored(jar, name, token, production), other) == Lookup(jar, other)
    ensures Lookup(Cleared(jar, name), other) == Lookup(jar, other)
  {
  }

  /** The (cookie, label) pairs `getConnectedSources` checks, in order. */
  const Checks: seq<(string, string)> := [
    ("mbr_google_token", "google"),
    ("mbr_semrush_token", "semrush"),
    ("mbr_linkedin_token", "linkedin"),
    ("mbr_meta_token", "meta"),
    ("mbr_hubspot_token", "hubspot")
  ]

  /** The labels of `checks` whose cookie is present, in the order of `checks`. */
  function PresentLabels(checks: seq<(string, string)>, jar: Jar): (labels: seq<string>)
    ensures |labels| <= |checks|
    decreases |checks|
  {
    if checks == [] then []
    else
      var last := checks[|checks| - 1];
      PresentLabels(checks[..|checks| - 1], jar) + (if Present(jar, last.0) then [last.1] else [])
  }

  /** `getConnectedSources()`: the labels whose cookie has a non-empty value. */
  method GetConnectedSources(store: CookieStore) returns (connected: seq<string>)
    ensures connected == PresentLabels(Checks, store.jar)
  {
    connected := [];
    for i := 0 to |Checks|
      invariant connected == PresentLabels(Checks[..i], store.jar)
    {
      var (cookie, source) := Checks[i];
      assert Checks[..i + 1][..i] == Checks[..i];
      if Present(store.jar, cookie) {
        connected := connected + [source];
      }
    }
    assert Checks[..|Checks|] == Checks;
  }

  /** The index of the first check labelled `source`; `|checks|` when there
      is none. */
  function Position(checks: seq<(string, string)>, source: string): (n: nat)
    ensures n <= |checks|
    ensures n < |checks| ==> checks[n].1 == source
    ensures n == |checks| ==> forall j :: 0 <= j < |checks| ==> checks[j].1 != source
  {
    if checks == [] then 0
    else if checks[0].1 == source then 0
    else 1 + Position(checks[1..], source)
  }

  /** The position of a label in the fixed order of `Checks`. */
  function Rank(source: string): nat {
    Position(Checks, source)
  }

  predicate DistinctLabels(checks: seq<(string, string)>) {
    forall a, b :: 0 <= a < b < |checks| ==> checks[a].1 != checks[b].1
  }

  /** With distinct labels, each check sits at its own position. */
  lemma {:induction false} PositionOf(checks: seq<(string, string)>, j: nat)
    requires DistinctLabels(checks) && j < |checks|
    ensures Position(checks, checks[j].1) == j
    decreases j
  {
    if j > 0 {
      assert checks[0].1 != checks[j].1;
      assert checks[1..][j - 1] == checks[j];
      assert DistinctLabels(checks[1..]) by {
        forall a, b | 0 <= a < b < |checks| - 1 ensures checks[1..][a].1 != checks[1..][b].1 {
          assert checks[a + 1].1 != checks[b + 1].1;
        }
      }
      PositionOf(checks[1..], j - 1);
    }
  }

  /** Each label reported from the first `k` checks names a present check
      among them. */
  predicate Named(checks: seq<(string, string)>, k: nat, jar: Jar)
    requires k <= |checks|
  {
    var c := PresentLabels(checks[..k], jar);
    forall i :: 0 <= i < |c| ==> Position(checks, c[i]) < k && Present(jar, checks[Position(checks, c[i])].0)
  }

  /** The labels reported from the first `k` checks come in the order of
      the checks. */
  predicate Increasing(checks: seq<(string, string)>, k: nat, jar: Jar)
    requires k <= |checks|
  {
    var c := PresentLabels(checks[..k], jar);
    forall i, j :: 0 <= i < j < |c| ==> Position(checks, c[i]) < Position(checks, c[j])
  }

  /** Among the first `k` checks, a label is reported exactly when its
      cookie is present. */
  predicate Exactly(checks: seq<(string, string)>, k: nat, jar: Jar)
    requires k <= |checks|
  {
    var c := PresentLabels(checks[..k], jar);
    forall j :: 0 <= j < k ==> (checks[j].1 in c <==> Present(jar, checks[j].0))
  }

  /** The labels from `k` checks are those from `k - 1` and perhaps the
      `k`-th label. */
  lemma PrefixStep(checks: seq<(string, string)>, k: nat, jar: Jar)
    requires 0 < k <= |checks|
    ensures var last := checks[k - 1];
            PresentLabels(checks[..k], jar)
              == PresentLabels(checks[..k - 1], jar) + (if Present(jar, last.0) then [last.1] else [])
  {
    assert checks[..k][..k - 1] == checks[..k - 1];
  }

  lemma NamedStep(checks: seq<(string, string)>, k: nat, jar: Jar)
    requires DistinctLabels(checks) && 0 < k <= |checks| && Named(checks, k - 1, jar)
    ensures Named(checks, k, jar)
  {
    PrefixStep(checks, k, jar);
    PositionOf(checks, k - 1);
    var c0 := PresentLabels(checks[..k - 1], jar);
    var c := PresentLabels(checks[..k], jar);
    forall i | 0 <= i < |c|
      ensures Position(checks, c[i]) < k && Present(jar, checks[Position(checks, c[i])].0)
    {
      if i < |c0| { assert c[i] == c0[i]; } else { assert c[i] == checks[k - 1].1; }
    }
  }

  lemma IncreasingStep(checks: seq<(string, string)>, k: nat, jar: Jar)
    requires DistinctLabels(checks) && 0 < k <= |checks|
    requires Named(checks, k - 1, jar) && Increasing(checks, k - 1, jar)
    ensures Increasing(checks, k, jar)
  {
    PrefixStep(checks, k, jar);
    PositionOf(checks, k - 1);
    var c0 := PresentLabels(checks[..k - 1], jar);
    var c := PresentLabels(checks[..k], jar);
    forall i, j | 0 <= i < j < |c| ensures Position(checks, c[i]) < Position(checks, c[j]) {
      if j < |c0| {
        assert c[i] == c0[i] && c[j] == c0[j];
      } else {
        assert c[i] == c0[i] && c[j] == checks[k - 1].1;
      }
    }
  }

  lemma ExactlyStep(checks: seq<(string, string)>, k: nat, jar: Jar)
    requires DistinctLabels(checks) && 0 < k <= |checks|
    requires Named(checks, k, jar) && Exactly(checks, k - 1, jar)
    ensures Exactly(checks, k, jar)
  {
    PrefixStep(checks, k, jar);
    var c0 := PresentLabels(checks[..k - 1], jar);
    var c := PresentLabels(checks[..k], jar);
    forall j | 0 <= j < k ensures (checks[j].1 in c <==> Present(jar, checks[j].0)) {
      PositionOf(checks, j);
      if checks[j].1 in c {
        var i :| 0 <= i < |c| && c[i] == checks[j].1;
      }
      if j < k - 1 && checks[j].1 in c0 {
        var i :| 0 <= i < |c0| && c0[i] == checks[j].1;
        assert c[i] == c0[i];
      }
    }
  }

  /** The labels reported from the first `k` of a list of checks with
      distinct labels: each names a present check among them, their
      positions increase, and a check's label is among them exactly when
      its cookie is present. */
  lemma {:induction false} PresentLabelsOfPrefix(checks: seq<(string, string)>, k: nat, jar: Jar)
    requires DistinctLabels(checks) && k <= |checks|
    ensures Named(checks, k, jar) && Increasing(checks, k, jar) && Exactly(checks, k, jar)
  {
    if k > 0 {
      PresentLabelsOfPrefix(checks, k - 1, jar);
      NamedStep(checks, k, jar);
      IncreasingStep(checks, k, jar);
      ExactlyStep(checks, k, jar);
    }
  }

  /** `getConnectedSources` reports each label at most once, in the order
      google, semrush, linkedin, meta, hubspot, exactly when its cookie has a
      non-empty value. */
  lemma ConnectedLabelsOrdered(jar: Jar)
    ensures var c := PresentLabels(Checks, jar);
            && |c| <= 5
            && (forall i, j :: 0 <= i < j < |c| ==> Rank(c[i]) < Rank(c[j]))
            && (forall j :: 0 <= j < |Checks| ==> (Checks[j].1 in c <==> Present(jar, Checks[j].0)))
  {
    assert DistinctLabels(Checks);
    PresentLabelsOfPrefix(Checks, |Checks|, jar);
    assert Checks[..|Checks|] == Checks;
  }

  /** The semrush label follows the `mbr_semrush_token` cookie only: the
      cookie the Semrush route actually writes, `mbr_semrush_apikey`, never
      makes it appear. */
  lemma SemrushLabelIgnoresApiKey(jar: Jar, key: string, production: bool)
    requires "mbr_semrush_token" !in jar
    ensures "semrush" !in PresentLabels(Checks, Stored(jar, "mbr_semrush_apikey", key, production))
  {
    var after := Stored(jar, "mbr_semrush_apikey", key, production);
    ConnectedLabelsOrdered(after);
    assert Checks[1] == ("mbr_semrush_token", "semrush");
    assert !Present(after, "mbr_semrush_token");
  }
}

=== FILE: status_route.dfy ===
/**
 * `GET /api/auth/status` (app/api/auth/status/route.ts): which sources hold a
 * credential cookie. The handler only reads the request's cookies.
 */
module StatusRoute {

  import opened Wrappers
  import opened Cookies
  import Catalog

  /** `COOKIES`: source identifier to the cookie that proves it is connected,
      in declaration order. */
  const CookieOf: seq<(string, string)> := [
    ("google_search_console", "mbr_google_token"),
    ("google_analytics", "mbr_google_token"),
    ("google_ads", "mbr_google_token"),
    ("semrush", "mbr_semrush_apikey"),
    ("linkedin", "mbr_linkedin_token"),
    ("meta_ads", "mbr_meta_token"),
    ("hubspot", "mbr_hubspot_token")
  ]

  /** The record the loop has built after visiting `entries`. */
  function Record(entries: seq<(string, string)>, jar: Jar): map<string, bool>
    decreases |entries|
  {
    if entries == [] then map[]
    else
      var last := entries[|entries| - 1];
      Record(entries[..|entries| - 1], jar)[last.0 := Present(jar, last.1)]
  }

  /** The `connected` record the route answers with: one key per source
      identifier of `COOKIES`, true exactly when its cookie has a value. */
  function Connected(jar: Jar): (connected: map<string, bool>)
    ensures forall k :: k in connected <==> exists j :: 0 <= j < |CookieOf| && CookieOf[j].0 == k
    ensures forall j :: 0 <= j < |CookieOf| ==> connected[CookieOf[j].0] == Present(jar, CookieOf[j].1)
  {
    IdentifiersDistinct();
    RecordEntries(CookieOf, jar);
    Record(CookieOf, jar)
  }

  method Get(store: CookieStore) returns (connected: map<string, bool>)
    ensures connected == Connected(store.jar)
  {
    connected := map[];
    for i := 0 to |CookieOf|
      invariant connected == Record(CookieOf[..i], store.jar)
    {
      var (sourceId, cookieName) := CookieOf[i];
      assert CookieOf[..i + 1][..i] == CookieOf[..i];
      connected := connected[sourceId := Present(store.jar, cookieName)];
    }
    assert CookieOf[..|CookieOf|] == CookieOf;
  }

  /** The keys of the record are the identifiers of `entries`, and when the
      identifiers are distinct each maps to the presence of its cookie. */
  lemma {:induction false} RecordEntries(entries: seq<(string, string)>, jar: Jar)
    ensures forall k :: k in Record(entries, jar) <==> exists j :: 0 <= j < |entries| && entries[j].0 == k
    ensures (forall i, j :: 0 <= i < j < |entries| ==> entries[i].0 != entries[j].0) ==>
              forall j :: 0 <= j < |entries| ==> Record(entries, jar)[entries[j].0] == Present(jar, entries[j].1)
    decreases |entries|
  {
    if entries != [] {
      var n := |entries| - 1;
      var init := entries[..n];
      RecordEntries(init, jar);
      forall k | k in Record(entries, jar)
        ensures exists j :: 0 <= j < |entries| && entries[j].0 == k
      {
        if k != entries[n].0 {
          assert k in Record(init, jar);
          var j :| 0 <= j < |init| && init[j].0 == k;
          assert entries[j].0 == k;
        }
      }
      forall k | exists j :: 0 <= j < |entries| && entries[j].0 == k
        ensures k in Record(entries, jar)
      {
        var j :| 0 <= j < |entries| && entries[j].0 == k;
        if j < n {
          assert init[j].0 == k;
        }
      }
      if forall i, j :: 0 <= i < j < |entries| ==> entries[i].0 != entries[j].0 {
        forall j | 0 <= j < |entries|
          ensures Record(entries, jar)[entries[j].0] == Present(jar, entries[j].1)
        {
          if j < n {
            assert init[j] == entries[j];
            assert entries[j].0 != entries[n].0;
          }
        }
      }
    }
  }

  /** `COOKIES` names each source identifier once. */
  lemma IdentifiersDistinct()
    ensures forall i, j :: 0 <= i < j < |CookieOf| ==> CookieOf[i].0 != CookieOf[j].0
  {
  }

  /** The record has exactly the seven source identifiers of the catalog as
      keys, and each is true exactly when its cookie has a non-empty value. */
  lemma ConnectedShape(jar: Jar)
    ensures Connected(jar).Keys == {"google_search_console", "google_analytics", "google_ads",
                                    "semrush", "linkedin", "meta_ads", "hubspot"}
    ensures forall id: Catalog.SourceId :: Catalog.IdName(id) in Connected(jar)
    ensures forall j :: 0 <= j < |CookieOf| ==> Connected(jar)[CookieOf[j].0] == Present(jar, CookieOf[j].1)
  {
    IdentifiersDistinct();
    RecordEntries(CookieOf, jar);
    ConnectedKeys(jar);
  }

  /** The identifiers of `COOKIES`, as a set. */
  lemma ConnectedKeys(jar: Jar)
    ensures Connected(jar).Keys == {"google_search_console", "google_analytics", "google_ads",
                                    "semrush", "linkedin", "meta_ads", "hubspot"}
  {
    var keys := {"google_search_console", "google_analytics", "google_ads",
                 "semrush", "linkedin", "meta_ads", "hubspot"};
    var connected := Connected(jar);
    assert CookieOf[0].0 in connected && CookieOf[1].0 in connected;
    assert CookieOf[2].0 in connected && CookieOf[3].0 in connected;
    assert CookieOf[4].0 in connected && CookieOf[5].0 in connected;
    assert CookieOf[6].0 in connected;
    forall k | k in connected ensures k in keys {
      var j :| 0 <= j < |CookieOf| && CookieOf[j].0 == k;
      assert CookieOf[j] in CookieOf;
    }
  }

  /** The three Google sources always report the same value: they share the
      Google token cookie. */
  lemma GoogleSourcesAgree(jar: Jar)
    ensures "google_search_console" in Connected(jar) && Connected(jar)["google_search_console"] == Present(jar, "mbr_google_token")
    ensures "google_analytics" in Connected(jar) && Connected(jar)["google_analytics"] == Present(jar, "mbr_google_token")
    ensures "google_ads" in Connected(jar) && Connected(jar)["google_ads"] == Present(jar, "mbr_google_token")
  {
    ConnectedShape(jar);
    assert CookieOf[0] == ("google_search_console", "mbr_google_token");
    assert CookieOf[1] == ("google_analytics", "mbr_google_token");
    assert CookieOf[2] == ("google_ads", "mbr_google_token");
  }

  /** Semrush is reported from the stored API key cookie, and the other
      sources from their own token cookies. */
  lemma SemrushFromApiKey(jar: Jar)
    ensures "semrush" in Connected(jar) && Connected(jar)["semrush"] == Present(jar, "mbr_semrush_apikey")
    ensures "linkedin" in Connected(jar) && Connected(jar)["linkedin"] == Present(jar, "mbr_linkedin_token")
    ensures "meta_ads" in Connected(jar) && Connected(jar)["meta_ads"] == Present(jar, "mbr_meta_token")
    ensures "hubspot" in Connected(jar) && Connected(jar)["hubspot"] == Present(jar, "mbr_hubspot_token")
  {
    ConnectedShape(jar);
    assert CookieOf[3] == ("semrush", "mbr_semrush_apikey");
    assert CookieOf[4] == ("linkedin", "mbr_linkedin_token");
    assert CookieOf[5] == ("meta_ads", "mbr_meta_token");
    assert CookieOf[6] == ("hubspot", "mbr_hubspot_token");
  }

  /** The route reads cookies only: two jars that agree on the cookies of
      `COOKIES` give the same record. */
  lemma {:induction false} DependsOnlyOnItsCookies(entries: seq<(string, string)>, jar: Jar, other: Jar)
    requires forall j :: 0 <= j < |entries| ==> Lookup(jar, entries[j].1) == Lookup(other, entries[j].1)
    ensures Record(entries, jar) == Record(entries, other)
    decreases |entries|
  {
    if entries != [] {
      var n := |entries| - 1;
      var init := entries[..n];
      assert forall j :: 0 <= j < |init| ==> init[j] == entries[j];
      DependsOnlyOnItsCookies(init, jar, other);
      assert Lookup(jar, entries[n].1) == Lookup(other, entries[n].1);
    }
  }
}

=== FILE: text.dfy ===
/**
 * The JavaScript string operations the application relies on, over
 * `string` (a sequence of Unicode scalar values): `trim`, `startsWith`,
 * `split` on one character, `join`, `indexOf`, `slice`, and the decimal
 * rendering of integers (`Number.prototype.toString`).
 */
module Text {

  import opened Wrappers

  /** JavaScript truthiness of a value that is a string or undefined: only a
      non-empty string is truthy. */
  predicate Truthy(v: Option<string>) {
    v.Some? && v.value != ""
  }

  /** The text a template literal `${v}` inserts for a string or undefined. */
  function Interpolate(v: Option<string>): string {
    v.GetOr("undefined")
  }

  /** The characters `String.prototype.trim` removes: ECMAScript WhiteSpace
      (tab, vertical tab, form feed, space, no-break space, byte order mark,
      the Unicode space separators) and LineTerminator. */
  predicate IsSpace(c: char) {
    || c == '\t' || c == '\n' || c == '\U{000B}' || c == '\U{000C}' || c == '\r'
    || c == ' ' || c == '\U{00A0}' || c == '\U{1680}'
    || ('\U{2000}' <= c <= '\U{200A}')
    || c == '\U{2028}' || c == '\U{2029}' || c == '\U{202F}' || c == '\U{205F}'
    || c == '\U{3000}' || c == '\U{FEFF}'
  }

  /** `v || fallback` for a string: the empty string is falsy. */
  function Or(v: string, fallback: string): (r: string)
    ensures v != "" ==> r == v
    ensures v == "" ==> r == fallback
  {
    if v != "" then v else fallback
  }

  /** `s.startsWith(prefix)` */
  predicate StartsWith(s: string, prefix: string) {
    |prefix| <= |s| && s[..|prefix|] == prefix
  }

  /** Leading white space removed. */
  function TrimStart(s: string): (r: string)
    ensures |r| <= |s| && r == s[|s| - |r|..]
    ensures r == [] || !IsSpace(r[0])
    ensures forall i :: 0 <= i < |s| - |r| ==> IsSpace(s[i])
    decreases |s|
  {
    if |s| > 0 && IsSpace(s[0]) then TrimStart(s[1..]) else s
  }

  /** Trailing white space removed. */
  function TrimEnd(s: string): (r: string)
    ensures |r| <= |s| && r == s[..|r|]
    ensures r == [] || !IsSpace(r[|r| - 1])
    ensures forall i :: |r| <= i < |s| ==> IsSpace(s[i])
    decreases |s|
  {
    if |s| > 0 && IsSpace(s[|s| - 1]) then TrimEnd(s[..|s| - 1]) else s
  }

  /** `r` is the piece of `s` at index `k`, and only white space lies
      before and after it. */
  predicate TrimmedAt(s: string, r: string, k: int) {
    && 0 <= k <= |s| - |r|
    && r == s[k..k + |r|]
    && (forall i :: 0 <= i < k ==> IsSpace(s[i]))
    && (forall i :: k + |r| <= i < |s| ==> IsSpace(s[i]))
  }

  /** `s.trim()`: a piece of `s` with only white space cut off either side,
      and neither end of it white space. */
  function Trim(s: string): (r: string)
    ensures |r| <= |s|
    ensures exists k :: TrimmedAt(s, r, k)
    ensures r == [] || (!IsSpace(r[0]) && !IsSpace(r[|r| - 1]))
  {
    TrimPiece(s, TrimStart(s), TrimEnd(TrimStart(s)));
    TrimEnd(TrimStart(s))
  }

  /** Cutting white space off the start of `s` (giving `t`) and then off the
      end of `t` (giving `r`) leaves `r` as a piece of `s` with only white
      space around it. */
  lemma TrimPiece(s: string, t: string, r: string)
    requires |t| <= |s| && t == s[|s| - |t|..] && forall i :: 0 <= i < |s| - |t| ==> IsSpace(s[i])
    requires |r| <= |t| && r == t[..|r|] && forall i :: |r| <= i < |t| ==> IsSpace(t[i])
    ensures TrimmedAt(s, r, |s| - |t|)
  {
    var k := |s| - |t|;
    assert r == s[k..][..|r|] == s[k..k + |r|];
    forall i | k + |r| <= i < |s|
      ensures IsSpace(s[i])
    {
      assert s[i] == t[i - k];
    }
  }

  /** A string with no white space at either end is its own trim, so trimming
      twice is trimming once. */
  lemma TrimFixesTrimmed(s: string)
    requires s == [] || (!IsSpace(s[0]) && !IsSpace(s[|s| - 1]))
    ensures Trim(s) == s
  {
  }

  lemma TrimIdempotent(s: string)
    ensures Trim(Trim(s)) == Trim(s)
  {
    TrimFixesTrimmed(Trim(s));
  }

  /** `s.split(sep)` for a one-character separator: the pieces between
      separators, always at least one. */
  function Split(s: string, sep: char): (parts: seq<string>)
    ensures |parts| >= 1
    ensures forall i :: 0 <= i < |parts| ==> sep !in parts[i]
    decreases |s|
  {
    if |s| == 0 then [""]
    else
      var rest := Split(s[1..], sep);
      if s[0] == sep then [""] + rest
      else [[s[0]] + rest[0]] + rest[1..]
  }

  /** `parts.join(sep)` */
  function Join(parts: seq<string>, sep: string): string
    decreases |parts|
  {
    if |parts| == 0 then ""
    else if |parts| == 1 then parts[0]
    else parts[0] + sep + Join(parts[1..], sep)
  }

  lemma {:induction false} JoinExtendsFirst(x: string, parts: seq<string>, sep: string)
    requires |parts| >= 1
    ensures Join([x + parts[0]] + parts[1..], sep) == x + Join(parts, sep)
  {
    var ps := [x + parts[0]] + parts[1..];
    assert ps[1..] == parts[1..];
    if |parts| > 1 {
      calc {
        Join(ps, sep);
        ps[0] + sep + Join(ps[1..], sep);
        x + (parts[0] + sep + Join(parts[1..], sep));
        x + Join(parts, sep);
      }
    }
  }

  /** Joining the pieces of a split with the same separator gives back the
      original string: splitting loses nothing. */
  lemma {:induction false} JoinSplit(s: string, sep: char)
    ensures Join(Split(s, sep), [sep]) == s
    decreases |s|
  {
    if |s| > 0 {
      var rest := Split(s[1..], sep);
      JoinSplit(s[1..], sep);
      if s[0] == sep {
        var ps := [""] + rest;
        assert ps[1..] == rest;
        assert Join(ps, [sep]) == "" + [sep] + Join(rest, [sep]);
        assert s == [s[0]] + s[1..];
      } else {
        JoinExtendsFirst([s[0]], rest, [sep]);
        assert s == [s[0]] + s[1..];
      }
    }
  }

  /** `s.slice(0, n)` for a non-negative n. */
  function Take(s: string, n: nat): (r: string)
    ensures |r| <= n && |r| <= |s|
    ensures StartsWith(s, r)
    ensures |s| <= n ==> r == s
  {
    if |s| <= n then s else s[..n]
  }

  /** `pat` occurs in `s` starting at index `j`. */
  predicate OccursAt(s: string, pat: string, j: int) {
    0 <= j && j + |pat| <= |s| && s[j..j + |pat|] == pat
  }

  function IndexFrom(s: string, pat: string, k: nat): (i: int)
    requires k <= |s| + 1
    ensures i == -1 || (k <= i && OccursAt(s, pat, i))
    ensures forall j :: k <= j && (i == -1 || j < i) ==> !OccursAt(s, pat, j)
    decreases |s| + 1 - k
  {
    if k + |pat| > |s| then -1
    else if s[k..k + |pat|] == pat then k
    else IndexFrom(s, pat, k + 1)
  }

  /** `s.indexOf(pat)`: the first index where `pat` occurs, or -1. */
  function IndexOf(s: string, pat: string): (i: int)
    ensures i == -1 || OccursAt(s, pat, i)
    ensures forall j :: 0 <= j && (i == -1 || j < i) ==> !OccursAt(s, pat, j)
  {
    IndexFrom(s, pat, 0)
  }

  /** Appending text never moves an occurrence that is already there, nor
      creates an earlier one: once found, the first occurrence stays put. */
  lemma IndexOfStable(p: string, q: string, pat: string)
    requires IndexOf(p, pat) != -1
    ensures IndexOf(p + q, pat) == IndexOf(p, pat)
  {
    var i := IndexOf(p, pat);
    assert (p + q)[i..i + |pat|] == p[i..i + |pat|];
    assert OccursAt(p + q, pat, i);
    forall j | 0 <= j < i
      ensures !OccursAt(p + q, pat, j)
    {
      assert !OccursAt(p, pat, j);
      assert (p + q)[j..j + |pat|] == p[j..j + |pat|];
    }
  }

  function Digit(d: nat): (c: char)
    requires d < 10
    ensures '0' <= c <= '9'
  {
    ('0' as int + d) as char
  }

  /** Decimal rendering of a natural number, as `n.toString()` prints it. */
  function NatToString(n: nat): (s: string)
    ensures |s| >= 1
    ensures forall i :: 0 <= i < |s| ==> '0' <= s[i] <= '9'
    ensures n >= 10 ==> s[0] != '0'
    decreases n
  {
    if n < 10 then [Digit(n)] else NatToString(n / 10) + [Digit(n % 10)]
  }

  /** The number a string of decimal digits denotes. */
  function DigitsValue(s: string): nat
    requires forall i :: 0 <= i < |s| ==> '0' <= s[i] <= '9'
    decreases |s|
  {
    if s == [] then 0 else DigitsValue(s[..|s| - 1]) * 10 + (s[|s| - 1] as int - '0' as int)
  }

  /** Reading the rendering back gives the number again. */
  lemma {:induction false} NatToStringRoundTrip(n: nat)
    ensures DigitsValue(NatToString(n)) == n
    decreases n
  {
    var s := NatToString(n);
    if n < 10 {
      assert s[..0] == [];
    } else {
      NatToStringRoundTrip(n / 10);
      assert s[..|s| - 1] == NatToString(n / 10);
    }
  }

  /** `i.toString()` for an integer. */
  function IntToString(i: int): (s: string)
    ensures |s| >= 1
    ensures (s[0] == '-') <==> i < 0
  {
    if i < 0 then "-" + NatToString(-i) else NatToString(i)
  }

  /** Reading the rendering back gives the integer again: after the minus
      sign of a negative number come the digits of its magnitude. */
  lemma {:induction false} IntToStringRoundTrip(i: int)
    ensures var s := IntToString(i);
            var digits := if i < 0 then s[1..] else s;
            && (forall k :: 0 <= k < |digits| ==> '0' <= digits[k] <= '9')
            && DigitsValue(digits) == if i < 0 then -i else i
  {
    var m := if i < 0 then -i else i;
    NatToStringRoundTrip(m);
    assert (if i < 0 then IntToString(i)[1..] else IntToString(i)) == NatToString(m);
  }
}

=== FILE: wizard.dfy ===
/**
 * The non-visual logic of the setup wizard (app/page.tsx): the step restored
 * at start, the connection record polled from the status route, the list of
 * selected module identifiers and its updates, the Semrush key dialog and
 * the North Star goals. The component's state is an object whose fields the
 * handlers reassign; requests it sends are replaced by their outcomes.
 */
module Wizard {

  import opened Wrappers
  import opened Text
  import Catalog

  datatype Step = Connect | Configure | Report

  /** The step restored from session storage: only "connect" and
      "configure" are restored, anything else starts over. */
  function RestoreStep(stored: Option<string>): (s: Step)
    ensures s != Report
    ensures s == Configure <==> stored == Some("configure")
  {
    if stored == Some("configure") then Configure else Connect
  }

  predicate Distinct(xs: seq<string>) {
    forall i, j :: 0 <= i < j < |xs| ==> xs[i] != xs[j]
  }

  /** `prev.filter(x => !ids.includes(x))` */
  function Without(prev: seq<string>, ids: seq<string>): (r: seq<string>)
    ensures forall x :: x in r <==> x in prev && x !in ids
    ensures |r| <= |prev|
    decreases |prev|
  {
    if prev == [] then []
    else (if prev[0] in ids then [] else [prev[0]]) + Without(prev[1..], ids)
  }

  /** `f` maps each position of `r` to a position of `prev` holding the same
      identifier, in increasing order: `r` is a subsequence of `prev`. */
  ghost predicate SubsequenceBy(r: seq<string>, prev: seq<string>, f: seq<int>) {
    && |f| == |r|
    && (forall k :: 0 <= k < |f| ==> 0 <= f[k] < |prev| && r[k] == prev[f[k]])
    && (forall k, l :: 0 <= k < l < |f| ==> f[k] < f[l])
  }

  /** Every position of `prev` that `f` does not reach holds one of `ids`. */
  ghost predicate SkipsOnly(prev: seq<string>, ids: seq<string>, f: seq<int>) {
    forall i :: 0 <= i < |prev| && i !in f ==> prev[i] in ids
  }

  /** `r` is `prev` with some entries dropped, the rest kept in order, and
      every entry dropped is one of `ids`. */
  ghost predicate DropsOnly(r: seq<string>, prev: seq<string>, ids: seq<string>) {
    exists f :: SubsequenceBy(r, prev, f) && SkipsOnly(prev, ids, f)
  }

  /** Every position shifted one to the right. */
  function Shift(f: seq<int>): (g: seq<int>)
    ensures |g| == |f| && forall k :: 0 <= k < |f| ==> g[k] == f[k] + 1
  {
    seq(|f|, k requires 0 <= k < |f| => f[k] + 1)
  }

  /** The filter keeps the other identifiers in their order and drops only
      the given ones. */
  lemma {:induction false} WithoutInOrder(prev: seq<string>, ids: seq<string>)
    ensures DropsOnly(Without(prev, ids), prev, ids)
    decreases |prev|
  {
    if prev == [] {
      assert SubsequenceBy(Without(prev, ids), prev, []) && SkipsOnly(prev, ids, []);
    } else {
      var tail := prev[1..];
      WithoutInOrder(tail, ids);
      var f :| SubsequenceBy(Without(tail, ids), tail, f) && SkipsOnly(tail, ids, f);
      if prev[0] in ids {
        assert Without(prev, ids) == Without(tail, ids);
        DropsFirst(Without(tail, ids), prev, ids, f);
      } else {
        assert Without(prev, ids) == [prev[0]] + Without(tail, ids);
        KeepsFirst(Without(tail, ids), prev, ids, f);
      }
    }
  }

  /** Dropping a first entry that is one of `ids`. */
  lemma DropsFirst(r: seq<string>, prev: seq<string>, ids: seq<string>, f: seq<int>)
    requires |prev| > 0 && prev[0] in ids
    requires SubsequenceBy(r, prev[1..], f) && SkipsOnly(prev[1..], ids, f)
    ensures DropsOnly(r, prev, ids)
  {
    ShiftedSubsequence(r, prev, f);
    ShiftedSkips(prev, ids, f);
    assert SubsequenceBy(r, prev, Shift(f)) && SkipsOnly(prev, ids, Shift(f));
  }

  /** Keeping the first entry in front of the kept tail. */
  lemma KeepsFirst(r: seq<string>, prev: seq<string>, ids: seq<string>, f: seq<int>)
    requires |prev| > 0
    requires SubsequenceBy(r, prev[1..], f) && SkipsOnly(prev[1..], ids, f)
    ensures DropsOnly([prev[0]] + r, prev, ids)
  {
    ShiftedSubsequence(r, prev, f);
    ShiftedSkips(prev, ids, f);
    var g := Shift(f);
    ConsSubsequence(r, prev, g);
    forall i | 0 <= i < |prev| && i !in [0] + g
      ensures prev[i] in ids
    {
      assert i !in g;
    }
    assert SubsequenceBy([prev[0]] + r, prev, [0] + g) && SkipsOnly(prev, ids, [0] + g);
  }

  /** A subsequence of the tail is one of the whole, one position on. */
  lemma ShiftedSubsequence(r: seq<string>, prev: seq<string>, f: seq<int>)
    requires |prev| > 0 && SubsequenceBy(r, prev[1..], f)
    ensures SubsequenceBy(r, prev, Shift(f))
    ensures forall k :: 0 <= k < |f| ==> Shift(f)[k] > 0
  {
  }

  /** Positions skipped by the shifted map, other than the first, are those
      skipped in the tail. */
  lemma ShiftedSkips(prev: seq<string>, ids: seq<string>, f: seq<int>)
    requires |prev| > 0 && SkipsOnly(prev[1..], ids, f)
    ensures forall i :: 1 <= i < |prev| && i !in Shift(f) ==> prev[i] in ids
  {
    var g := Shift(f);
    forall i | 1 <= i < |prev| && i !in g
      ensures prev[i] in ids
    {
      assert prev[1..][i - 1] == prev[i];
    }
  }

  /** Keeping the first entry puts position 0 in front of the map. */
  lemma ConsSubsequence(r: seq<string>, prev: seq<string>, g: seq<int>)
    requires |prev| > 0 && SubsequenceBy(r, prev, g)
    requires forall k :: 0 <= k < |g| ==> g[k] > 0
    ensures SubsequenceBy([prev[0]] + r, prev, [0] + g)
  {
    var f := [0] + g;
    var r' := [prev[0]] + r;
    forall k | 0 <= k < |f|
      ensures 0 <= f[k] < |prev| && r'[k] == prev[f[k]]
    {
      if k > 0 {
        assert f[k] == g[k - 1] && r'[k] == r[k - 1];
      }
    }
    forall k, l | 0 <= k < l < |f|
      ensures f[k] < f[l]
    {
      assert f[l] == g[l - 1];
      if k > 0 {
        assert f[k] == g[k - 1];
      }
    }
  }

  /** Filtering distributes over concatenation: the kept elements stay in
      their order. */
  lemma {:induction false} WithoutAppend(a: seq<string>, b: seq<string>, ids: seq<string>)
    ensures Without(a + b, ids) == Without(a, ids) + Without(b, ids)
    decreases |a|
  {
    if a == [] {
      assert a + b == b;
    } else {
      assert (a + b)[0] == a[0];
      assert (a + b)[1..] == a[1..] + b;
      WithoutAppend(a[1..], b, ids);
    }
  }

  /** Removing identifiers that are not there changes nothing. */
  lemma {:induction false} WithoutNothing(prev: seq<string>, ids: seq<string>)
    requires forall x :: x in prev ==> x !in ids
    ensures Without(prev, ids) == prev
    decreases |prev|
  {
    if prev != [] {
      WithoutNothing(prev[1..], ids);
    }
  }

  /** Filtering keeps a list free of duplicates. */
  lemma {:induction false} WithoutDistinct(prev: seq<string>, ids: seq<string>)
    requires Distinct(prev)
    ensures Distinct(Without(prev, ids))
    decreases |prev|
  {
    if prev != [] {
      WithoutDistinct(prev[1..], ids);
      assert prev[0] !in prev[1..];
    }
  }

  /** `[...new Set(xs)]`: each identifier once, at its first occurrence. */
  function Dedup(xs: seq<string>): (r: seq<string>)
    ensures forall x :: x in r <==> x in xs
    ensures Distinct(r)
    decreases |xs|
  {
    if xs == [] then []
    else
      var d := Dedup(xs[..|xs| - 1]);
      var last := xs[|xs| - 1];
      if last in d then d else d + [last]
  }

  /** Deduplicating a longer list keeps what deduplicating its beginning
      gave, in front. */
  lemma {:induction false} DedupExtends(a: seq<string>, b: seq<string>)
    ensures Dedup(a) <= Dedup(a + b)
    decreases |b|
  {
    if b == [] {
      assert a + b == a;
    } else {
      var n := |b| - 1;
      assert (a + b)[..|a + b| - 1] == a + b[..n];
      DedupExtends(a, b[..n]);
      assert Dedup(a + b[..n]) <= Dedup(a + b);
    }
  }

  /** A list without duplicates is its own deduplication. */
  lemma {:induction false} DedupDistinct(xs: seq<string>)
    requires Distinct(xs)
    ensures Dedup(xs) == xs
    decreases |xs|
  {
    if xs != [] {
      var n := |xs| - 1;
      DedupDistinct(xs[..n]);
      assert xs[n] !in xs[..n];
      assert xs[..n] + [xs[n]] == xs;
    }
  }

  /** Adding identifiers to a selection without duplicates keeps the
      selection as it was, in front, and adds each missing one once. */
  lemma MergeKeepsSelection(prev: seq<string>, ids: seq<string>)
    requires Distinct(prev)
    ensures prev <= Dedup(prev + ids)
    ensures forall x :: x in Dedup(prev + ids) <==> x in prev || x in ids
    ensures Distinct(Dedup(prev + ids))
  {
    DedupDistinct(prev);
    DedupExtends(prev, ids);
  }

  /** `toggleModule`: a selected identifier is removed (every occurrence),
      another is appended at the end. */
  function Toggle(prev: seq<string>, id: string): (r: seq<string>)
    ensures id in prev ==> id !in r && forall x :: x != id ==> (x in r <==> x in prev)
    ensures id in prev ==> DropsOnly(r, prev, [id])
    ensures id !in prev ==> r == prev + [id]
  {
    WithoutInOrder(prev, [id]);
    if id in prev then Without(prev, [id]) else prev + [id]
  }

  /** Toggling an unselected identifier twice restores the selection. */
  lemma ToggleTwice(prev: seq<string>, id: string)
    requires id !in prev
    ensures Toggle(Toggle(prev, id), id) == prev
  {
    WithoutAppend(prev, [id], [id]);
    WithoutNothing(prev, [id]);
    assert Without([id], [id]) == [];
  }

  /** Toggling keeps a selection free of duplicates. */
  lemma ToggleDistinct(prev: seq<string>, id: string)
    requires Distinct(prev)
    ensures Distinct(Toggle(prev, id))
  {
    if id in prev {
      WithoutDistinct(prev, [id]);
    }
  }

  /** `toggleAllFromSource`: when all of the source's identifiers are
      selected they are all removed, otherwise the missing ones are added. */
  function ToggleAll(prev: seq<string>, ids: seq<string>): (r: seq<string>)
    ensures (forall id :: id in ids ==> id in prev) ==> forall x :: x in r <==> x in prev && x !in ids
    ensures !(forall id :: id in ids ==> id in prev) ==> forall x :: x in r <==> x in prev || x in ids
    ensures (forall id :: id in ids ==> id in prev) ==> DropsOnly(r, prev, ids)
    ensures !(forall id :: id in ids ==> id in prev) ==> Distinct(r)
  {
    WithoutInOrder(prev, ids);
    if forall id :: id in ids ==> id in prev then Without(prev, ids) else Dedup(prev + ids)
  }

  lemma ToggleAllShape(prev: seq<string>, ids: seq<string>)
    requires Distinct(prev)
    ensures (forall id :: id in ids ==> id in prev) ==>
              forall x :: x in ToggleAll(prev, ids) <==> x in prev && x !in ids
    ensures !(forall id :: id in ids ==> id in prev) ==>
              && prev <= ToggleAll(prev, ids)
              && (forall id :: id in ids ==> id in ToggleAll(prev, ids))
              && (forall x :: x in ToggleAll(prev, ids) ==> x in prev || x in ids)
    ensures Distinct(ToggleAll(prev, ids))
  {
    MergeKeepsSelection(prev, ids);
    WithoutDistinct(prev, ids);
  }

  /** `SOURCES.find(s => s.id === name)`, by the identifier's spelling. */
  function SourceNamed(sources: seq<Catalog.Source>, name: string): (r: Option<Catalog.Source>)
    ensures r.Some? ==> r.value in sources && Catalog.IdName(r.value.id) == name
    ensures r.None? ==> forall s :: s in sources ==> Catalog.IdName(s.id) != name
  {
    if sources == [] then None
    else if Catalog.IdName(sources[0].id) == name then Some(sources[0])
    else SourceNamed(sources[1..], name)
  }

  /** The module identifiers `handleDisconnect` drops from the selection:
      those of the source, none for an unknown identifier. */
  function Removable(sourceId: string): seq<string> {
    match SourceNamed(Catalog.Sources, sourceId)
    case Some(s) => Catalog.Ids(s.modules)
    case None => []
  }

  /** Looking a source up by its identifier's spelling finds its catalog
      entry. */
  lemma {:induction false} SourceNamedFinds(sources: seq<Catalog.Source>, id: Catalog.SourceId)
    ensures SourceNamed(sources, Catalog.IdName(id)) == Catalog.Find(sources, id)
    decreases |sources|
  {
    if sources != [] {
      if Catalog.IdName(sources[0].id) == Catalog.IdName(id) {
        IdNameInjective(sources[0].id, id);
      }
      SourceNamedFinds(sources[1..], id);
    }
  }

  lemma IdNameInjective(a: Catalog.SourceId, b: Catalog.SourceId)
    requires Catalog.IdName(a) == Catalog.IdName(b)
    ensures a == b
  {
  }

  /** Disconnecting a catalog source drops its modules and keeps the other
      selected identifiers, in order. */
  lemma DisconnectPrunes(prev: seq<string>, id: Catalog.SourceId)
    ensures Removable(Catalog.IdName(id)) == Catalog.Ids(Catalog.GetSource(id).modules)
    ensures forall x :: x in Without(prev, Removable(Catalog.IdName(id))) <==>
              x in prev && x !in Catalog.Ids(Catalog.GetSource(id).modules)
    ensures DropsOnly(Without(prev, Removable(Catalog.IdName(id))), prev, Catalog.Ids(Catalog.GetSource(id).modules))
  {
    SourceNamedFinds(Catalog.Sources, id);
    WithoutInOrder(prev, Removable(Catalog.IdName(id)));
  }

  /** An identifier outside the catalog leaves the selection as it was. */
  lemma UnknownDisconnectKeepsSelection(prev: seq<string>, sourceId: string)
    requires forall id: Catalog.SourceId :: Catalog.IdName(id) != sourceId
    ensures Without(prev, Removable(sourceId)) == prev
  {
    WithoutNothing(prev, Removable(sourceId));
  }

  const AiOverview := "semrush_ai_overview"

  /** The Semrush module identifiers offered after a successful key check:
      the AI Overview module only when the plan has it. */
  function SemrushOffered(hasAiOverview: bool): seq<string> {
    Without(SemrushModuleIds, if hasAiOverview then [] else [AiOverview])
  }

  /** The Semrush modules of the catalog, in order. */
  const SemrushModuleIds: seq<string> := [AiOverview, "semrush_rankings", "semrush_competitors"]

  lemma SemrushModulesOfCatalog()
    ensures Catalog.Ids(Catalog.GetSource(Catalog.Semrush).modules) == SemrushModuleIds
  {
    assert Catalog.Sources[Catalog.IndexOf(Catalog.Semrush)] == Catalog.Sources[2];
    Catalog.SourceIdsExactlyOnce();
  }

  /** A successful key check merges the offered Semrush modules into the
      selection, without duplicates; AI Overview ends up selected exactly
      when the plan has it or it already was. */
  lemma SemrushMergeShape(prev: seq<string>, hasAiOverview: bool)
    requires Distinct(prev)
    ensures var r := Dedup(prev + SemrushOffered(hasAiOverview));
            && prev <= r && Distinct(r)
            && "semrush_rankings" in r && "semrush_competitors" in r
            && (AiOverview in r <==> hasAiOverview || AiOverview in prev)
  {
    assert "semrush_rankings" in SemrushModuleIds && "semrush_competitors" in SemrushModuleIds;
    MergeKeepsSelection(prev, SemrushOffered(hasAiOverview));
  }

  /** The North Star fields; `label` and `real` are reserved words here, hence `name` and
      `actual`. */
  datatype NorthStar = NorthStar(name: string, goal: string, actual: string)

  datatype Field = LabelField | GoalField | ActualField

  const DefaultNorthStars: seq<NorthStar> := [
    NorthStar("", "", ""), NorthStar("", "", ""), NorthStar("", "", ""), NorthStar("", "", "")
  ]

  function WithField(ns: NorthStar, field: Field, value: string): (r: NorthStar)
    ensures field == LabelField ==> r == ns.(name := value)
    ensures field == GoalField ==> r == ns.(goal := value)
    ensures field == ActualField ==> r == ns.(actual := value)
  {
    match field
    case LabelField => ns.(name := value)
    case GoalField => ns.(goal := value)
    case ActualField => ns.(actual := value)
  }

  /** `updateNorthStar`: only the given field of entry `i` changes; an index
      out of range changes nothing. */
  function UpdatedNorthStars(list: seq<NorthStar>, i: int, field: Field, value: string): (r: seq<NorthStar>)
    ensures |r| == |list|
    ensures forall k :: 0 <= k < |list| && k != i ==> r[k] == list[k]
    ensures 0 <= i < |list| ==> r[i] == WithField(list[i], field, value)
  {
    seq(|list|, k requires 0 <= k < |list| => if k == i then WithField(list[k], field, value) else list[k])
  }

  /** `connected[id]` read as a boolean: absent counts as false. */
  predicate Flag(connected: map<string, bool>, id: string) {
    id in connected && connected[id]
  }

  /** `SOURCES.filter(s => connected[s.id])` */
  function ConnectedSources(sources: seq<Catalog.Source>, connected: map<string, bool>): (r: seq<Catalog.Source>)
    ensures forall s :: s in r <==> s in sources && Flag(connected, Catalog.IdName(s.id))
    ensures |r| <= |sources|
    decreases |sources|
  {
    if sources == [] then []
    else
      (if Flag(connected, Catalog.IdName(sources[0].id)) then [sources[0]] else [])
      + ConnectedSources(sources[1..], connected)
  }

  /** Sources listed in increasing `rank` of their identifiers. */
  predicate Ordered(sources: seq<Catalog.Source>, rank: Catalog.SourceId -> nat) {
    forall i, j :: 0 <= i < j < |sources| ==> rank(sources[i].id) < rank(sources[j].id)
  }

  lemma TailOrdered(sources: seq<Catalog.Source>, rank: Catalog.SourceId -> nat)
    requires sources != [] && Ordered(sources, rank)
    ensures Ordered(sources[1..], rank)
    ensures forall x :: x in sources[1..] ==> rank(sources[0].id) < rank(x.id)
  {
    var tail := sources[1..];
    forall i, j | 0 <= i < j < |tail|
      ensures rank(tail[i].id) < rank(tail[j].id)
    {
      assert tail[i] == sources[i + 1] && tail[j] == sources[j + 1];
    }
    forall x | x in tail
      ensures rank(sources[0].id) < rank(x.id)
    {
      var k :| 0 <= k < |tail| && tail[k] == x;
      assert sources[k + 1] == x;
    }
  }

  lemma ConsOrdered(first: Catalog.Source, rest: seq<Catalog.Source>, rank: Catalog.SourceId -> nat)
    requires Ordered(rest, rank)
    requires forall x :: x in rest ==> rank(first.id) < rank(x.id)
    ensures Ordered([first] + rest, rank)
  {
    var r := [first] + rest;
    forall i, j | 0 <= i < j < |r|
      ensures rank(r[i].id) < rank(r[j].id)
    {
      assert r[j] == rest[j - 1];
      if i == 0 {
        assert rest[j - 1] in rest;
      } else {
        assert r[i] == rest[i - 1];
      }
    }
  }

  /** Filtering keeps the sources in their order. */
  lemma {:induction false} ConnectedKeepsOrder(sources: seq<Catalog.Source>, connected: map<string, bool>, rank: Catalog.SourceId -> nat)
    requires Ordered(sources, rank)
    ensures Ordered(ConnectedSources(sources, connected), rank)
    decreases |sources|
  {
    if sources != [] {
      TailOrdered(sources, rank);
      ConnectedKeepsOrder(sources[1..], connected, rank);
      if Flag(connected, Catalog.IdName(sources[0].id)) {
        ConsOrdered(sources[0], ConnectedSources(sources[1..], connected), rank);
      }
    }
  }

  /** The catalog itself is in catalog order, so the wizard lists the
      connected sources in it. */
  lemma ShownInCatalogOrder(connected: map<string, bool>)
    ensures Ordered(ConnectedSources(Catalog.Sources, connected), Catalog.IndexOf)
  {
    Catalog.SourceIdsExactlyOnce();
    assert Ordered(Catalog.Sources, Catalog.IndexOf) by {
      forall i, j | 0 <= i < j < |Catalog.Sources|
        ensures Catalog.IndexOf(Catalog.Sources[i].id) < Catalog.IndexOf(Catalog.Sources[j].id)
      {
        assert Catalog.IndexOf(Catalog.Sources[i].id) == i;
        assert Catalog.IndexOf(Catalog.Sources[j].id) == j;
      }
    }
    ConnectedKeepsOrder(Catalog.Sources, connected, Catalog.IndexOf);
  }

  /** `Object.values(nc).some(Boolean)` */
  predicate AnyConnected(nc: map<string, bool>) {
    exists k :: k in nc && nc[k]
  }

  /** The step after a status poll. */
  function AfterStatus(step: Step, autoAdvance: bool, nc: map<string, bool>): (s: Step)
    ensures s != step ==> autoAdvance && AnyConnected(nc) && s == Configure
    ensures autoAdvance && AnyConnected(nc) ==> s == Configure
  {
    if autoAdvance && AnyConnected(nc) then Configure else step
  }

  /** A status poll that finds nothing connected never leaves the step. */
  lemma NoAdvanceWithoutConnection(step: Step, autoAdvance: bool, nc: map<string, bool>)
    requires forall k :: k in nc ==> !nc[k]
    ensures AfterStatus(step, autoAdvance, nc) == step
  {
  }

  /** The Semrush key check as the dialog sees it: the request (or reading
      its reply) threw, or it answered with its `ok` flag, the reply's
      `error` and its plan. */
  datatype KeyCheck = Unreachable | Checked(ok: bool, error: Option<string>, hasAiOverview: bool, plan: string)

  const EmptyKey := "Ingresá tu API key."
  const CheckFailed := "Error al validar la key."
  const NoConnection := "No se pudo conectar. Intentá de nuevo."

  datatype PlanInfo = PlanInfo(plan: string, hasAiOverview: bool)

  class App {
    var step: Step
    var connected: map<string, bool>
    var selectedModules: seq<string>
    var northStars: seq<NorthStar>
    var srStep: nat
    var srError: string
    var srPlanInfo: Option<PlanInfo>

    /** The selection never lists a module twice. */
    predicate Valid()
      reads this
    {
      Distinct(selectedModules)
    }

    /** Start-up: the stored step is restored, nothing is connected or
        selected yet, four empty North Stars. */
    constructor (stored: Option<string>)
      ensures Valid()
      ensures step == RestoreStep(stored) && connected == map[] && selectedModules == []
      ensures northStars == DefaultNorthStars && srStep == 1 && srError == "" && srPlanInfo == None
    {
      step := RestoreStep(stored);
      connected := map[];
      selectedModules := [];
      northStars := DefaultNorthStars;
      srStep := 1;
      srError := "";
      srPlanInfo := None;
    }

    /** The connected sources shown, in catalog order. */
    function Shown(): seq<Catalog.Source>
      reads this
    {
      ConnectedSources(Catalog.Sources, connected)
    }

    /** `fetchStatus`: the reply's `connected` record (`{}` when absent)
        replaces the old one, and an auto-advance moves on to "configure"
        when some source is connected. */
    method FetchStatus(autoAdvance: bool, reply: Option<map<string, bool>>)
      requires Valid()
      modifies this
      ensures Valid()
      ensures connected == reply.GetOr(map[])
      ensures step == AfterStatus(old(step), autoAdvance, connected)
      ensures selectedModules == old(selectedModules) && northStars == old(northStars)
      ensures srStep == old(srStep) && srError == old(srError) && srPlanInfo == old(srPlanInfo)
    {
      var nc := reply.GetOr(map[]);
      connected := nc;
      if autoAdvance && AnyConnected(nc) {
        step := Configure;
      }
    }

    method ToggleModule(id: string)
      requires Valid()
      modifies this
      ensures Valid()
      ensures selectedModules == Toggle(old(selectedModules), id)
      ensures step == old(step) && connected == old(connected) && northStars == old(northStars)
      ensures srStep == old(srStep) && srError == old(srError) && srPlanInfo == old(srPlanInfo)
    {
      ToggleDistinct(selectedModules, id);
      selectedModules := Toggle(selectedModules, id);
    }

    method ToggleAllFromSource(source: Catalog.Source)
      requires Valid()
      modifies this
      ensures Valid()
      ensures selectedModules == ToggleAll(old(selectedModules), Catalog.Ids(source.modules))
      ensures step == old(step) && connected == old(connected) && northStars == old(northStars)
      ensures srStep == old(srStep) && srError == old(srError) && srPlanInfo == old(srPlanInfo)
    {
      ToggleAllShape(selectedModules, Catalog.Ids(source.modules));
      selectedModules := ToggleAll(selectedModules, Catalog.Ids(source.modules));
    }

    /** `handleDisconnect`: Semrush is disconnected through its own DELETE
        endpoint, every other source through the disconnect route; then the
        status is polled and the source's modules are dropped. */
    method HandleDisconnect(sourceId: string, status: Option<map<string, bool>>) returns (endpoint: string)
      requires Valid()
      modifies this
      ensures Valid()
      ensures endpoint == if sourceId == "semrush" then "/api/auth/semrush" else "/api/auth/disconnect"
      ensures connected == status.GetOr(map[]) && step == old(step)
      ensures selectedModules == Without(old(selectedModules), Removable(sourceId))
      ensures northStars == old(northStars)
      ensures srStep == old(srStep) && srError == old(srError) && srPlanInfo == old(srPlanInfo)
    {
      endpoint := if sourceId == "semrush" then "/api/auth/semrush" else "/api/auth/disconnect";
      FetchStatus(false, status);
      WithoutDistinct(selectedModules, Removable(sourceId));
      selectedModules := Without(selectedModules, Removable(sourceId));
    }

    /** The key check's answer applied to the dialog: an unreachable
        check or a refused key leaves an error message; an accepted key
        records the plan, moves the dialog to its last step and merges the
        offered Semrush modules into the selection. */
    method ApplyKeyCheck(outcome: KeyCheck)
      requires Valid()
      modifies this
      ensures Valid()
      ensures outcome.Unreachable? ==> srError == NoConnection
      ensures outcome.Checked? && !outcome.ok ==>
                srError == (if Truthy(outcome.error) then outcome.error.value else CheckFailed)
      ensures outcome.Checked? && outcome.ok ==>
                && srError == ""
                && srPlanInfo == Some(PlanInfo(outcome.plan, outcome.hasAiOverview))
                && srStep == 3
                && selectedModules == Dedup(old(selectedModules) + SemrushOffered(outcome.hasAiOverview))
      ensures !(outcome.Checked? && outcome.ok) ==>
                selectedModules == old(selectedModules) && srStep == old(srStep) && srPlanInfo == old(srPlanInfo)
      ensures step == old(step) && connected == old(connected) && northStars == old(northStars)
    {
      if outcome.Unreachable? {
        srError := NoConnection;
      } else if !outcome.ok {
        srError := if Truthy(outcome.error) then outcome.error.value else CheckFailed;
      } else {
        srError := "";
        srPlanInfo := Some(PlanInfo(outcome.plan, outcome.hasAiOverview));
        srStep := 3;
        selectedModules := Dedup(selectedModules + SemrushOffered(outcome.hasAiOverview));
      }
    }

    /** `validateSemrushKey`: a blank key is refused without a request;
        otherwise the trimmed key is sent and its check's answer applied. */
    method ValidateSemrushKey(key: string, outcome: KeyCheck) returns (sent: Option<string>)
      requires Valid()
      modifies this
      ensures Valid()
      ensures Trim(key) == "" ==> sent == None && srError == EmptyKey
      ensures Trim(key) == "" ==> selectedModules == old(selectedModules) && srStep == old(srStep) && srPlanInfo == old(srPlanInfo)
      ensures Trim(key) != "" ==> sent == Some(Trim(key))
      ensures Trim(key) != "" && outcome.Unreachable? ==> srError == NoConnection
      ensures Trim(key) != "" && outcome.Checked? && !outcome.ok ==>
                srError == (if Truthy(outcome.error) then outcome.error.value else CheckFailed)
      ensures Trim(key) != "" && outcome.Checked? && outcome.ok ==>
                && srError == ""
                && srPlanInfo == Some(PlanInfo(outcome.plan, outcome.hasAiOverview))
                && srStep == 3
                && selectedModules == Dedup(old(selectedModules) + SemrushOffered(outcome.hasAiOverview))
      ensures Trim(key) != "" && !(outcome.Checked? && outcome.ok) ==>
                selectedModules == old(selectedModules) && srStep == old(srStep) && srPlanInfo == old(srPlanInfo)
      ensures step == old(step) && connected == old(connected) && northStars == old(northStars)
    {
      var trimmed := Trim(key);
      if trimmed == "" {
        srError := EmptyKey;
        sent := None;
      } else {
        sent := Some(trimmed);
        ApplyKeyCheck(outcome);
      }
    }

    method UpdateNorthStar(i: int, field: Field, value: string)
      requires Valid()
      modifies this
      ensures Valid()
      ensures northStars == UpdatedNorthStars(old(northStars), i, field, value)
      ensures step == old(step) && connected == old(connected) && selectedModules == old(selectedModules)
      ensures srStep == old(srStep) && srError == old(srError) && srPlanInfo == old(srPlanInfo)
    {
      northStars := UpdatedNorthStars(northStars, i, field, value);
    }
  }
}

=== FILE: wrappers.dfy ===
/** Optional values: the model's stand-in for `undefined`/`null` results. */
module Wrappers {

  datatype Option<+T> = None | Some(value: T) {

    /** The value, or `default` when there is none (JavaScript's `??`). */
    function GetOr(default: T): T {
      match this
      case Some(v) => v
      case None => default
    }
  }
}
